=== FILE: README.md ===
# Typst resume builder — a Dafny model of its core

The builder is a browser application. The user fills a form: personal details, four
repeatable sections (education, work, projects, research) and a skills text. The
builder then

- checks that the resume has a name and some real content;
- renders it as Typst source and compiles that with a WebAssembly Typst compiler;
- falls back to an HTML preview when SVG compilation fails;
- offers a PDF download whose file name is derived from the person's name.

It can also call the Gemini language-model API to generate sample data, to polish
descriptions and to fill in missing skills. Its interface text comes from two translation
tables, `zh-CN` and `en-US`.

This project models the decisions in that core as pure Dafny functions and proves what
they guarantee:

- `Typst` (typst.dfy):
  - escaping text for Typst markup;
  - building the skills section;
  - choosing which sections appear in the Typst document;
  - the four-method fallback chains of SVG and PDF compilation, and SVG-then-PDF vector
    compilation.
- `Generator` (generator.dfy):
  - export validation and the PDF file name;
  - the filtering rules of the HTML fallback preview;
  - which entries "enhance all" sends to the model, and what it keeps;
  - the branch logic of generating a resume and downloading it.
- `FormModel` (form.dfy):
  - item ids and their per-section counters;
  - parsing input names of the form `section_index_field`;
  - collecting the page into a resume record and filling the page from one;
  - removing an item, including the 300 ms during which it is marked but still on the page;
  - the default item data and clearing the form.
- `Gemini` (gemini.dfy):
  - the API-key test and model rotation;
  - the retry loop of a request over the configured models;
  - extracting the text from a reply and the text-enhancement contract;
  - the bracket-closing and trailing-comma repair of JSON replies;
  - normalising generated sample data.
- `I18n` and `I18nTables` (i18n.dfy, i18n_tables.dfy):
  - the two translation tables;
  - key lookup with fallback to the key itself;
  - `{param}` substitution with JavaScript's `String.prototype.replace` semantics;
  - switching and persisting the language.
- `HtmlInput` (html_input.dfy): what each kind of form control gives back from `value`
  after a value is written to it. Text inputs strip line breaks. URL inputs also strip
  surrounding ASCII whitespace. Month inputs keep only a valid month string. A textarea
  turns CR LF and CR into LF. This is the value sanitisation of section 4.10.5 and the
  API value of section 4.10.11 of the HTML Living Standard.
- `ResumeData`, `JsString` and `Wrappers` hold the resume record, the JavaScript string
  built-ins the program relies on (`trim`, `split`, `join`, `flatMap`, decimal rendering,
  UTF-16 length), and `Option` and `Result`.

The page is modelled by the values of its inputs: a map from element id to value for the
personal fields, the skills text, and for each section the items with their named inputs
in document order. A resume entry is a map from field name to string. A missing
property reads as `''`, which is how every consumer in the program treats it.

Everything the program receives from outside is a parameter:

- the outcome of each compile method;
- the reply of each HTTP exchange;
- the outcome of each enhancement request;
- the saved language.

## Model

| member | source | states |
|---|---|---|
| Typst.EscapeTypst | js/typst-integration.js:553-561 | The chain of five global replacements equals escaping each special character `\ " [ ] #` with a backslash independently, one character at a time. The backslash goes first, so an inserted backslash is never escaped twice. |
| Typst.EscapeEmpty | js/typst-integration.js:553-561 | Escaping gives the empty string exactly for the empty input. This covers the `if (!str) return ''` branch. |
| Typst.EscapeLength | js/typst-integration.js:553-561 | The escaped text is longer than the input by exactly the number of special characters. |
| Typst.EscapeRoundTrip | js/typst-integration.js:553-561 | Unescaping the escaped text gives back the original string. |
| Typst.EscapeInjective | js/typst-integration.js:553-561 | Two different strings never escape to the same markup. |
| Typst.AnyNonBlank | js/typst-integration.js:527 | A group has items exactly when some item is non-blank after trimming. |
| Typst.EscapeTrimmed | js/typst-integration.js:530-531 | Each item is trimmed and then escaped, in place, keeping the count. |
| Typst.DropEmpty | js/typst-integration.js:532 | `filter(Boolean)` keeps only non-empty strings and never lengthens the list. |
| Typst.DropEmptySingle | js/typst-integration.js:532 | A single string survives exactly when it is not empty. |
| Typst.DropEmptyAppend | js/typst-integration.js:532 | Filtering two lists one after the other gives the two filtered lists concatenated. With the single case this fixes the result: the non-empty strings, in their order. |
| Typst.EscapeThenDropIsKept | js/typst-integration.js:530-532 | Map-then-filter equals keeping the escaped trimmed form of exactly the non-blank items. |
| Typst.KeptItemsNonEmpty | js/typst-integration.js:527-534 | Some item survives the filter exactly when the `hasItems` test passes, so the second emptiness check never fires. |
| Typst.TypstSkillLine | js/typst-integration.js:526-543 | A group yields a line exactly when it has a non-blank item. The line holds the surviving items. It carries a heading exactly when the category is non-blank, and that heading is the escaped trimmed category. |
| Typst.RenderSkillLine | js/typst-integration.js:536-543 | A rendered skill line is never empty, so `.filter(Boolean)` drops only the groups without items. |
| Typst.TypstSkillLines | js/typst-integration.js:526-544 | There are at most as many lines as groups. |
| Typst.TypstSkillLinesFromGroups | js/typst-integration.js:526-544 | Every line is the line of one of the groups. |
| Typst.TypstSkillLinesAppend | js/typst-integration.js:526-544 | The lines of two group lists, one after the other, are the lines of each list concatenated. Each group contributes independently. |
| Typst.TypstSkillLinesEmpty | js/typst-integration.js:526-546 | There are no lines exactly when no group has a non-blank item. |
| Typst.SkillsSection | js/typst-integration.js:513-551 | An empty list gives `''`. Otherwise the result is the header followed by the rendered lines joined with the literal two-character `\n` separator. Joining no lines gives `''`, so only the header appears when no group has items. |
| Typst.AnyTitledPaper | js/typst-integration.js:407 | The test is true exactly when some paper has a truthy title or journal. |
| Typst.KeepBlocks | js/typst-integration.js:394-414 | A block is kept exactly when its section's condition holds. |
| Typst.KeepBlocksOrdered | js/typst-integration.js:394-414 | Filtering keeps the fixed section order. |
| Typst.TypstBlocks | js/typst-integration.js:394-414 | Each section appears exactly under its condition: a non-empty list, a titled paper for research, a non-empty skills array. Sections come in the order education, work, projects, research, skills. |
| Typst.FirstSuccess | js/typst-integration.js:146-159 | The chain succeeds exactly when some method returns a non-empty result. The output is that of the first such method, and every earlier method failed. When nothing succeeds, all methods were tried. |
| Typst.Compile | js/typst-integration.js:139-159 | Method k is used, and its output returned, exactly when it returns a non-empty result and methods 1..k-1 threw or returned nothing; this holds for the fourth method too. The chain fails exactly when all four fail. One definition serves the SVG loop and the identical PDF loop at lines 220-240. |
| Typst.CompileTo | js/typst-integration.js:128-159 | Without a loaded compiler, `this.api` is `null` and the chain throws at line 130 before any method runs: nothing is produced and no method is tried. With one, it is `Typst.Compile`. It produces output exactly when the compiler loaded and some method succeeds. |
| Typst.CompileToVectorFormat | js/typst-integration.js:292-313 | Without a loaded compiler it fails with no method tried. SVG wins whenever it succeeds, and then no PDF method runs. With a loaded compiler whose SVG chain fails, all four SVG methods ran and the PDF chain's output is the document, with the PDF chain's method count. It fails exactly when both chains fail. |
| Typst.CompileToVectorFormatByMethods | js/typst-integration.js:292-313 | Read against the eight methods: with a loaded compiler, an SVG exactly when some SVG method succeeds and a PDF exactly when none does and some PDF method does; each chain then runs between one and four methods, and PDF runs only after four SVG methods. Without a compiler there is no document and no method runs. |
| Generator.SomeEntryWith | js/resume-generator.js:163-169 | The `.some` test is true exactly when some entry has a non-blank value in one of the two key fields. |
| Generator.ValidateResumeData | js/resume-generator.js:148-219 | The record is valid exactly when there is a personal object with a non-blank name and at least one section has an entry with a non-blank key field. The key fields are institution/degree, company/position, name/role and title/journal. |
| Generator.ValidationDependsOnlyOnView | js/resume-generator.js:148-219 | Two records with the same name and the same key-field values validate alike. No other field influences the result. |
| Generator.ValidResumeHasTypstSection | js/resume-generator.js:93-102 | A record that passes validation always produces at least one section in the Typst document. |
| Generator.SanitizeName | js/resume-generator.js:497 | Every character outside `[a-zA-Z0-9一-鿿]` becomes `_`. The JavaScript length is preserved, because the regex replaces each UTF-16 unit separately. |
| Generator.SanitizeIdempotent | js/resume-generator.js:497 | Sanitising twice is sanitising once. |
| Generator.GenerateFilename | js/resume-generator.js:496-501 | The file name is the sanitised name, then `_简历.pdf` for `zh-CN` or `_Resume.pdf` for any other language. |
| Generator.FilenameKeepsName | js/resume-generator.js:496-501 | The sanitised name is a prefix of the file name, has the name's JavaScript length, and is followed by `_`. |
| Generator.DescriptionBullets | js/resume-generator.js:352 | Every non-blank line of the description appears trimmed among the bullets. Every bullet is non-empty, trimmed and free of newlines, and there are no more bullets than lines. An empty description gives none. |
| Generator.DescriptionBulletsOfLines | js/resume-generator.js:352 | The bullets are exactly the trimmed non-blank pieces of `split('\n')`, in order, the empty description included. |
| Generator.DescriptionBulletsJoin | js/resume-generator.js:352 | Two descriptions joined by a line break give the first one's bullets followed by the second one's, so each line contributes independently. |
| Generator.DescriptionBulletsLine | js/resume-generator.js:352 | A single line gives its trimmed text as the one bullet, or no bullet when it is blank. |
| Generator.TrimmedNonEmptyAppend | js/resume-generator.js:352 | Keeping the trimmed non-blank lines of two line lists, one after the other, keeps those of each list in turn. |
| Generator.BulletsRoundTrip | js/resume-generator.js:352 | Joining trimmed non-empty lines with newlines and taking the bullets gives back exactly those lines. |
| Generator.HtmlSkillLine | js/resume-generator.js:398-411 | A group yields an HTML line exactly when an item is non-blank. The line holds the trimmed non-empty items. The category is shown untrimmed when it is non-blank. |
| Generator.RenderersAgreeOnSkills | js/resume-generator.js:398-411 | The HTML preview and the Typst document keep the same skill groups. A group's Typst items are the escaped form of its HTML items, and both carry a heading under the same condition. |
| Generator.HtmlSkillLines | js/resume-generator.js:394-417 | The HTML skills block is empty exactly when no group has a non-blank item. |
| Generator.HtmlBlocks | js/resume-generator.js:338-418 | Each section is shown exactly when its list is non-empty. Skills are shown exactly when some group has items. |
| Generator.HtmlCoversTypst | js/resume-generator.js:338-418 | Every section of the Typst document also appears in the HTML fallback, given that the skills have a non-blank item. |
| Generator.EnhanceSection | js/resume-generator.js:536-566 | An entry's description is replaced exactly when it has a description and its key field and its request succeeded. Every other entry is left as it was. |
| Generator.EnhanceAll | js/resume-generator.js:523-597 | With no API key nothing happens. Otherwise the form is repopulated with enhanced work, projects and research; personal data and education are untouched. Existing skills are kept, and generated skills are used only when none exist. |
| Generator.FailedEnhancementKeepsEntry | js/resume-generator.js:538-541 | A failed or ineligible enhancement leaves its entry exactly as it was. |
| Generator.EnhanceAllAsWritten | js/resume-generator.js:523-597 | With no API key nothing happens. With a key, the operation as written aborts exactly when the skills are a non-empty string. Whenever it does repopulate the form, it does exactly what the corrected operation does. |
| Generator.SkillsTestsAgree | js/resume-generator.js:572 | Whenever the written skills test does not throw, it answers as the corrected test. |
| Generator.AsWrittenAgreesWithoutSkillsText | js/resume-generator.js:572 | When skills are empty or a list, the code as written behaves as the corrected operation. |
| Generator.AsWrittenDiscardsEnhancements | js/resume-generator.js:572 | Exhibits a record with skills text `"Python"` for which the code as written aborts, while the corrected operation keeps the new work description. |
| Generator.GenerateResume | js/resume-generator.js:80-146 | A call while generating changes nothing. An invalid record only clears the stored PDF. A valid one always enables download with a non-empty preview. It stores PDF bytes exactly when the PDF chain succeeds, and otherwise shows the SVG or the HTML preview. Both chains go through `Typst.CompileTo`, so a compiler that failed to load counts as failure. |
| Generator.DownloadPdf | js/resume-generator.js:467-494 | Stored bytes are saved under the generated file name. Otherwise a non-empty preview is printed. "No PDF" is reported exactly when there are no bytes and the preview is empty. |
| Generator.DownloadAfterGenerate | js/resume-generator.js:80-146 | After generating a valid record, download never reports "no PDF". It saves a file whenever the PDF chain succeeded. |
| Generator.NoCompilerShowsHtml | js/resume-generator.js:107-139 | When the compiler failed to load, a valid record shows the HTML preview, stores no PDF, and download prints the preview. |
| FormModel.DefaultItemData | js/form-manager.js:453-491 | A known section gets exactly its template's fields, all empty. An unknown section gets `{}`. |
| FormModel.AddItem | js/form-manager.js:58-85 | For a known section, one item with id `${section}_${counter}` is appended and that counter goes up by one. Every other part of the form is unchanged. An unknown section changes nothing. |
| FormModel.ItemIdSplit | js/form-manager.js:64 | Splitting an item id at `_` gives the section key and the counter's digits, so an id has exactly one underscore. |
| FormModel.IdNumberOfItemId | js/form-manager.js:64 | The number is read back from an item id. |
| FormModel.ItemIdInjective | js/form-manager.js:64 | Different sections or counters give different ids. |
| FormModel.FindItem | js/form-manager.js:88-89 | `getElementById` finds the first item with the id in page order. When it reports none, no item has that id. |
| FormModel.RemoveItem | js/form-manager.js:87-103 | A removal that completes before the next one starts: a missing id, or a section down to one item, leaves the form unchanged. Otherwise exactly the found item is removed from its container, keeping the others in order. |
| FormModel.RemoveKeepsOneItem | js/form-manager.js:91-95 | A removal through an item's own button that completes before the next one starts never empties its section. |
| FormModel.StartRemoveAsWritten | js/form-manager.js:87-97 | A missing id, or a container with at most one child, leaves the page unchanged. Otherwise the item is marked as being removed and stays in its container. Marked items still count as children. |
| FormModel.Fire | js/form-manager.js:99-102 | When a marked item's timer fires, the item with that id leaves every container and is no longer pending. Counters, personal fields and skills are unchanged. |
| FormModel.RemoveItemIsStartThenFire | js/form-manager.js:87-103 | With nothing pending, marking and then firing the timer is `RemoveItem`. When the guard refuses, the page is `RemoveItem`'s unchanged form. |
| FormModel.TwoQuickRemovalsEmptySection | js/form-manager.js:87-103 | In a section of two items, clicking both remove buttons within 300 ms marks both. Once both timers fire the section is empty. |
| FormModel.StartRemove | js/form-manager.js:87-97 | The corrected start of a removal: the guard counts only the items not already marked. A missing id or a last unmarked item leaves the page unchanged. Otherwise the item is marked. |
| FormModel.StartRemoveKeepsOneUnmarked | js/form-manager.js:87-97 | With the corrected guard, clicking an item's own remove button keeps an unmarked item in every section. |
| FormModel.FireKeepsOneUnmarked | js/form-manager.js:99-102 | A timer firing takes out an item that was already marked, so every section keeps an unmarked item. |
| FormModel.FireKeepsNumbering | js/form-manager.js:99-102 | A timer firing keeps ids increasing and below their counters. |
| FormModel.KeepsOneUnmarkedNotEmpty | js/form-manager.js:91-95 | A page on which every section keeps an unmarked item has no empty section. Together with the two lemmas before it, no interleaving of clicks and timers empties a section under the corrected guard. |
| FormModel.WellNumberedIdsDistinct | js/form-manager.js:64 | In a well-numbered form all item ids are distinct. |
| FormModel.AddItemKeepsNumbering | js/form-manager.js:64 | Adding an item keeps ids increasing and below their counters. |
| FormModel.RemoveItemKeepsNumbering | js/form-manager.js:87-103 | Removing an item keeps ids increasing and below their counters. |
| FormModel.ParseFieldNameShape | js/form-manager.js:546-553 | A name is rejected exactly when it has fewer than two underscores. Otherwise the field is everything after the second underscore. |
| FormModel.ParseFieldNameIsSplitJoin | js/form-manager.js:546-553 | Reading the name after its second underscore equals `split('_')`, then `slice(2).join('_')` when there are at least three parts. |
| FormModel.ParseFieldNameRoundTrip | js/form-manager.js:546-549 | The name `${itemId}_${field}` of a template input gives back `field`, underscores in the field included. |
| FormModel.ShortNameIgnored | js/form-manager.js:547 | A name without an underscore is not a field name. |
| FormModel.CollectItem | js/form-manager.js:536-559 | Every collected value is trimmed. |
| FormModel.CollectTemplateItem | js/form-manager.js:536-559 | A template item collects to exactly its fields, mapped to their trimmed values. |
| FormModel.NewItemCollectsToDefault | js/form-manager.js:71 | A freshly added item, read from the page, collects to `getDefaultItemData(section)`. |
| FormModel.CollectPersonal | js/form-manager.js:507-516 | Exactly the personal fields whose input exists are collected, each trimmed. |
| FormModel.CollectFormData | js/form-manager.js:493-573 | The personal record is the trimmed values of the existing personal inputs. Skills are the trimmed skills text. |
| FormModel.CollectedEntries | js/form-manager.js:529-565 | Each section's entries are its items collected in page order. |
| FormModel.PopulateForm | js/form-manager.js:575-639 | The personal inputs named in the record take their values and the others keep theirs. Empty skills leave the skills text alone. Each section gets one item per entry, or one default item when it has none. |
| FormModel.PopulateNumbers | js/form-manager.js:585-629 | After populating, every section is well numbered and its counter equals its item count. |
| FormModel.PopulateThenCollect | js/form-manager.js:575-639 | Collecting right after populating gives each entry back as exactly its template's fields. Each value is what its control gives back, trimmed: line breaks stripped from text and URL inputs, an invalid month dropped, CR normalised in the description. A section without entries comes back as one default item. |
| FormModel.InvalidDateCollectsEmpty | js/form-manager.js:604-617 | A date that is not a valid month string, written into a month input, is collected as `''`. |
| FormModel.PopulateThenCollectPersonal | js/form-manager.js:588-594 | A personal field written by populating is read back trimmed. |
| FormModel.PopulateThenCollectFixpoint | js/form-manager.js:575-639 | An entry that already has exactly its template's fields comes back unchanged when its values are trimmed and each is kept by its control. |
| FormModel.ClearFormAsWritten | js/form-manager.js:658-667 | `clearForm` as written leaves every personal input and the skills text as they were. Each section gets one fresh default item numbered 0, and its counter becomes 1. |
| FormModel.ClearFormAsWrittenKeepsPersonal | js/form-manager.js:658-667 | After `clearForm` as written, collecting still reads every personal value the user had entered. |
| FormModel.ClearFormAsWrittenNotBlank | js/form-manager.js:658-667 | After `clearForm` as written, a non-blank name (or other personal value) is still collected non-blank. |
| FormModel.ClearForm | js/form-manager.js:658-667 | The corrected clear empties every personal input and the skills text. Its items and counters are those of the code as written. |
| FormModel.ClearFormBlank | js/form-manager.js:658-667 | After the corrected clear, every input is empty and each section holds one fresh default item numbered 0. |
| FormModel.BlankFormCollectsBlank | js/form-manager.js:658-667 | A cleared page collects to a record whose values are all empty and whose sections each hold the default item. |
| FormModel.BlankFormNumbered | js/form-manager.js:658-667 | A cleared page is well numbered. |
| Gemini.HasApiKey | js/gemini-api.js:24-26 | There is a key exactly when it is non-empty. |
| Gemini.SwitchToNextModel | js/gemini-api.js:28-32 | The next index stays in range: it is the successor, wrapping to 0 after the last model. |
| Gemini.SwitchTimesIsModular | js/gemini-api.js:28-32 | Switching k times from index i lands on `(i + k) mod n`. |
| Gemini.FullCycle | js/gemini-api.js:28-32 | Switching once per model returns to the starting model. |
| Gemini.ExtractText | js/gemini-api.js:93-109 | The text is taken from `candidates[0].content` first, then from `content.parts`, then from a non-empty `text`. It fails with an invalid-format error exactly when none applies. A missing or empty `parts` array throws. |
| Gemini.StandardReplyExtracts | js/gemini-api.js:93-94 | A body in the documented shape, `candidates[0].content.parts[0].text == t`, yields `t`, whatever else it holds. |
| Gemini.PlainTextReplyExtracts | js/gemini-api.js:97-98 | A body with only a non-empty `text` yields that text. |
| Gemini.Attempts | js/gemini-api.js:60-121 | The loop stops within the number of models and makes at least one attempt when any remain. |
| Gemini.AttemptsAnswerIff | js/gemini-api.js:60-121 | The loop answers exactly when some remaining attempt gets a usable reply. |
| Gemini.AttemptsFirstAnswer | js/gemini-api.js:60-121 | The answer is that of the first attempt that got one, every earlier attempt failed, and the model was switched once per failure. |
| Gemini.AttemptsAllFail | js/gemini-api.js:60-123 | When every attempt fails, all were made and the last error is thrown. The model was switched after each failure except the last. |
| Gemini.MakeRequest | js/gemini-api.js:38-124 | Without a key the request fails before any attempt. With a key it succeeds exactly when some attempt succeeds, with the first success as its answer. When all fail it throws the last error. An empty model list fails without an attempt. |
| Gemini.AllFailedAdvance | js/gemini-api.js:60-123 | After a fully failed request the current model is n−1 positions further on. |
| Gemini.ShippedListSingleAttempt | js/gemini-api.js:57-123 | With the single configured model, a request makes exactly one attempt and leaves the model index at 0. |
| Gemini.EnhanceText | js/gemini-api.js:272-305 | Empty text is refused without a request. Otherwise, when the request answers with text, the result is that text trimmed; it succeeds only then, and every other failure is `Failed to enhance text`. |
| Gemini.EnhanceTextStandardReply | js/gemini-api.js:272-305 | With the shipped model list and a reply in the documented shape, the result is the reply's text trimmed, after one attempt. |
| Gemini.EnhanceTextFailureIsUniform | js/gemini-api.js:299-305 | Non-empty text fails exactly when the request does not answer with text. |
| Gemini.BalanceBrackets | js/gemini-api.js:251-264 | The missing `}` and then `]` are appended, so closers are no fewer than openers afterwards. |
| Gemini.StripTrailingCommas | js/gemini-api.js:267 | Removing commas before a closer never lengthens the text. |
| Gemini.StripKeepsCounts | js/gemini-api.js:267 | Removing commas before a closer changes no count of any other character. |
| Gemini.RepairJsonTail | js/gemini-api.js:251-269 | The result is the text with the missing `}` and then the missing `]` appended, then its trailing commas removed. After repair, closers are no fewer than openers, and an already balanced text only loses its trailing commas. |
| Gemini.NormalizeSampleData | js/gemini-api.js:215-227 | Data without a personal name is rejected. Otherwise missing lists become empty and falsy skills become `''`; everything present is kept. |
| Gemini.NormalizeKeepsComplete | js/gemini-api.js:215-227 | Data with every property present passes unchanged when it has a personal name, and is rejected otherwise. |
| Gemini.NormalizeIdempotent | js/gemini-api.js:215-227 | Normalising already normalised data changes nothing. |
| HtmlInput.StripNewlines | js/form-manager.js:205 | A text input's value loses exactly its LF and CR characters; every other character is kept. |
| HtmlInput.StripNewlinesSingle | js/form-manager.js:205 | A single character is kept exactly when it is not a line break. |
| HtmlInput.StripNewlinesAppend | js/form-manager.js:205 | Stripping distributes over concatenation. With the single case this fixes the result: the other characters, in order, repeats included. |
| HtmlInput.StripAsciiWhitespace | js/form-manager.js:358 | The result of a URL input is a contiguous stretch of the value with only ASCII whitespace before and after it. It starts and ends with no ASCII whitespace, and is unchanged when the value already does. |
| HtmlInput.NormalizeNewlines | js/form-manager.js:247 | A textarea's value holds no CR, is no longer than what was written, and is unchanged when nothing written held a CR. |
| HtmlInput.NormalizeCrLf | js/form-manager.js:247 | A CR LF pair becomes one LF. |
| HtmlInput.NormalizeLoneCr | js/form-manager.js:247 | A CR not followed by LF becomes an LF. |
| HtmlInput.NormalizeOther | js/form-manager.js:247 | Every character other than CR passes through. With the two cases above and the empty string this fixes the result. |
| HtmlInput.ReadBack | js/form-manager.js:205-247 | Only a textarea can give back a line break, and no control gives back a CR. Writing `''` reads back `''`. |
| HtmlInput.ReadBackMonth | js/form-manager.js:226 | A month input gives back `''` or a valid month string: four or more digits for a year above 0, `-`, and a month from 01 to 12. |
| HtmlInput.ReadBackKeeps | js/form-manager.js:226-247 | A written value comes back unchanged exactly when its control keeps it. |
| HtmlInput.ReadBackIdempotent | js/form-manager.js:226-247 | Writing back what a control gave changes nothing. |
| I18n.Lookup | js/i18n.js:321 | A key is found exactly when the table has it. The value is that of the key's last occurrence, as an object literal keeps the last duplicate. |
| I18n.TablesHaveSameKeys | js/i18n.js:6-307 | The two shipped tables define the same keys. |
| I18nTables.TablesAligned | js/i18n.js:6-307 | The `zh-CN` and `en-US` tables list the same keys in the same order. |
| I18n.AvailableLanguages | js/i18n.js:402-404 | A language is listed exactly when it has a table. |
| I18n.LoadedLanguages | js/i18n.js:402-404 | The program offers `zh-CN` and `en-US`, in that order. |
| I18n.Load | js/i18n.js:4 | A non-empty saved language becomes current, otherwise `zh-CN`. The current language has a table exactly when nothing non-empty was saved or the saved one is `zh-CN` or `en-US`. |
| I18n.ProgramLanguagesKnown | js/i18n.js:5-307 | A language has a table exactly when it is `zh-CN` or `en-US`. |
| I18n.LoadDefaultKnown | js/i18n.js:4 | With nothing saved, the start language is `zh-CN`, which has a table. |
| I18n.SetLanguage | js/i18n.js:331-343 | A known language becomes current and is saved. An unknown one changes nothing and saves nothing. |
| I18n.SetLanguageKeepsKnown | js/i18n.js:331-343 | A switch keeps the current language's table: if the current language had one before, it has one after. |
| I18n.SetLanguageThenLoad | js/i18n.js:331-343 | Restarting with the saved language restores the state that `setLanguage` produced. |
| I18n.SwitchKeepsKeys | js/i18n.js:331-343 | Switching language never changes which keys translate. |
| I18n.ReplaceFirst | js/i18n.js:325 | With no occurrence of the pattern the text is unchanged. Otherwise the text before the first occurrence and the text after it are kept. |
| I18n.SubstituteParams | js/i18n.js:324-326 | When no parameter's `{name}` occurs in the text, substitution changes nothing. |
| I18n.Translate | js/i18n.js:320-328 | A key with a non-empty translation gives that translation with its parameters substituted. A missing key or an empty translation gives the key itself, with its parameters substituted. |
| I18n.PlainSubstitution | js/i18n.js:325 | A replacement without `$` is inserted literally. |
| I18n.EscapedDollar | js/i18n.js:325 | The replacement `$$` inserts a single `$`. |
| I18n.ReplaceAbsent | js/i18n.js:325 | A missing placeholder leaves the text unchanged. |
| I18n.ReplacePlain | js/i18n.js:325 | The first occurrence of the placeholder, and only it, is replaced by the value. |
| I18n.ReplaceOnlyFirst | js/i18n.js:325 | A later occurrence of the placeholder survives the replacement, shifted by the change in length. |
| I18n.TranslateFound | js/i18n.js:320-328 | A key with a non-empty translation, and no parameters, gives that translation. |
| I18n.TranslateFallsBack | js/i18n.js:321 | A missing key, or one with an empty translation, gives the key itself. |
| I18n.TranslateOneParam | js/i18n.js:320-328 | With one parameter, the first `{name}` in the translation is replaced by the value. |
| JsString.TrimIdempotent | js/form-manager.js:549 | Trimming a collected value again changes nothing. |
| JsString.Split | js/form-manager.js:546 | `split` never returns an empty array, no piece contains the separator, and joining the pieces restores the string. |
| JsString.SplitJoin | js/form-manager.js:546-548 | Splitting undoes joining when no piece contains the separator. |
| JsString.NatToString | js/form-manager.js:64 | The decimal rendering of a counter is a non-empty string of digits. |
| JsString.DecimalRoundTrip | js/form-manager.js:64 | Reading the decimal rendering back gives the counter. |
| ResumeData.SectionNameRoundTrip | js/form-manager.js:577 | Every section is found again under its own key. |

## Left out

- The DOM is not modelled:
  - element creation, templates' HTML, animations and toasts;
  - `translatePage` and the `data-i18n` attribute walk;
  - `updatePlaceholders` and the `languageChanged` event;
  - `document.documentElement.lang`.
  The page is abstracted to the values of its inputs.
- index.html is not part of this model. Every personal input and the skills input are
  assumed to exist when a form is collected, and a personal field absent from the map is
  treated as a missing input. Their control types are not known, so personal values and
  the skills text are read back as written.
- Storage is not modelled: `localStorage` reads and writes of the form, the key, the job
  description and the language, and the `formData` cache. Only the saved language is a
  parameter of `I18n.Load`.
- The network is not modelled: `fetch`, the request body, prompts and HTTP status text.
  Each exchange's outcome is a parameter, and no timing is modelled.
- WebAssembly compiler initialisation is reduced to whether it succeeded (`loaded`). The
  bodies of the eight compile methods are not modelled; each method's outcome (threw,
  nothing, or output) is a parameter.
- The Typst and HTML templates of each section are not modelled: the document header,
  the personal line, dates and icons. The model covers which sections appear and the skills
  section, which hold the logic.
- The regular-expression JSON extraction of generated sample data and the two key- and
  value-quoting regexes of `repairJsonString` are not modelled. Their behaviour on
  arbitrary text depends on regex back-tracking. Bracket balancing and trailing-comma
  removal are modelled.
- The prompts of `generateSkills`, `enhanceWorkDescription` and
  `enhanceProjectDescription` are not modelled; these operations are the request contract
  of `Gemini.MakeRequest` and `Gemini.EnhanceText`.
- The concurrency of `Promise.all` in "enhance all" is not modelled. Each request's outcome
  is a parameter, and the result does not depend on their order because each writes its
  own entry.
- `formatDate` is not modelled, because it depends on `Date` and the clock.
- app.js is not part of this model: theme, help dialog and keyboard wiring.
- `enhanceItem` (single-item enhancement) is not modelled separately; it sends the item's
  fields to the model and writes the reply back into one input.
- FormModel.AddItem: the `formData` cache is not modelled, so neither is the TypeError at
  line 71 when the cache has no array for the section. `clearForm` leaves the cache in
  that state for `research`, since its record has no `research` key and `populateForm` stores
  it at line 633. The next `addItem('research')` from the add button then throws after
  appending the item and before wiring its remove button. A second `clearForm` with no
  input in between throws out of `populateForm` and keeps the saved form in storage.
- FormModel.RemoveItem: models a removal that completes before the next click. The
  300 ms between marking and taking out an item is modelled by `FormModel.Page`,
  `FormModel.StartRemoveAsWritten` and `FormModel.Fire`, and the race it opens is a finding
  below.
- FormModel.RemoveKeepsOneItem: holds only for removals that complete one at a time. Two
  quick clicks can empty a section (`FormModel.TwoQuickRemovalsEmptySection`).
- FormModel.StartRemoveAsWritten: a second click on an already marked item schedules a
  second timer in the program. Its `remove()` finds the element gone and does nothing, so
  the model marks the item once.
- FormModel.PopulateThenCollectFixpoint: only an entry whose values its controls keep
  comes back unchanged. Any other entry comes back sanitised, as
  `FormModel.PopulateThenCollect` states.
- The `saveToStorage` call after a removal is not modelled, because storage is not.
- I18n.Lookup: keys inherited from `Object.prototype`, such as `constructor`, are not
  modelled. The tables are plain key/value lists.
- I18n.Translate: parameters are substituted in list order. The program uses
  `Object.keys` order, which for its call sites is insertion order.
- Gemini.StripTrailingCommas: states only that the text does not grow and that other
  characters' counts are kept, not the exact regex result.
- Typst.TypstSkillLines: its own contract states only a length bound. Where each line
  comes from, their order and when there are none are stated by
  `Typst.TypstSkillLinesFromGroups`, `Typst.TypstSkillLinesAppend` and
  `Typst.TypstSkillLinesEmpty`.
- Typst.DropEmpty: its own contract states only that survivors are non-empty and that the
  list does not grow. Content and order are stated by `Typst.DropEmptySingle`,
  `Typst.DropEmptyAppend` and, for the skill items, `Typst.EscapeThenDropIsKept`.
- HtmlInput.StripNewlines: its own contract states which characters remain, not their
  order. Order and repeats are stated by `HtmlInput.StripNewlinesSingle` and
  `HtmlInput.StripNewlinesAppend`.
- HtmlInput.NormalizeNewlines: its own contract states no CR, a length bound and the
  CR-free case. The CR LF, lone CR and other-character steps are stated by
  `HtmlInput.NormalizeCrLf`, `HtmlInput.NormalizeLoneCr` and `HtmlInput.NormalizeOther`.
- Gemini.SwitchToNextModel: a zero-length model list is excluded by `requires n > 0`. The
  program's list is non-empty, and the switch is unreachable with none because the retry
  loop makes no attempt.
- Generator.SanitizeName: the character-by-character mapping is stated only for names
  without characters above U+FFFF. For other names the contract states the kept length
  and the allowed characters; such a character becomes `__`, one `_` per UTF-16 half.

## Findings

| source | as written | input that shows it | evidently intended | confidence | as-written member | corrected member |
|---|---|---|---|---|---|---|
| js/resume-generator.js:572 | `formData.skills.some(...)` is called on the skills of the collected form, which are always a string. On a non-empty string `some` is not a function, the call throws, and the outer catch discards every finished enhancement without repopulating the form. | Skills text `Python` and one work entry with a position and a description whose enhancement succeeds | Test whether the skills text or list is non-blank, keep existing skills, and repopulate the form with the enhanced descriptions | high (not executed) | Generator.AsWrittenDiscardsEnhancements | Generator.EnhanceAll |
| js/form-manager.js:87-103 | `removeItem` marks the item and takes it out 300 ms later. The guard counts the container's children, and marked items are still children. | A section with two items whose remove buttons are clicked within 300 ms: both clicks pass the guard, and both items go | Refuse a removal that would leave the section without an item that is not already being removed | medium (not executed) | FormModel.TwoQuickRemovalsEmptySection | FormModel.StartRemoveKeepsOneUnmarked |
| js/form-manager.js:658-667 | `clearForm` populates with `personal: {}` and `skills: ''`. Populating writes only the personal keys present and skips falsy skills, so every personal input and the skills text keep their values. | A form whose name input holds `Ada`: after clearing, collecting still yields `Ada` | Clearing empties every personal input and the skills text, and leaves one default item per section | high (not executed) | FormModel.ClearFormAsWrittenNotBlank | FormModel.ClearFormBlank |

=== FILE: form.dfy ===
/**
 * The form plumbing between the page and the resume record: item ids, the input names
 * that carry a field name after `section_index_`, collecting the page into a record and
 * filling the page from one. The page is modelled by the values of its inputs; the DOM,
 * event wiring and storage are not.
 */
module FormModel {
  import opened Wrappers
  import opened JsString
  import opened ResumeData
  import opened HtmlInput

  /** The ids of the personal-information inputs, in the order they are collected. */
  const PersonalFields: seq<string> := ["name", "pronouns", "location", "email", "phone", "github", "linkedin", "website", "orcid"]

  /** The fields of an item template, in the order its inputs appear. */
  function TemplateFields(s: Section): (fields: seq<string>)
    ensures |fields| >= 6 && fields[|fields| - 1] == "description"
  {
    match s
    case Education => ["institution", "degree", "location", "startDate", "endDate", "gpa", "description"]
    case Work => ["company", "position", "location", "startDate", "endDate", "description"]
    case Projects => ["name", "role", "url", "startDate", "endDate", "description"]
    case Research => ["title", "journal", "authors", "date", "doi", "description"]
  }

  /** The control each template renders a field as: `month` inputs for dates, `url` inputs for links, a text area for the description. */
  function ControlOf(f: string): Control {
    if f == "startDate" || f == "endDate" || f == "date" then MonthInput
    else if f == "url" || f == "doi" then UrlInput
    else if f == "description" then TextArea
    else TextInput
  }

  /** What the input for field `f` gives back after `populateForm` wrote `values[f] || ''` into it. */
  function FieldValue(values: Record, f: string): string {
    ReadBack(ControlOf(f), Field(values, f))
  }

  /** `getDefaultItemData`: every field of the section's template, empty; nothing for an unknown section. */
  function DefaultItemData(section: string): (r: Record)
    ensures ParseSection(section).None? ==> r == map[]
    ensures ParseSection(section).Some? ==>
              (forall f :: f in r <==> f in TemplateFields(ParseSection(section).value))
    ensures forall f :: f in r ==> r[f] == ""
  {
    match ParseSection(section)
    case None => map[]
    case Some(s) => map f | f in TemplateFields(s) :: ""
  }

  // ---------------------------------------------------------------------------
  // Ids and input names
  // ---------------------------------------------------------------------------

  /** `${section}_${counter}`. */
  function ItemId(s: Section, k: nat): string {
    SectionName(s) + "_" + NatToString(k)
  }

  /** Split at its one underscore, an item id gives the section's name and the counter's digits. */
  lemma ItemIdSplit(s: Section, k: nat)
    ensures Split(ItemId(s, k), '_') == [SectionName(s), NatToString(k)]
  {
    var digits := NatToString(k);
    assert '_' !in digits;
    SplitAfterPrefix(SectionName(s), '_', digits);
    SplitNoSeparator(digits, '_');
  }

  /** The number after the section prefix of an item id (0 when there is none). */
  function IdNumber(s: Section, id: string): nat {
    NumberAfter(|SectionName(s)| + 1, id)
  }

  /** The decimal number `id` holds from position `p` on, or 0 when that part is empty or not all digits. */
  function NumberAfter(p: nat, id: string): nat {
    if |id| > p && forall i :: p <= i < |id| ==> '0' <= id[i] <= '9' then DecimalValue(id[p..]) else 0
  }

  lemma NumberAfterPrefix(a: string, d: string)
    requires |d| >= 1 && forall i :: 0 <= i < |d| ==> '0' <= d[i] <= '9'
    ensures NumberAfter(|a|, a + d) == DecimalValue(d)
  {
    var id := a + d;
    assert id[|a|..] == d;
    assert forall i :: |a| <= i < |id| ==> id[i] == d[i - |a|];
  }

  lemma IdNumberOfItemId(s: Section, k: nat)
    ensures IdNumber(s, ItemId(s, k)) == k
  {
    NumberAfterPrefix(SectionName(s) + "_", NatToString(k));
    DecimalRoundTrip(k);
  }

  /** Item ids name their section and their counter value: no two (section, counter) pairs share one. */
  lemma ItemIdInjective(s: Section, k: nat, t: Section, m: nat)
    requires ItemId(s, k) == ItemId(t, m)
    ensures s == t && k == m
  {
    assert ItemId(s, k)[0] == SectionName(s)[0];
    assert ItemId(t, m)[0] == SectionName(t)[0];
    IdNumberOfItemId(s, k);
    IdNumberOfItemId(t, m);
  }

  /** The position of the first `c` in `s`. */
  function IndexOf(s: string, c: char): (r: Option<nat>)
    ensures r.Some? ==> r.value < |s| && s[r.value] == c && c !in s[..r.value]
    ensures r.None? ==> c !in s
  {
    if |s| == 0 then None
    else if s[0] == c then Some(0)
    else match IndexOf(s[1..], c)
      case None => None
      case Some(i) => assert s[..i + 1] == [s[0]] + s[1..][..i]; Some(i + 1)
  }

  /** The field an input name carries: everything after its second underscore, if it has two. */
  function ParseFieldName(name: string): Option<string> {
    match IndexOf(name, '_')
    case None => None
    case Some(i) =>
      match IndexOf(name[i + 1..], '_')
      case None => None
      case Some(j) => Some(name[i + 1 + j + 1..])
  }

  /**
   * A name carries a field exactly when it has two underscores; the field is what follows
   * an underscore that has another one before it.
   */
  lemma ParseFieldNameShape(name: string)
    ensures ParseFieldName(name).None? <==> forall a, b :: 0 <= a < b < |name| && name[a] == '_' ==> name[b] != '_'
    ensures ParseFieldName(name).Some? ==>
              var f := ParseFieldName(name).value;
              var k := |name| - |f| - 1;
              0 <= k && name[k] == '_' && '_' in name[..k] && name[k + 1..] == f
  {
    var first := IndexOf(name, '_');
    if first.Some? {
      var i := first.value;
      var second := IndexOf(name[i + 1..], '_');
      if second.None? {
        OneUnderscore(name, i);
      } else {
        var k := i + 1 + second.value;
        assert name[k] == '_' && name[..k][i] == '_';
      }
    }
  }

  lemma OneUnderscore(name: string, i: nat)
    requires i < |name| && name[i] == '_' && '_' !in name[..i] && '_' !in name[i + 1..]
    ensures forall a, b :: 0 <= a < b < |name| && name[a] == '_' ==> name[b] != '_'
  {
    assert forall a :: 0 <= a < i ==> name[..i][a] == name[a];
    forall a, b | 0 <= a < b < |name| && name[a] == '_' ensures name[b] != '_' {
      assert name[i + 1..][b - i - 1] == name[b];
    }
  }

  /** The same as the program's `parts = name.split('_')`, kept when `parts.length >= 3`, as `parts.slice(2).join('_')`. */
  lemma ParseFieldNameIsSplitJoin(name: string)
    ensures ParseFieldName(name) == SplitJoinField(name)
  {
    var first := IndexOf(name, '_');
    if first.None? {
      SplitNoSeparator(name, '_');
    } else {
      var i := first.value;
      var second := IndexOf(name[i + 1..], '_');
      if second.None? {
        ParseOneUnderscore(name, i);
      } else {
        ParseTwoUnderscores(name, i, second.value);
      }
    }
  }

  /** The field as the program computes it, by splitting, slicing and re-joining. */
  function SplitJoinField(name: string): Option<string> {
    var parts := Split(name, '_');
    if |parts| >= 3 then Some(Join(parts[2..], "_")) else None
  }

  lemma ParseOneUnderscore(name: string, i: nat)
    requires IndexOf(name, '_') == Some(i) && IndexOf(name[i + 1..], '_').None?
    ensures ParseFieldName(name) == SplitJoinField(name) == None
  {
    SplitAtFirst(name, i);
    SplitNoSeparator(name[i + 1..], '_');
  }

  lemma ParseTwoUnderscores(name: string, i: nat, j: nat)
    requires IndexOf(name, '_') == Some(i) && IndexOf(name[i + 1..], '_') == Some(j)
    ensures ParseFieldName(name) == SplitJoinField(name) == Some(name[i + 1 + j + 1..])
  {
    SplitTwice(name, i, j);
  }

  /** Two separators peel off two pieces; the remaining pieces join back to the tail. */
  lemma SplitTwice(name: string, i: nat, j: nat)
    requires i < |name| && name[i] == '_' && '_' !in name[..i]
    requires j < |name[i + 1..]| && name[i + 1..][j] == '_' && '_' !in name[i + 1..][..j]
    ensures SplitJoinField(name) == Some(name[i + 1 + j + 1..])
  {
    var rest := name[i + 1..];
    SplitAtFirst(name, i);
    SplitAtFirst(rest, j);
    assert rest[j + 1..] == name[i + 1 + j + 1..];
    var parts := Split(name, '_');
    assert parts[2..] == Split(rest[j + 1..], '_');
  }

  lemma SplitAtFirst(s: string, i: nat)
    requires i < |s| && s[i] == '_' && '_' !in s[..i]
    ensures Split(s, '_') == [s[..i]] + Split(s[i + 1..], '_')
  {
    assert s == s[..i] + ['_'] + s[i + 1..];
    SplitAfterPrefix(s[..i], '_', s[i + 1..]);
  }

  /** The input for field `f` of item `k` carries `f` back, underscores and all. */
  lemma ParseFieldNameRoundTrip(s: Section, k: nat, f: string)
    ensures ParseFieldName(ItemId(s, k) + "_" + f) == Some(f)
  {
    var digits := NatToString(k);
    assert '_' !in digits;
    ParseAfterTwoPieces(SectionName(s), digits, f);
  }

  /** Two underscore-free pieces, each followed by `_`, are skipped whatever the rest holds. */
  lemma ParseAfterTwoPieces(a: string, b: string, f: string)
    requires '_' !in a && '_' !in b
    ensures ParseFieldName(a + "_" + b + "_" + f) == Some(f)
  {
    var name := a + "_" + b + "_" + f;
    var rest := b + "_" + f;
    assert name == a + ("_" + rest);
    assert name[..|a|] == a && name[|a|] == '_';
    assert IndexOf(name, '_') == Some(|a|);
    assert name[|a| + 1..] == rest;
    assert rest[..|b|] == b && rest[|b|] == '_';
    assert IndexOf(rest, '_') == Some(|b|);
    assert rest[|b| + 1..] == f;
  }

  /** A name with fewer than two underscores carries no field. */
  lemma ShortNameIgnored(name: string)
    requires '_' !in name
    ensures ParseFieldName(name).None?
  {
  }

  // ---------------------------------------------------------------------------
  // The page
  // ---------------------------------------------------------------------------

  /** A named input and what reading its `value` gives. */
  datatype Input = Input(name: string, value: string)

  /** A repeatable item on the page: its element id and its named inputs, in document order. */
  datatype Item = Item(id: string, inputs: seq<Input>)

  /**
   * The state of the form: the values of the personal inputs that exist on the page
   * (keyed by element id), the skills text area, the items of each section and the
   * per-section id counters.
   */
  datatype Form = Form(fields: map<string, string>, skills: string, items: PerSection<seq<Item>>, counters: PerSection<nat>)

  /** The inputs of a template instantiated for `id`, filled from `values`, each holding what its control gives back. */
  function TemplateInputs(id: string, fields: seq<string>, values: Record): (r: seq<Input>)
    ensures |r| == |fields|
    ensures forall i :: 0 <= i < |fields| ==> r[i] == Input(id + "_" + fields[i], FieldValue(values, fields[i]))
  {
    var r := seq(|fields|, i requires 0 <= i < |fields| => Input(id + "_" + fields[i], FieldValue(values, fields[i])));
    assert forall i :: 0 <= i < |fields| ==> r[i] == Input(id + "_" + fields[i], FieldValue(values, fields[i]));
    r
  }

  /** The item the section's template creates with counter value `k`, holding `values`. */
  function NewItem(s: Section, k: nat, values: Record): Item {
    Item(ItemId(s, k), TemplateInputs(ItemId(s, k), TemplateFields(s), values))
  }

  /** `addItem`: an unknown section does nothing; otherwise a new empty item under the post-incremented counter. */
  function AddItem(form: Form, section: string): (r: Form)
    ensures ParseSection(section).None? ==> r == form
    ensures ParseSection(section).Some? ==>
              var s := ParseSection(section).value;
              && r.items.Get(s) == form.items.Get(s) + [NewItem(s, form.counters.Get(s), map[])]
              && r.counters.Get(s) == form.counters.Get(s) + 1
              && (forall t :: t != s ==> r.items.Get(t) == form.items.Get(t) && r.counters.Get(t) == form.counters.Get(t))
              && r.fields == form.fields && r.skills == form.skills
  {
    match ParseSection(section)
    case None => form
    case Some(s) =>
      var k := form.counters.Get(s);
      form.(items := form.items.Set(s, form.items.Get(s) + [NewItem(s, k, map[])]),
            counters := form.counters.Set(s, k + 1))
  }

  /** The first item with element id `id` in `items`. */
  function IndexOfId(items: seq<Item>, id: string): (r: Option<nat>)
    ensures r.Some? ==> r.value < |items| && items[r.value].id == id
    ensures r.Some? ==> forall j :: 0 <= j < r.value ==> items[j].id != id
    ensures r.None? ==> forall j :: 0 <= j < |items| ==> items[j].id != id
  {
    if |items| == 0 then None
    else if items[0].id == id then Some(0)
    else match IndexOfId(items[1..], id)
      case None => None
      case Some(i) => Some(i + 1)
  }

  /** `document.getElementById(id)` over the item containers, in page order. */
  function FindItem(items: PerSection<seq<Item>>, id: string): (r: Option<(Section, nat)>)
    ensures r.Some? ==> r.value.1 < |items.Get(r.value.0)| && items.Get(r.value.0)[r.value.1].id == id
    ensures r.None? ==> forall s :: forall j :: 0 <= j < |items.Get(s)| ==> items.Get(s)[j].id != id
  {
    SectionsComplete();
    FindFrom(items, id, Sections, 0)
  }

  lemma SectionsComplete()
    ensures forall s: Section :: s in Sections
  {
    forall s: Section ensures s in Sections {
      match s
      case Education => assert Sections[0] == s;
      case Work => assert Sections[1] == s;
      case Projects => assert Sections[2] == s;
      case Research => assert Sections[3] == s;
    }
  }

  function FindFrom(items: PerSection<seq<Item>>, id: string, order: seq<Section>, n: nat): (r: Option<(Section, nat)>)
    requires n <= |order|
    requires forall m :: 0 <= m < n ==> forall j :: 0 <= j < |items.Get(order[m])| ==> items.Get(order[m])[j].id != id
    ensures r.Some? ==> r.value.1 < |items.Get(r.value.0)| && items.Get(r.value.0)[r.value.1].id == id
    ensures r.None? ==> forall s :: s in order ==> forall j :: 0 <= j < |items.Get(s)| ==> items.Get(s)[j].id != id
    decreases |order| - n
  {
    if n == |order| then None
    else match IndexOfId(items.Get(order[n]), id)
      case Some(i) => Some((order[n], i))
      case None => FindFrom(items, id, order, n + 1)
  }

  function RemoveAt(items: seq<Item>, i: nat): seq<Item>
    requires i < |items|
  {
    items[..i] + items[i + 1..]
  }

  /**
   * `removeItem`: nothing happens when no item has the id, or when the named section's
   * container holds at most one item; otherwise the item is removed wherever it is.
   */
  function RemoveItem(form: Form, section: string, id: string): (r: Form)
    ensures FindItem(form.items, id).None? ==> r == form
    ensures ParseSection(section).Some? && |form.items.Get(ParseSection(section).value)| <= 1 ==> r == form
    ensures FindItem(form.items, id).Some? && !(ParseSection(section).Some? && |form.items.Get(ParseSection(section).value)| <= 1) ==>
              var (t, i) := FindItem(form.items, id).value;
              && |r.items.Get(t)| + 1 == |form.items.Get(t)|
              && r.items.Get(t) == form.items.Get(t)[..i] + form.items.Get(t)[i + 1..]
              && (forall u :: u != t ==> r.items.Get(u) == form.items.Get(u))
              && r.counters == form.counters && r.fields == form.fields && r.skills == form.skills
  {
    match FindItem(form.items, id)
    case None => form
    case Some((t, i)) =>
      if ParseSection(section).Some? && |form.items.Get(ParseSection(section).value)| <= 1 then form
      else form.(items := form.items.Set(t, RemoveAt(form.items.Get(t), i)))
  }

  /** The remove button of an item passes the item's own section, so that section never loses its last item. */
  lemma RemoveKeepsOneItem(form: Form, s: Section, j: nat)
    requires j < |form.items.Get(s)|
    ensures var r := RemoveItem(form, SectionName(s), form.items.Get(s)[j].id);
            |r.items.Get(s)| >= 1
  {
    var id := form.items.Get(s)[j].id;
    var found := FindItem(form.items, id);
    assert found.Some?;
    SectionNameRoundTrip(s);
  }

  // ---------------------------------------------------------------------------
  // Id numbering
  // ---------------------------------------------------------------------------

  /**
   * The items of section `s` carry ids `${section}_${k}` with `k` strictly increasing in
   * page order and below the section's counter.
   */
  predicate Numbered(items: seq<Item>, s: Section, counter: nat) {
    && (forall i :: 0 <= i < |items| ==> items[i].id == ItemId(s, IdNumber(s, items[i].id)) && IdNumber(s, items[i].id) < counter)
    && (forall i, j :: 0 <= i < j < |items| ==> IdNumber(s, items[i].id) < IdNumber(s, items[j].id))
  }

  predicate WellNumbered(form: Form) {
    forall s :: Numbered(form.items.Get(s), s, form.counters.Get(s))
  }

  /** In a well-numbered form no two items anywhere on the page share an id. */
  lemma WellNumberedIdsDistinct(form: Form, s: Section, i: nat, t: Section, j: nat)
    requires WellNumbered(form)
    requires i < |form.items.Get(s)| && j < |form.items.Get(t)|
    requires s != t || i != j
    ensures form.items.Get(s)[i].id != form.items.Get(t)[j].id
  {
    assert Numbered(form.items.Get(s), s, form.counters.Get(s));
    assert Numbered(form.items.Get(t), t, form.counters.Get(t));
    var a := form.items.Get(s)[i].id;
    var b := form.items.Get(t)[j].id;
    if s == t {
      if i < j {
        assert IdNumber(s, a) < IdNumber(s, b);
      } else {
        assert IdNumber(s, b) < IdNumber(s, a);
      }
    } else {
      ItemIdSectionsDiffer(s, IdNumber(s, a), t, IdNumber(t, b));
    }
  }

  lemma ItemIdSectionsDiffer(s: Section, k: nat, t: Section, m: nat)
    requires s != t
    ensures ItemId(s, k) != ItemId(t, m)
  {
    assert ItemId(s, k)[0] == SectionName(s)[0];
    assert ItemId(t, m)[0] == SectionName(t)[0];
  }

  lemma AddItemKeepsNumbering(form: Form, section: string)
    requires WellNumbered(form)
    ensures WellNumbered(AddItem(form, section))
  {
    if ParseSection(section).Some? {
      var s := ParseSection(section).value;
      var r := AddItem(form, section);
      assert Numbered(form.items.Get(s), s, form.counters.Get(s));
      NumberedAppend(form.items.Get(s), s, form.counters.Get(s), NewItem(s, form.counters.Get(s), map[]));
      forall t ensures Numbered(r.items.Get(t), t, r.counters.Get(t)) {
        if t != s {
          assert Numbered(form.items.Get(t), t, form.counters.Get(t));
        }
      }
    }
  }

  /** An item appended under the counter's value keeps the section numbered, with the counter one higher. */
  lemma NumberedAppend(items: seq<Item>, s: Section, k: nat, item: Item)
    requires Numbered(items, s, k) && item.id == ItemId(s, k)
    ensures Numbered(items + [item], s, k + 1)
  {
    IdNumberOfItemId(s, k);
    var r := items + [item];
    forall i | 0 <= i < |r| ensures r[i].id == ItemId(s, IdNumber(s, r[i].id)) && IdNumber(s, r[i].id) < k + 1 {
      if i < |items| {
        assert r[i] == items[i];
      }
    }
    forall i, j | 0 <= i < j < |r| ensures IdNumber(s, r[i].id) < IdNumber(s, r[j].id) {
      assert r[i] == items[i];
      if j < |items| {
        assert r[j] == items[j];
      }
    }
  }

  lemma RemoveItemKeepsNumbering(form: Form, section: string, id: string)
    requires WellNumbered(form)
    ensures WellNumbered(RemoveItem(form, section, id))
  {
    var r := RemoveItem(form, section, id);
    if r != form {
      var (t, i) := FindItem(form.items, id).value;
      NumberedRemoveAt(form.items.Get(t), t, form.counters.Get(t), i);
      forall u ensures Numbered(r.items.Get(u), u, r.counters.Get(u)) {
        assert Numbered(form.items.Get(u), u, form.counters.Get(u));
      }
    }
  }

  /** Removing one item keeps the rest in order and below the counter. */
  lemma NumberedRemoveAt(items: seq<Item>, s: Section, counter: nat, i: nat)
    requires i < |items| && Numbered(items, s, counter)
    ensures Numbered(RemoveAt(items, i), s, counter)
  {
    RemoveAtIndex(items, i);
    SkipKeepsOrder(items, s, i);
  }

  /** The `m`-th item left after removing the `i`-th is the old item at `Skip(m, i)`. */
  lemma RemoveAtIndex(items: seq<Item>, i: nat)
    requires i < |items|
    ensures |RemoveAt(items, i)| == |items| - 1
    ensures forall m :: 0 <= m < |items| - 1 ==> RemoveAt(items, i)[m] == items[Skip(m, i)]
  {
  }

  lemma SkipKeepsOrder(items: seq<Item>, s: Section, i: nat)
    requires i < |items|
    requires forall a, b :: 0 <= a < b < |items| ==> IdNumber(s, items[a].id) < IdNumber(s, items[b].id)
    ensures forall m, n :: 0 <= m < n < |items| - 1 ==> IdNumber(s, items[Skip(m, i)].id) < IdNumber(s, items[Skip(n, i)].id)
  {
  }

  /** The position in the old list of the `m`-th item left after removing the `i`-th. */
  function Skip(m: nat, i: nat): nat {
    if m < i then m else m + 1
  }

  // ---------------------------------------------------------------------------
  // Deferred removal
  // ---------------------------------------------------------------------------

  /**
   * The page while removals are pending. `removeItem` marks an item `removing` and takes
   * its element out 300 ms later, so until its timer fires a marked item is still a child
   * of its container and is still collected. `removing` holds the ids of the marked items;
   * ids are distinct on a well-numbered page, so an id stands for its element.
   */
  datatype Page = Page(form: Form, removing: set<string>)

  /** The items whose id is not in `ids`, in order. */
  function Without(items: seq<Item>, ids: set<string>): (r: seq<Item>)
    ensures |r| <= |items|
  {
    if |items| == 0 then []
    else (if items[0].id in ids then [] else [items[0]]) + Without(items[1..], ids)
  }

  /** The guard of `removeItem` as written: the named section's container has at most one child. */
  predicate LastChild(form: Form, section: string) {
    ParseSection(section).Some? && |form.items.Get(ParseSection(section).value)| <= 1
  }

  /** `removeItem` as written, up to the timer: the item is marked when the guard lets it through. */
  function StartRemoveAsWritten(p: Page, section: string, id: string): (r: Page)
    ensures r.form == p.form
    ensures FindItem(p.form.items, id).None? || LastChild(p.form, section) ==> r == p
    ensures FindItem(p.form.items, id).Some? && !LastChild(p.form, section) ==> r.removing == p.removing + {id}
  {
    if FindItem(p.form.items, id).None? || LastChild(p.form, section) then p
    else p.(removing := p.removing + {id})
  }

  /** The timer of a marked item fires: the item leaves its container and is no longer pending. */
  function Fire(p: Page, id: string): (r: Page)
    requires id in p.removing
    ensures r.removing == p.removing - {id}
    ensures forall s :: r.form.items.Get(s) == Without(p.form.items.Get(s), {id})
    ensures r.form.counters == p.form.counters && r.form.fields == p.form.fields && r.form.skills == p.form.skills
  {
    Page(p.form.(items := Tabulate((s: Section) => Without(p.form.items.Get(s), {id}))), p.removing - {id})
  }

  /**
   * Two remove buttons of a two-item section clicked within 300 ms both pass the guard,
   * which still counts two children; once both timers fire the section is empty.
   */
  lemma TwoQuickRemovalsEmptySection(form: Form, s: Section)
    requires |form.items.Get(s)| == 2 && form.items.Get(s)[0].id != form.items.Get(s)[1].id
    ensures var a, b := form.items.Get(s)[0].id, form.items.Get(s)[1].id;
            var marked := StartRemoveAsWritten(StartRemoveAsWritten(Page(form, {}), SectionName(s), a), SectionName(s), b);
            && a != b && a in marked.removing && b in marked.removing
            && |Fire(Fire(marked, a), b).form.items.Get(s)| == 0
  {
    var items := form.items.Get(s);
    var a, b := items[0].id, items[1].id;
    SectionNameRoundTrip(s);
    FoundAt(form.items, s, 0);
    FoundAt(form.items, s, 1);
    var p1 := StartRemoveAsWritten(Page(form, {}), SectionName(s), a);
    assert p1.form == form && p1.removing == {a};
    var marked := StartRemoveAsWritten(p1, SectionName(s), b);
    assert marked.form == form && marked.removing == {a, b};
    WithoutBoth(items);
  }

  /** An item on the page is found by its id. */
  lemma FoundAt(items: PerSection<seq<Item>>, s: Section, j: nat)
    requires j < |items.Get(s)|
    ensures FindItem(items, items.Get(s)[j].id).Some?
  {
    assert items.Get(s)[j].id == items.Get(s)[j].id;
  }

  /** Taking out the two ids of a two-item sequence, one after the other, leaves nothing. */
  lemma WithoutBoth(items: seq<Item>)
    requires |items| == 2 && items[0].id != items[1].id
    ensures Without(Without(items, {items[0].id}), {items[1].id}) == []
  {
    WithoutOne(items, 0, items[0].id);
    var rest := Without(items, {items[0].id});
    assert rest == [items[1]];
    WithoutOne(rest, 0, items[1].id);
  }

  /** `removeItem` as evidently meant: the guard counts only the items no removal has marked. */
  function StartRemove(p: Page, section: string, id: string): (r: Page)
    ensures r.form == p.form
    ensures FindItem(p.form.items, id).None? || LastUnmarked(p, section) ==> r == p
    ensures FindItem(p.form.items, id).Some? && !LastUnmarked(p, section) ==> r.removing == p.removing + {id}
  {
    if FindItem(p.form.items, id).None? || LastUnmarked(p, section) then p
    else p.(removing := p.removing + {id})
  }

  /** The corrected guard: the named section has at most one item that is not already being removed. */
  predicate LastUnmarked(p: Page, section: string) {
    ParseSection(section).Some? && |Without(p.form.items.Get(ParseSection(section).value), p.removing)| <= 1
  }

  /** Every section holds at least one item that no pending removal has marked. */
  predicate KeepsOneUnmarked(p: Page) {
    forall s :: |Without(p.form.items.Get(s), p.removing)| >= 1
  }

  /** With the corrected guard, a click on an item's own remove button keeps an unmarked item in every section. */
  lemma StartRemoveKeepsOneUnmarked(p: Page, s: Section, j: nat)
    requires WellNumbered(p.form) && KeepsOneUnmarked(p) && j < |p.form.items.Get(s)|
    ensures KeepsOneUnmarked(StartRemove(p, SectionName(s), p.form.items.Get(s)[j].id))
  {
    StartRemoveCases(p, s, j);
    if StartRemove(p, SectionName(s), p.form.items.Get(s)[j].id) != p {
      MarkKeepsAll(p, s, j);
    }
  }

  /** A click on an item's own remove button either changes nothing or marks it in a section with two unmarked items. */
  lemma StartRemoveCases(p: Page, s: Section, j: nat)
    requires j < |p.form.items.Get(s)|
    ensures var id := p.form.items.Get(s)[j].id;
            var r := StartRemove(p, SectionName(s), id);
            || r == p
            || (r == Page(p.form, p.removing + {id}) && id !in p.removing && |Without(p.form.items.Get(s), p.removing)| >= 2)
  {
    var id := p.form.items.Get(s)[j].id;
    SectionNameRoundTrip(s);
    FoundAt(p.form.items, s, j);
    if id in p.removing {
      assert p.removing + {id} == p.removing;
    }
  }

  /** Marking one more item of a section with two unmarked items keeps an unmarked item in every section. */
  lemma MarkKeepsAll(p: Page, s: Section, j: nat)
    requires WellNumbered(p.form) && KeepsOneUnmarked(p) && j < |p.form.items.Get(s)|
    requires p.form.items.Get(s)[j].id !in p.removing && |Without(p.form.items.Get(s), p.removing)| >= 2
    ensures KeepsOneUnmarked(Page(p.form, p.removing + {p.form.items.Get(s)[j].id}))
  {
    forall t ensures |Without(p.form.items.Get(t), p.removing + {p.form.items.Get(s)[j].id})| >= 1 {
      assert |Without(p.form.items.Get(t), p.removing)| >= 1;
      MarkKeepsOneUnmarked(p.form, p.removing, s, j, t);
    }
  }

  /** Marking one more item of a section with two unmarked items leaves every section an unmarked item. */
  lemma MarkKeepsOneUnmarked(form: Form, removing: set<string>, s: Section, j: nat, t: Section)
    requires WellNumbered(form) && j < |form.items.Get(s)| && form.items.Get(s)[j].id !in removing
    requires |Without(form.items.Get(s), removing)| >= 2 && |Without(form.items.Get(t), removing)| >= 1
    ensures |Without(form.items.Get(t), removing + {form.items.Get(s)[j].id})| >= 1
  {
    var items, id := form.items.Get(s), form.items.Get(s)[j].id;
    if t == s {
      assert Numbered(items, s, form.counters.Get(s));
      NumberedIdsDistinct(items, s, form.counters.Get(s));
      WithoutAddOne(items, removing, id, j);
    } else {
      AbsentElsewhere(form, s, j, t);
      WithoutAddAbsent(form.items.Get(t), removing, id);
    }
  }

  /** A timer firing takes out an item that was already marked, so the unmarked items stay. */
  lemma FireKeepsOneUnmarked(p: Page, id: string)
    requires id in p.removing && KeepsOneUnmarked(p)
    ensures KeepsOneUnmarked(Fire(p, id))
  {
    forall s ensures |Without(Fire(p, id).form.items.Get(s), Fire(p, id).removing)| >= 1 {
      WithoutFired(p.form.items.Get(s), p.removing, id);
    }
  }

  /** A timer firing keeps the page well numbered. */
  lemma FireKeepsNumbering(p: Page, id: string)
    requires id in p.removing && WellNumbered(p.form)
    ensures WellNumbered(Fire(p, id).form)
  {
    forall s ensures Numbered(Fire(p, id).form.items.Get(s), s, Fire(p, id).form.counters.Get(s)) {
      assert Numbered(p.form.items.Get(s), s, p.form.counters.Get(s));
      WithoutNumbered(p.form.items.Get(s), s, p.form.counters.Get(s), id);
    }
  }

  /** A section that keeps an unmarked item is not empty. */
  lemma KeepsOneUnmarkedNotEmpty(p: Page, s: Section)
    requires KeepsOneUnmarked(p)
    ensures |p.form.items.Get(s)| >= 1
  {
    assert |Without(p.form.items.Get(s), p.removing)| >= 1;
  }

  /**
   * A removal whose timer fires before the next click is `RemoveItem`: when the guard lets
   * it through the found item leaves, otherwise nothing happens.
   */
  lemma RemoveItemIsStartThenFire(form: Form, section: string, id: string)
    requires WellNumbered(form)
    ensures var p := StartRemoveAsWritten(Page(form, {}), section, id);
            && (id !in p.removing ==> p.form == RemoveItem(form, section, id))
            && (id in p.removing ==> Fire(p, id) == Page(RemoveItem(form, section, id), {}))
  {
    var p := StartRemoveAsWritten(Page(form, {}), section, id);
    if id in p.removing {
      var (t, i) := FindItem(form.items, id).value;
      var fired := Fire(p, id);
      var removed := RemoveItem(form, section, id);
      forall u ensures fired.form.items.Get(u) == removed.items.Get(u) {
        WithoutFound(form, t, i, u);
      }
      SamePerSection(fired.form.items, removed.items);
    }
  }

  lemma SamePerSection<T>(a: PerSection<T>, b: PerSection<T>)
    requires forall s :: a.Get(s) == b.Get(s)
    ensures a == b
  {
    assert a.Get(Education) == b.Get(Education) && a.Get(Work) == b.Get(Work);
    assert a.Get(Projects) == b.Get(Projects) && a.Get(Research) == b.Get(Research);
  }

  lemma {:induction false} WithoutNothing(items: seq<Item>)
    ensures Without(items, {}) == items
  {
    if |items| > 0 {
      WithoutNothing(items[1..]);
      assert [items[0]] + items[1..] == items;
    }
  }

  /** Marking an id no item carries changes nothing. */
  lemma {:induction false} WithoutAddAbsent(items: seq<Item>, ids: set<string>, id: string)
    requires forall k :: 0 <= k < |items| ==> items[k].id != id
    ensures Without(items, ids + {id}) == Without(items, ids)
  {
    if |items| > 0 {
      WithoutAddAbsent(items[1..], ids, id);
    }
  }

  /** Marking the id of one unmarked item, carried by no other, leaves one unmarked item fewer. */
  lemma {:induction false} WithoutAddOne(items: seq<Item>, ids: set<string>, id: string, j: nat)
    requires j < |items| && items[j].id == id && id !in ids
    requires forall k :: 0 <= k < |items| && k != j ==> items[k].id != id
    ensures |Without(items, ids + {id})| + 1 == |Without(items, ids)|
  {
    var rest := items[1..];
    assert forall k :: 0 <= k < |rest| ==> rest[k] == items[k + 1];
    if j == 0 {
      WithoutAddAbsent(rest, ids, id);
    } else {
      WithoutAddOne(rest, ids, id, j - 1);
    }
  }

  /** Taking out the items of a marked id, then unmarking it, leaves the unmarked items as they were. */
  lemma {:induction false} WithoutFired(items: seq<Item>, ids: set<string>, id: string)
    requires id in ids
    ensures Without(Without(items, {id}), ids - {id}) == Without(items, ids)
  {
    if |items| > 0 {
      var h, rest := items[0], items[1..];
      WithoutFired(rest, ids, id);
      assert Without(items, ids) == (if h.id in ids then [] else [h]) + Without(rest, ids);
      if h.id != id {
        var inner := Without(items, {id});
        assert inner == [h] + Without(rest, {id});
        assert inner[0] == h && inner[1..] == Without(rest, {id});
        assert Without(inner, ids - {id}) == (if h.id in ids - {id} then [] else [h]) + Without(inner[1..], ids - {id});
      } else {
        assert Without(items, {id}) == Without(rest, {id});
      }
    }
  }

  /** Taking out the only item with `id` is removing it at its position. */
  lemma {:induction false} WithoutOne(items: seq<Item>, i: nat, id: string)
    requires i < |items| && items[i].id == id
    requires forall k :: 0 <= k < |items| && k != i ==> items[k].id != id
    ensures Without(items, {id}) == RemoveAt(items, i)
  {
    var rest := items[1..];
    assert forall k :: 0 <= k < |rest| ==> rest[k] == items[k + 1];
    if i == 0 {
      WithoutAddAbsent(rest, {}, id);
      WithoutNothing(rest);
      assert {} + {id} == {id};
      assert RemoveAt(items, 0) == rest;
    } else {
      WithoutOne(rest, i - 1, id);
      assert RemoveAt(items, i) == [items[0]] + RemoveAt(items[1..], i - 1);
    }
  }

  /** Ids in a numbered sequence are distinct. */
  lemma NumberedIdsDistinct(items: seq<Item>, s: Section, counter: nat)
    requires Numbered(items, s, counter)
    ensures forall i, k :: 0 <= i < |items| && 0 <= k < |items| && i != k ==> items[i].id != items[k].id
  {
    forall i, k | 0 <= i < |items| && 0 <= k < |items| && i != k ensures items[i].id != items[k].id {
      if i < k {
        assert IdNumber(s, items[i].id) < IdNumber(s, items[k].id);
      } else {
        assert IdNumber(s, items[k].id) < IdNumber(s, items[i].id);
      }
    }
  }

  /** On a well-numbered form no item of another section carries an item's id. */
  lemma AbsentElsewhere(form: Form, s: Section, j: nat, t: Section)
    requires WellNumbered(form) && j < |form.items.Get(s)| && t != s
    ensures forall k :: 0 <= k < |form.items.Get(t)| ==> form.items.Get(t)[k].id != form.items.Get(s)[j].id
  {
    forall k | 0 <= k < |form.items.Get(t)| ensures form.items.Get(t)[k].id != form.items.Get(s)[j].id {
      WellNumberedIdsDistinct(form, t, k, s, j);
    }
  }

  /** Taking out an item's id removes that item from its own section and nothing elsewhere. */
  lemma WithoutFound(form: Form, t: Section, i: nat, u: Section)
    requires WellNumbered(form) && i < |form.items.Get(t)|
    ensures Without(form.items.Get(u), {form.items.Get(t)[i].id}) ==
            if u == t then RemoveAt(form.items.Get(t), i) else form.items.Get(u)
  {
    var id := form.items.Get(t)[i].id;
    var its := form.items.Get(u);
    if u == t {
      assert Numbered(its, t, form.counters.Get(t));
      NumberedIdsDistinct(its, t, form.counters.Get(t));
      WithoutOne(its, i, id);
    } else {
      AbsentElsewhere(form, t, i, u);
      WithoutAddAbsent(its, {}, id);
      WithoutNothing(its);
      assert {} + {id} == {id};
    }
  }

  /** Taking out the items of one id keeps a numbered sequence numbered. */
  lemma WithoutNumbered(items: seq<Item>, s: Section, counter: nat, id: string)
    requires Numbered(items, s, counter)
    ensures Numbered(Without(items, {id}), s, counter)
  {
    if i :| 0 <= i < |items| && items[i].id == id {
      NumberedIdsDistinct(items, s, counter);
      WithoutOne(items, i, id);
      NumberedRemoveAt(items, s, counter, i);
    } else {
      WithoutAddAbsent(items, {}, id);
      WithoutNothing(items);
      assert {} + {id} == {id};
    }
  }

  // ---------------------------------------------------------------------------
  // Collecting
  // ---------------------------------------------------------------------------

  /** What an input contributes: the field its name carries, if any, and its trimmed value. */
  function ParseInputs(inputs: seq<Input>): (r: seq<(Option<string>, string)>)
    ensures |r| == |inputs|
    ensures forall i :: 0 <= i < |inputs| ==> r[i] == (ParseFieldName(inputs[i].name), Trim(inputs[i].value))
  {
    if |inputs| == 0 then [] else [(ParseFieldName(inputs[0].name), Trim(inputs[0].value))] + ParseInputs(inputs[1..])
  }

  /** Input `i` carries a field that no later input names again. */
  predicate LastFor(pairs: seq<(Option<string>, string)>, i: int) {
    0 <= i < |pairs| && pairs[i].0.Some?
    && forall j :: i < j < |pairs| ==> pairs[j].0 != pairs[i].0
  }

  /** The record built input by input, a later value for a field replacing an earlier one. */
  function Assemble(pairs: seq<(Option<string>, string)>): Record {
    if |pairs| == 0 then map[]
    else
      var last := pairs[|pairs| - 1];
      match last.0
      case None => Assemble(pairs[..|pairs| - 1])
      case Some(f) => Assemble(pairs[..|pairs| - 1])[f := last.1]
  }

  /** Every value of an assembled record is one of the values it was built from. */
  lemma {:induction false} AssembleValues(pairs: seq<(Option<string>, string)>, f: string)
    requires f in Assemble(pairs)
    ensures exists i :: 0 <= i < |pairs| && pairs[i].0 == Some(f) && pairs[i].1 == Assemble(pairs)[f]
  {
    var n := |pairs| - 1;
    var init := pairs[..n];
    if pairs[n].0 != Some(f) {
      AssembleValues(init, f);
      var i :| 0 <= i < |init| && init[i].0 == Some(f) && init[i].1 == Assemble(init)[f];
      assert pairs[i] == init[i];
    }
  }

  /** One item's record: each parsed field takes the trimmed value of the last input naming it. */
  function CollectItem(inputs: seq<Input>): (r: Record)
    ensures forall f :: f in r ==> Trim(r[f]) == r[f]
  {
    var pairs := ParseInputs(inputs);
    var r := Assemble(pairs);
    TrimmedValues(inputs);
    r
  }

  lemma TrimmedValues(inputs: seq<Input>)
    ensures forall f :: f in Assemble(ParseInputs(inputs)) ==> Trim(Assemble(ParseInputs(inputs))[f]) == Assemble(ParseInputs(inputs))[f]
  {
    var pairs := ParseInputs(inputs);
    forall f | f in Assemble(pairs) ensures Trim(Assemble(pairs)[f]) == Assemble(pairs)[f] {
      AssembleValues(pairs, f);
      var i :| 0 <= i < |pairs| && pairs[i].0 == Some(f) && pairs[i].1 == Assemble(pairs)[f];
      TrimIdempotent(inputs[i].value);
    }
  }

  /** The fields of an item's record are exactly the fields its inputs carry. */
  lemma {:induction false} AssembleKeys(pairs: seq<(Option<string>, string)>, f: string)
    ensures f in Assemble(pairs) <==> exists i :: 0 <= i < |pairs| && pairs[i].0 == Some(f)
  {
    if |pairs| > 0 {
      var n := |pairs| - 1;
      var init := pairs[..n];
      AssembleKeys(init, f);
      if exists i :: 0 <= i < |pairs| && pairs[i].0 == Some(f) {
        var i :| 0 <= i < |pairs| && pairs[i].0 == Some(f);
        if i < n {
          assert init[i] == pairs[i];
        }
      }
    }
  }

  /** A field takes the trimmed value of the last input that names it. */
  lemma {:induction false} AssembleLast(pairs: seq<(Option<string>, string)>, i: int)
    requires LastFor(pairs, i)
    ensures pairs[i].0.value in Assemble(pairs)
    ensures Assemble(pairs)[pairs[i].0.value] == pairs[i].1
  {
    if i < |pairs| - 1 {
      var init := pairs[..|pairs| - 1];
      assert LastFor(init, i);
      AssembleLast(init, i);
    }
  }

  /** Every record field the item's inputs carry, as its control gives it back, trimmed: the record a template item collects to. */
  function FieldMap(fields: seq<string>, values: Record): map<string, string> {
    map f | f in fields :: Trim(FieldValue(values, f))
  }

  /** A template item collects to its own fields, each with the trimmed value it was filled with. */
  lemma CollectTemplateItem(s: Section, k: nat, values: Record)
    ensures CollectItem(NewItem(s, k, values).inputs) == FieldMap(TemplateFields(s), values)
  {
    TemplateFieldsDistinct(s);
    CollectFilledInputs(s, k, TemplateFields(s), values);
  }

  lemma CollectFilledInputs(s: Section, k: nat, fields: seq<string>, values: Record)
    requires Distinct(fields)
    ensures CollectItem(TemplateInputs(ItemId(s, k), fields, values)) == FieldMap(fields, values)
  {
    ParsedTemplate(s, k, fields, values);
    AssembleDistinct(ParseInputs(TemplateInputs(ItemId(s, k), fields, values)), fields, values);
  }

  predicate Distinct(fields: seq<string>) {
    forall i, j :: 0 <= i < j < |fields| ==> fields[i] != fields[j]
  }

  lemma TemplateFieldsDistinct(s: Section)
    ensures Distinct(TemplateFields(s))
  {
  }

  /** Each input of a template item parses back to its own field and trimmed value. */
  lemma ParsedTemplate(s: Section, k: nat, fields: seq<string>, values: Record)
    ensures var pairs := ParseInputs(TemplateInputs(ItemId(s, k), fields, values));
            |pairs| == |fields| && forall i :: 0 <= i < |fields| ==> pairs[i] == (Some(fields[i]), Trim(FieldValue(values, fields[i])))
  {
    var inputs := TemplateInputs(ItemId(s, k), fields, values);
    forall i | 0 <= i < |fields| ensures ParseFieldName(inputs[i].name) == Some(fields[i]) {
      ParseFieldNameRoundTrip(s, k, fields[i]);
    }
  }

  /** Pairs naming distinct fields, one each, assemble to exactly those fields. */
  lemma AssembleDistinct(pairs: seq<(Option<string>, string)>, fields: seq<string>, values: Record)
    requires Distinct(fields) && |pairs| == |fields|
    requires forall i :: 0 <= i < |fields| ==> pairs[i] == (Some(fields[i]), Trim(FieldValue(values, fields[i])))
    ensures Assemble(pairs) == FieldMap(fields, values)
  {
    AssembleCovers(pairs, fields, values);
    AssembleOnly(pairs, fields);
    SameMap(Assemble(pairs), FieldMap(fields, values));
  }

  /** Two maps with the same keys and the same value under each key are equal. */
  lemma SameMap(a: map<string, string>, b: map<string, string>)
    requires forall f :: f in a <==> f in b
    requires forall f :: f in a ==> a[f] == b[f]
    ensures a == b
  {
  }

  lemma AssembleCovers(pairs: seq<(Option<string>, string)>, fields: seq<string>, values: Record)
    requires Distinct(fields) && |pairs| == |fields|
    requires forall i :: 0 <= i < |fields| ==> pairs[i] == (Some(fields[i]), Trim(FieldValue(values, fields[i])))
    ensures forall f :: f in fields ==> f in Assemble(pairs) && Assemble(pairs)[f] == Trim(FieldValue(values, f))
  {
    forall f | f in fields ensures f in Assemble(pairs) && Assemble(pairs)[f] == Trim(FieldValue(values, f)) {
      var i :| 0 <= i < |fields| && fields[i] == f;
      assert LastFor(pairs, i);
      AssembleLast(pairs, i);
    }
  }

  lemma AssembleOnly(pairs: seq<(Option<string>, string)>, fields: seq<string>)
    requires |pairs| == |fields|
    requires forall i :: 0 <= i < |fields| ==> pairs[i].0 == Some(fields[i])
    ensures forall f :: f in Assemble(pairs) ==> f in fields
  {
    forall f | f in Assemble(pairs) ensures f in fields {
      AssembleKeys(pairs, f);
    }
  }

  /** A freshly added item collects to exactly `getDefaultItemData` of its section. */
  lemma NewItemCollectsToDefault(s: Section, k: nat)
    ensures CollectItem(NewItem(s, k, map[]).inputs) == DefaultItemData(SectionName(s))
  {
    CollectTemplateItem(s, k, map[]);
    BlankTemplate(s);
  }

  /** A template with nothing written into it is the section's default record. */
  lemma BlankTemplate(s: Section)
    ensures FieldMap(TemplateFields(s), map[]) == DefaultItemData(SectionName(s))
  {
    DefaultItemFields(s);
    BlankFieldMap(TemplateFields(s), DefaultItemData(SectionName(s)));
  }

  /** A section's default record has exactly its template's fields, all empty. */
  lemma DefaultItemFields(s: Section)
    ensures forall f :: f in DefaultItemData(SectionName(s)) <==> f in TemplateFields(s)
    ensures forall f :: f in DefaultItemData(SectionName(s)) ==> DefaultItemData(SectionName(s))[f] == ""
  {
    SectionNameRoundTrip(s);
  }

  /** With no values, every listed field collects to the empty string. */
  lemma BlankFieldMap(fields: seq<string>, r: Record)
    requires forall f :: f in r <==> f in fields
    requires forall f :: f in r ==> r[f] == ""
    ensures FieldMap(fields, map[]) == r
  {
    assert Trim("") == "";
    assert forall f :: FieldValue(map[], f) == "";
  }

  function CollectItems(items: seq<Item>): (r: seq<Record>)
    ensures |r| == |items|
    ensures forall i :: 0 <= i < |items| ==> r[i] == CollectItem(items[i].inputs)
  {
    if |items| == 0 then [] else [CollectItem(items[0].inputs)] + CollectItems(items[1..])
  }

  /** The trimmed value of each listed input the page has. */
  function CollectPersonal(ids: seq<string>, fields: map<string, string>): (r: Record)
    ensures forall f :: f in r <==> f in ids && f in fields
    ensures forall f :: f in r ==> r[f] == Trim(fields[f])
  {
    if |ids| == 0 then map[]
    else
      var rest := CollectPersonal(ids[1..], fields);
      if ids[0] in fields then rest[ids[0] := Trim(fields[ids[0]])] else rest
  }

  /** `collectFormData`: every personal input and every item, trimmed; skills as the trimmed text. */
  function CollectFormData(form: Form): (r: Resume)
    ensures r.personal == Some(CollectPersonal(PersonalFields, form.fields))
    ensures r.skills == Text(Trim(form.skills))
  {
    Resume(
      Some(CollectPersonal(PersonalFields, form.fields)),
      CollectItems(form.items.education),
      CollectItems(form.items.work),
      CollectItems(form.items.projects),
      CollectItems(form.items.research),
      Text(Trim(form.skills)))
  }

  /** Each section of the collected record holds one record per item on the page, in page order. */
  lemma CollectedEntries(form: Form, s: Section)
    ensures CollectFormData(form).Entries(s) == CollectItems(form.items.Get(s))
  {
  }


  // ---------------------------------------------------------------------------
  // Populating
  // ---------------------------------------------------------------------------

  /** `String(array)` of a list of groups: one `[object Object]` per group, comma-separated. */
  function GroupsAsText(n: nat): (r: string)
    ensures n == 0 <==> r == ""
  {
    if n == 0 then "" else if n == 1 then "[object Object]" else "[object Object]," + GroupsAsText(n - 1)
  }

  /** What `populateForm` writes into the skills text area, if anything. */
  function SkillsInputValue(skills: Skills, current: string): string {
    match skills
    case Text(t) => if t != "" then t else current
    case Groups(gs) => GroupsAsText(|gs|)
  }

  function PopulatedItems(s: Section, entries: seq<Record>): (r: seq<Item>)
    ensures |r| == |entries|
    ensures forall i :: 0 <= i < |entries| ==> r[i] == NewItem(s, i, entries[i])
  {
    var r := seq(|entries|, i requires 0 <= i < |entries| => NewItem(s, i, entries[i]));
    assert forall i :: 0 <= i < |entries| ==> r[i] == NewItem(s, i, entries[i]);
    r
  }

  /** The entries a section is rebuilt from: a section without entries gets one empty item. */
  function SectionEntries(entries: seq<Record>): (r: seq<Record>)
    ensures |r| >= 1
  {
    if |entries| > 0 then entries else [map[]]
  }

  /** One item per entry under counters 0, 1, … */
  function SectionItems(s: Section, entries: seq<Record>): seq<Item> {
    PopulatedItems(s, SectionEntries(entries))
  }

  function SectionCounter(entries: seq<Record>): nat {
    if |entries| > 0 then |entries| else 1
  }

  /**
   * `populateForm`: clears the item containers and resets the counters; writes each
   * personal value the record has into the input with that id; writes a truthy skills
   * value into the text area; and rebuilds each section.
   */
  function PopulateForm(form: Form, data: Resume): (r: Form)
    ensures r.fields.Keys == form.fields.Keys
    ensures forall k :: k in form.fields ==>
              r.fields[k] == (if data.personal.Some? && k in data.personal.value then data.personal.value[k] else form.fields[k])
    ensures data.skills == Text("") ==> r.skills == form.skills
    ensures forall s :: |r.items.Get(s)| == (if |data.Entries(s)| > 0 then |data.Entries(s)| else 1)
  {
    var containers := PopulatedContainers(data);
    var counters := PopulatedCounters(data);
    Form(PopulatedFields(form.fields, data.personal), SkillsInputValue(data.skills, form.skills), containers, counters)
  }

  /** The personal inputs after populating: a value the record has replaces the input's value. */
  function PopulatedFields(fields: map<string, string>, personal: Option<Record>): (r: map<string, string>)
    ensures r.Keys == fields.Keys
    ensures forall k :: k in fields ==> r[k] == (if personal.Some? && k in personal.value then personal.value[k] else fields[k])
  {
    map k | k in fields :: if personal.Some? && k in personal.value then personal.value[k] else fields[k]
  }

  function PopulatedContainers(data: Resume): (r: PerSection<seq<Item>>)
    ensures forall s :: r.Get(s) == SectionItems(s, data.Entries(s))
  {
    Tabulate((s: Section) => SectionItems(s, data.Entries(s)))
  }

  function PopulatedCounters(data: Resume): (r: PerSection<nat>)
    ensures forall s :: r.Get(s) == SectionCounter(data.Entries(s))
  {
    Tabulate((s: Section) => SectionCounter(data.Entries(s)))
  }

  /** Populating numbers every section afresh from 0: each counter ends at its section's item count. */
  lemma PopulateNumbers(form: Form, data: Resume)
    ensures WellNumbered(PopulateForm(form, data))
    ensures forall s :: PopulateForm(form, data).counters.Get(s) == |PopulateForm(form, data).items.Get(s)|
  {
    PopulatedNumbered(PopulatedContainers(data), PopulatedCounters(data), data);
  }

  lemma PopulatedNumbered(containers: PerSection<seq<Item>>, counters: PerSection<nat>, data: Resume)
    requires forall s :: containers.Get(s) == SectionItems(s, data.Entries(s)) && counters.Get(s) == SectionCounter(data.Entries(s))
    ensures forall s :: Numbered(containers.Get(s), s, counters.Get(s))
    ensures forall s :: counters.Get(s) == |containers.Get(s)|
  {
    forall s ensures Numbered(containers.Get(s), s, counters.Get(s)) {
      PopulatedItemsNumbered(s, SectionEntries(data.Entries(s)));
    }
  }

  lemma PopulatedItemsNumbered(s: Section, entries: seq<Record>)
    ensures Numbered(PopulatedItems(s, entries), s, |entries|)
  {
    var items := PopulatedItems(s, entries);
    forall i | 0 <= i < |items| ensures items[i].id == ItemId(s, i) && IdNumber(s, items[i].id) == i {
      assert items[i] == NewItem(s, i, entries[i]);
      IdNumberOfItemId(s, i);
    }
  }

  /**
   * Collecting right after populating gives back, for each entry, exactly its
   * template's fields with the entry's values trimmed (missing ones empty); sections
   * without entries come back as one default item.
   */
  lemma PopulateThenCollect(form: Form, data: Resume, s: Section)
    ensures var r := CollectFormData(PopulateForm(form, data));
            && (|data.Entries(s)| > 0 ==>
                  |r.Entries(s)| == |data.Entries(s)|
                  && forall i :: 0 <= i < |data.Entries(s)| ==> r.Entries(s)[i] == FieldMap(TemplateFields(s), data.Entries(s)[i]))
            && (|data.Entries(s)| == 0 ==> r.Entries(s) == [DefaultItemData(SectionName(s))])
  {
    if |data.Entries(s)| > 0 {
      PopulateThenCollectEntries(form, data, s);
    } else {
      PopulateThenCollectEmpty(form, data, s);
    }
  }

  lemma PopulateThenCollectEntries(form: Form, data: Resume, s: Section)
    requires |data.Entries(s)| > 0
    ensures var r := CollectFormData(PopulateForm(form, data));
            && |r.Entries(s)| == |data.Entries(s)|
            && forall i :: 0 <= i < |data.Entries(s)| ==> r.Entries(s)[i] == FieldMap(TemplateFields(s), data.Entries(s)[i])
  {
    CollectedSection(form, data, s);
    CollectPopulatedItems(s, data.Entries(s));
  }

  lemma PopulateThenCollectEmpty(form: Form, data: Resume, s: Section)
    requires |data.Entries(s)| == 0
    ensures CollectFormData(PopulateForm(form, data)).Entries(s) == [DefaultItemData(SectionName(s))]
  {
    CollectedSection(form, data, s);
    EmptySectionCollects(s, data.Entries(s));
  }

  /** A section of the populated page collects to its rebuilt items' records. */
  lemma CollectedSection(form: Form, data: Resume, s: Section)
    ensures CollectFormData(PopulateForm(form, data)).Entries(s) == CollectItems(SectionItems(s, data.Entries(s)))
  {
    CollectedEntries(PopulateForm(form, data), s);
  }

  /** A section without entries is rebuilt as one fresh item, which collects to the defaults. */
  lemma EmptySectionCollects(s: Section, entries: seq<Record>)
    requires |entries| == 0
    ensures CollectItems(SectionItems(s, entries)) == [DefaultItemData(SectionName(s))]
  {
    EmptySectionItems(s, entries);
    NewItemCollectsToDefault(s, 0);
    SingleItemCollects(s, SectionItems(s, entries));
  }

  lemma EmptySectionItems(s: Section, entries: seq<Record>)
    requires |entries| == 0
    ensures SectionItems(s, entries) == [NewItem(s, 0, map[])]
  {
  }

  lemma SingleItemCollects(s: Section, items: seq<Item>)
    requires |items| == 1 && CollectItem(items[0].inputs) == DefaultItemData(SectionName(s))
    ensures CollectItems(items) == [DefaultItemData(SectionName(s))]
  {
  }

  /** The items rebuilt from entries collect, one by one, to the entries' template fields, trimmed. */
  lemma CollectPopulatedItems(s: Section, entries: seq<Record>)
    ensures var c := CollectItems(PopulatedItems(s, entries));
            |c| == |entries| && forall i :: 0 <= i < |entries| ==> c[i] == FieldMap(TemplateFields(s), entries[i])
  {
    var items := PopulatedItems(s, entries);
    forall i | 0 <= i < |entries| ensures CollectItem(items[i].inputs) == FieldMap(TemplateFields(s), entries[i]) {
      CollectTemplateItem(s, i, entries[i]);
    }
  }

  /** A personal value the record supplies comes back trimmed, provided the page has that input. */
  lemma PopulateThenCollectPersonal(form: Form, data: Resume, f: string)
    requires data.personal.Some? && f in data.personal.value
    requires f in PersonalFields && f in form.fields
    ensures CollectFormData(PopulateForm(form, data)).personal.value[f] == Trim(data.personal.value[f])
  {
  }

  /**
   * An entry already in collected shape (template keys, trimmed values) whose values its
   * controls keep survives the round trip unchanged.
   */
  lemma PopulateThenCollectFixpoint(form: Form, data: Resume, s: Section, i: nat)
    requires i < |data.Entries(s)|
    requires forall f :: f in data.Entries(s)[i] <==> f in TemplateFields(s)
    requires forall f :: f in data.Entries(s)[i] ==> Trim(data.Entries(s)[i][f]) == data.Entries(s)[i][f]
    requires forall f :: f in data.Entries(s)[i] ==> Keeps(ControlOf(f), data.Entries(s)[i][f])
    ensures |CollectFormData(PopulateForm(form, data)).Entries(s)| == |data.Entries(s)|
    ensures CollectFormData(PopulateForm(form, data)).Entries(s)[i] == data.Entries(s)[i]
  {
    CollectedShapeFixed(TemplateFields(s), data.Entries(s)[i]);
    PopulateThenCollectEntry(form, data, s, i);
  }

  lemma PopulateThenCollectEntry(form: Form, data: Resume, s: Section, i: nat)
    requires i < |data.Entries(s)|
    ensures |CollectFormData(PopulateForm(form, data)).Entries(s)| == |data.Entries(s)|
    ensures CollectFormData(PopulateForm(form, data)).Entries(s)[i] == FieldMap(TemplateFields(s), data.Entries(s)[i])
  {
    PopulateThenCollectEntries(form, data, s);
  }

  /** A record with exactly the listed fields, all trimmed and kept by their controls, is its own field map. */
  lemma CollectedShapeFixed(fields: seq<string>, e: Record)
    requires forall f :: f in e <==> f in fields
    requires forall f :: f in e ==> Trim(e[f]) == e[f]
    requires forall f :: f in e ==> Keeps(ControlOf(f), e[f])
    ensures FieldMap(fields, e) == e
  {
    forall f | f in e ensures Trim(FieldValue(e, f)) == e[f] {
      ReadBackKeeps(ControlOf(f), e[f]);
    }
    FieldMapOfValues(fields, e);
  }

  /** A record whose every value is what its control gives back, trimmed, is its own field map. */
  lemma FieldMapOfValues(fields: seq<string>, e: Record)
    requires forall f :: f in e <==> f in fields
    requires forall f :: f in e ==> Trim(FieldValue(e, f)) == e[f]
    ensures FieldMap(fields, e) == e
  {
  }

  /** The field map holds a listed field's trimmed control value. */
  lemma FieldMapAt(fields: seq<string>, values: Record, f: string)
    requires f in fields
    ensures f in FieldMap(fields, values) && FieldMap(fields, values)[f] == Trim(FieldValue(values, f))
  {
  }

  /** A date that is not a valid month string, written into its `month` input, is collected as empty. */
  lemma InvalidDateCollectsEmpty(form: Form, data: Resume, s: Section, i: nat, f: string)
    requires i < |data.Entries(s)|
    requires f in TemplateFields(s) && ControlOf(f) == MonthInput
    requires !IsValidMonth(Field(data.Entries(s)[i], f))
    ensures f in CollectFormData(PopulateForm(form, data)).Entries(s)[i]
    ensures CollectFormData(PopulateForm(form, data)).Entries(s)[i][f] == ""
  {
    var e := data.Entries(s)[i];
    PopulateThenCollectEntry(form, data, s, i);
    assert CollectFormData(PopulateForm(form, data)).Entries(s)[i] == FieldMap(TemplateFields(s), e);
    InvalidMonthReadsEmpty(e, f);
    FieldMapAt(TemplateFields(s), e, f);
  }

  lemma InvalidMonthReadsEmpty(values: Record, f: string)
    requires ControlOf(f) == MonthInput && !IsValidMonth(Field(values, f))
    ensures Trim(FieldValue(values, f)) == ""
  {
    assert Trim("") == "";
  }

  // ---------------------------------------------------------------------------
  // Clearing
  // ---------------------------------------------------------------------------

  /** The record `clearForm` hands to `populateForm`: an empty personal object, no entries, empty skills. */
  const ClearedRecord: Resume := Resume(Some(map[]), [], [], [], [], Text(""))

  /** `clearForm` as written. */
  function ClearFormAsWritten(form: Form): (r: Form)
    ensures r.fields == form.fields && r.skills == form.skills
    ensures forall s :: r.items.Get(s) == [NewItem(s, 0, map[])] && r.counters.Get(s) == 1
  {
    ClearedRecordHasNoEntries();
    PopulatedParts(form, ClearedRecord);
    PopulateEmptyItems(ClearedRecord);
    PopulateForm(form, ClearedRecord)
  }

  /** After clearing as written, each personal value is still collected, trimmed as before. */
  lemma ClearFormAsWrittenKeepsPersonal(form: Form, f: string)
    requires f in PersonalFields && f in form.fields
    ensures CollectFormData(ClearFormAsWritten(form)).personal.value[f] == Trim(form.fields[f])
  {
  }

  /** So a filled-in personal input is not blank after clearing as written. */
  lemma ClearFormAsWrittenNotBlank(form: Form, f: string)
    requires f in PersonalFields && f in form.fields && NonBlank(form.fields[f])
    ensures CollectFormData(ClearFormAsWritten(form)).personal.value[f] != ""
  {
    ClearFormAsWrittenKeepsPersonal(form, f);
  }

  /** `clearForm` as evidently meant: every personal input and the skills text emptied as well, the items as before. */
  function ClearForm(form: Form): (r: Form)
    ensures r.fields.Keys == form.fields.Keys
    ensures forall k :: k in r.fields ==> r.fields[k] == ""
    ensures r.skills == ""
    ensures r.items == ClearFormAsWritten(form).items && r.counters == ClearFormAsWritten(form).counters
  {
    var emptied := map k | k in form.fields :: "";
    ClearFormAsWritten(form).(fields := emptied, skills := "")
  }

  /** An empty page: blank inputs and skills, and in each section one fresh item numbered 0 with the counter at 1. */
  predicate BlankForm(form: Form) {
    && (forall k :: k in form.fields ==> form.fields[k] == "")
    && form.skills == ""
    && forall s :: form.items.Get(s) == [NewItem(s, 0, map[])] && form.counters.Get(s) == 1
  }

  /** A blank record: empty personal values, empty skills, one default item per section. */
  predicate BlankRecord(r: Resume) {
    && r.personal.Some?
    && (forall f :: f in r.personal.value ==> r.personal.value[f] == "")
    && r.skills == Text("")
    && forall s :: r.Entries(s) == [DefaultItemData(SectionName(s))]
  }

  /** The corrected clear leaves an empty page. */
  lemma ClearFormBlank(form: Form)
    ensures BlankForm(ClearForm(form))
  {
    ClearedRecordHasNoEntries();
    PopulatedParts(form, ClearedRecord);
    PopulateEmptyItems(ClearedRecord);
  }

  lemma ClearedRecordHasNoEntries()
    ensures forall s :: ClearedRecord.Entries(s) == []
  {
  }

  lemma PopulatedParts(form: Form, data: Resume)
    ensures PopulateForm(form, data).items == PopulatedContainers(data)
    ensures PopulateForm(form, data).counters == PopulatedCounters(data)
  {
  }

  /** A record without entries rebuilds every section as one fresh item. */
  lemma PopulateEmptyItems(data: Resume)
    requires forall s :: data.Entries(s) == []
    ensures forall s :: PopulatedContainers(data).Get(s) == [NewItem(s, 0, map[])] && PopulatedCounters(data).Get(s) == 1
  {
    forall s ensures PopulatedContainers(data).Get(s) == [NewItem(s, 0, map[])] {
      EmptySectionItems(s, []);
    }
  }

  /** An empty page collects to a blank record. */
  lemma BlankFormCollectsBlank(form: Form)
    requires BlankForm(form)
    ensures BlankRecord(CollectFormData(form))
  {
    CollectBlankPersonal(PersonalFields, form.fields);
    assert Trim("") == "";
    forall s ensures CollectFormData(form).Entries(s) == [DefaultItemData(SectionName(s))] {
      CollectedEntries(form, s);
      NewItemCollectsToDefault(s, 0);
      SingleItemCollects(s, form.items.Get(s));
    }
  }

  lemma CollectBlankPersonal(ids: seq<string>, fields: map<string, string>)
    requires forall k :: k in fields ==> fields[k] == ""
    ensures forall f :: f in CollectPersonal(ids, fields) ==> CollectPersonal(ids, fields)[f] == ""
  {
    assert Trim("") == "";
  }

  /** An empty page is well numbered. */
  lemma BlankFormNumbered(form: Form)
    requires BlankForm(form)
    ensures WellNumbered(form)
  {
    forall s ensures Numbered(form.items.Get(s), s, form.counters.Get(s)) {
      IdNumberOfItemId(s, 0);
    }
  }
}

=== FILE: gemini.dfy ===
/**
 * Control logic of the language-model client: the API-key test, the round-robin
 * model index, the bounded retry loop of a request, the order in which a reply's
 * text is looked for, the bracket-balancing tail of the JSON repair, and the
 * normalisation of parsed sample data. The network is a parameter: `net(k)` is what
 * the k-th attempt of a request got back.
 */
module Gemini {
  import opened Wrappers
  import opened JsString
  import opened ResumeData

  /** The model list the client ships with. */
  const Models: seq<string> := ["gemini-2.5-flash"]

  /** `!!this.apiKey`. */
  function HasApiKey(apiKey: string): (r: bool)
    ensures r <==> |apiKey| > 0
  {
    apiKey != ""
  }

  /** `switchToNextModel`: the next index round-robin; `n` is the number of models. */
  function SwitchToNextModel(index: nat, n: nat): (r: nat)
    requires n > 0
    ensures r < n
    ensures index + 1 < n ==> r == index + 1
    ensures index + 1 == n ==> r == 0
  {
    (index + 1) % n
  }

  /** The index after `k` switches. */
  function SwitchTimes(index: nat, k: nat, n: nat): nat
    requires n > 0
  {
    if k == 0 then index else SwitchToNextModel(SwitchTimes(index, k - 1, n), n)
  }

  lemma MulNonNegative(a: int, b: int)
    requires a >= 0 && b >= 0
    ensures a * b >= 0
  {
  }

  /** Euclidean remainder is determined by any decomposition `x == q * n + r` with `0 <= r < n`. */
  lemma ModUnique(x: int, n: int, q: int, r: int)
    requires n > 0 && x == q * n + r && 0 <= r < n
    ensures x % n == r
  {
    var q' := x / n;
    if q' < q {
      MulNonNegative(q - q' - 1, n);
    } else if q < q' {
      MulNonNegative(q' - q - 1, n);
    }
  }

  lemma DivMod(x: int, n: int)
    requires n > 0
    ensures x == (x / n) * n + x % n && 0 <= x % n < n
  {
  }

  /** Switching `k` times from a valid index moves it `k` places round the list. */
  lemma {:induction false} SwitchTimesIsModular(index: nat, k: nat, n: nat)
    requires n > 0 && index < n
    ensures SwitchTimes(index, k, n) == (index + k) % n
  {
    if k == 0 {
      ModUnique(index, n, 0, index);
    } else {
      SwitchTimesIsModular(index, k - 1, n);
      ModStep(index + k - 1, n);
    }
  }

  /** One step round the list: the remainder of a successor is the wrapped successor of the remainder. */
  lemma ModStep(x: nat, n: nat)
    requires n > 0
    ensures (x + 1) % n == (x % n + 1) % n
  {
    var q, p := x / n, x % n;
    DivMod(x, n);
    if p + 1 < n {
      ModUnique(x + 1, n, q, p + 1);
      ModUnique(p + 1, n, 0, p + 1);
    } else {
      assert x + 1 == (q + 1) * n;
      ModUnique(x + 1, n, q + 1, 0);
      ModUnique(p + 1, n, 1, 0);
    }
  }


  /** A whole cycle of switches comes back to the starting model. */
  lemma FullCycle(index: nat, n: nat)
    requires n > 0 && index < n
    ensures SwitchTimes(index, n, n) == index
  {
    SwitchTimesIsModular(index, n, n);
    ModUnique(index + n, n, 1, index);
  }

  // ---------------------------------------------------------------------------
  // Reply shapes
  // ---------------------------------------------------------------------------

  datatype Part = Part(text: Option<string>)
  datatype Content = Content(parts: Option<seq<Part>>)
  datatype Candidate = Candidate(content: Option<Content>)

  /** The parsed body of a successful HTTP reply, restricted to the properties the client reads. */
  datatype Body = Body(candidates: Option<seq<Candidate>>, content: Option<Content>, text: Option<string>)

  /** The text found in a reply (possibly `undefined`), or why there is none. */
  datatype Extraction = Found(text: Option<string>) | NoRecognisedShape | PartsMissing

  /** `content.parts[0].text`, which throws when `parts` is missing or empty. */
  function FirstPartText(c: Content): (r: Extraction)
    ensures r.Found? <==> c.parts.Some? && |c.parts.value| > 0
    ensures r.Found? ==> r.text == c.parts.value[0].text
    ensures !r.NoRecognisedShape?
  {
    match c.parts
    case Some(ps) => if |ps| > 0 then Found(ps[0].text) else PartsMissing
    case None => PartsMissing
  }

  /** Looks under `candidates[0].content`, then under `content`, then at `text`. */
  function ExtractText(b: Body): (r: Extraction)
    ensures b.candidates.Some? && |b.candidates.value| > 0 && b.candidates.value[0].content.Some?
            ==> r == FirstPartText(b.candidates.value[0].content.value)
    ensures !(b.candidates.Some? && |b.candidates.value| > 0 && b.candidates.value[0].content.Some?)
            && b.content.Some? && b.content.value.parts.Some?
            ==> r == FirstPartText(b.content.value)
    ensures r == NoRecognisedShape <==>
            !(b.candidates.Some? && |b.candidates.value| > 0 && b.candidates.value[0].content.Some?)
            && !(b.content.Some? && b.content.value.parts.Some?)
            && !(b.text.Some? && b.text.value != "")
    ensures r.Found? && r.text.Some? && b.text.Some? && r.text.value != b.text.value
            ==> b.candidates.Some? || b.content.Some?
  {
    if b.candidates.Some? && |b.candidates.value| > 0 && b.candidates.value[0].content.Some? then
      FirstPartText(b.candidates.value[0].content.value)
    else if b.content.Some? && b.content.value.parts.Some? then
      FirstPartText(b.content.value)
    else if b.text.Some? && b.text.value != "" then
      Found(b.text)
    else
      NoRecognisedShape
  }

  /** The reply shape the API documents, `candidates[0].content.parts[0].text`, yields that text, whatever else the body holds. */
  lemma StandardReplyExtracts(t: string, parts: seq<Part>, candidates: seq<Candidate>, content: Option<Content>, text: Option<string>)
    ensures var b := Body(Some([Candidate(Some(Content(Some([Part(Some(t))] + parts))))] + candidates), content, text);
            ExtractText(b) == Found(Some(t))
  {
    var c := Content(Some([Part(Some(t))] + parts));
    assert ([Candidate(Some(c))] + candidates)[0] == Candidate(Some(c));
    assert ([Part(Some(t))] + parts)[0] == Part(Some(t));
  }

  /** A body holding only a non-empty `text` property yields that text. */
  lemma PlainTextReplyExtracts(t: string)
    requires t != ""
    ensures ExtractText(Body(None, None, Some(t))) == Found(Some(t))
  {
  }

  // ---------------------------------------------------------------------------
  // The retry loop of makeRequest
  // ---------------------------------------------------------------------------

  /** What one attempt got back: a thrown error (network, unreadable JSON), an HTTP error status, or a body. */
  datatype Exchange = Thrown(message: string) | HttpError(status: int) | Delivered(body: Body)

  datatype RequestError =
    | MissingApiKey
    | HttpFailure(status: int)
    | InvalidResponseFormat
    | PartsUnreadable
    | NetworkError(message: string)
    | NoModels

  /** The text of an attempt, or the error it leaves in `lastError`. */
  function AttemptResult(x: Exchange): Result<Option<string>, RequestError> {
    match x
    case Thrown(m) => Failure(NetworkError(m))
    case HttpError(s) => Failure(HttpFailure(s))
    case Delivered(b) =>
      match ExtractText(b)
      case Found(t) => Success(t)
      case NoRecognisedShape => Failure(InvalidResponseFormat)
      case PartsMissing => Failure(PartsUnreadable)
  }

  predicate Answers(x: Exchange) {
    AttemptResult(x).Success?
  }

  /** The outcome of a request, how many attempts it made, and the model index it left behind. */
  datatype Reply = Reply(outcome: Result<Option<string>, RequestError>, attempts: nat, modelIndex: nat)

  /** Attempts `k`, `k+1`, ... up to `n - 1`, switching model after a failure only while attempts remain. */
  function Attempts(k: nat, n: nat, index: nat, last: Option<RequestError>, net: nat -> Exchange): (r: Reply)
    requires k <= n
    ensures k <= r.attempts <= n
    ensures k < n ==> k < r.attempts
    decreases n - k
  {
    if k == n then Reply(Failure(if last.Some? then last.value else NoModels), n, index)
    else
      var res := AttemptResult(net(k));
      if res.Success? then Reply(res, k + 1, index)
      else if k < n - 1 then Attempts(k + 1, n, SwitchToNextModel(index, n), Some(res.error), net)
      else Reply(res, k + 1, index)
  }

  /** The loop answers exactly when some remaining attempt answers. */
  lemma {:induction false} AttemptsAnswerIff(k: nat, n: nat, index: nat, last: Option<RequestError>, net: nat -> Exchange)
    requires k <= n
    ensures Attempts(k, n, index, last, net).outcome.Success? <==> exists j :: k <= j < n && Answers(net(j))
    decreases n - k
  {
    if k < n && !Answers(net(k)) {
      if k < n - 1 {
        AttemptsAnswerIff(k + 1, n, SwitchToNextModel(index, n), Some(AttemptResult(net(k)).error), net);
        if exists j :: k <= j < n && Answers(net(j)) {
          var j :| k <= j < n && Answers(net(j));
          assert j != k;
        }
      }
    }
  }

  /** An answer is the first attempt that answered, after `attempts - 1 - k` switches. */
  lemma {:induction false} AttemptsFirstAnswer(k: nat, n: nat, index: nat, last: Option<RequestError>, net: nat -> Exchange)
    requires k <= n
    ensures var r := Attempts(k, n, index, last, net);
            r.outcome.Success? ==>
              && k < r.attempts
              && r.outcome == AttemptResult(net(r.attempts - 1))
              && (forall j :: k <= j < r.attempts - 1 ==> !Answers(net(j)))
              && r.modelIndex == SwitchTimes(index, r.attempts - 1 - k, n)
    decreases n - k
  {
    if k < n && !Answers(net(k)) && k < n - 1 {
      var next := SwitchToNextModel(index, n);
      var r := Attempts(k + 1, n, next, Some(AttemptResult(net(k)).error), net);
      AttemptsFirstAnswer(k + 1, n, next, Some(AttemptResult(net(k)).error), net);
      if r.outcome.Success? {
        SwitchTimesShift(index, r.attempts - 1 - (k + 1), n);
      }
    }
  }

  /** A loop in which no attempt answers makes every attempt and ends with the last attempt's error. */
  lemma {:induction false} AttemptsAllFail(k: nat, n: nat, index: nat, last: Option<RequestError>, net: nat -> Exchange)
    requires k < n
    ensures var r := Attempts(k, n, index, last, net);
            r.outcome.Failure? ==>
              && r.attempts == n
              && r.outcome == AttemptResult(net(n - 1))
              && r.modelIndex == SwitchTimes(index, n - 1 - k, n)
    decreases n - k
  {
    if !Answers(net(k)) && k < n - 1 {
      var next := SwitchToNextModel(index, n);
      AttemptsAllFail(k + 1, n, next, Some(AttemptResult(net(k)).error), net);
      SwitchTimesShift(index, n - 1 - (k + 1), n);
    }
  }

  lemma {:induction false} SwitchTimesShift(index: nat, k: nat, n: nat)
    requires n > 0
    ensures SwitchTimes(SwitchToNextModel(index, n), k, n) == SwitchTimes(index, k + 1, n)
  {
    if k > 0 {
      SwitchTimesShift(index, k - 1, n);
    }
  }

  /** `makeRequest` with `n` models starting at model `index`. */
  function MakeRequest(apiKey: string, index: nat, n: nat, net: nat -> Exchange): (r: Reply)
    ensures !HasApiKey(apiKey) ==> r == Reply(Failure(MissingApiKey), 0, index)
    ensures r.attempts <= n
    ensures r.outcome.Success? <==> HasApiKey(apiKey) && exists j :: 0 <= j < n && Answers(net(j))
    ensures r.outcome.Success? ==>
              && 0 < r.attempts
              && r.outcome == AttemptResult(net(r.attempts - 1))
              && (forall j :: 0 <= j < r.attempts - 1 ==> !Answers(net(j)))
              && r.modelIndex == SwitchTimes(index, r.attempts - 1, n)
    ensures HasApiKey(apiKey) && r.outcome.Failure? && n > 0 ==>
              && r.attempts == n
              && r.outcome == AttemptResult(net(n - 1))
              && r.modelIndex == SwitchTimes(index, n - 1, n)
    ensures HasApiKey(apiKey) && n == 0 ==> r == Reply(Failure(NoModels), 0, index)
  {
    if !HasApiKey(apiKey) then Reply(Failure(MissingApiKey), 0, index)
    else
      AttemptsAnswerIff(0, n, index, None, net);
      AttemptsFirstAnswer(0, n, index, None, net);
      if n > 0 then AttemptsAllFail(0, n, index, None, net); Attempts(0, n, index, None, net)
      else Attempts(0, n, index, None, net)
  }

  /** A request that fails on every model leaves the index `n - 1` places further on. */
  lemma AllFailedAdvance(apiKey: string, index: nat, n: nat, net: nat -> Exchange)
    requires HasApiKey(apiKey) && 0 < n && index < n
    requires forall j :: 0 <= j < n ==> !Answers(net(j))
    ensures MakeRequest(apiKey, index, n, net).modelIndex == (index + n - 1) % n
    ensures MakeRequest(apiKey, index, n, net).attempts == n
  {
    SwitchTimesIsModular(index, n - 1, n);
  }

  /** With the shipped single-model list a request makes one attempt and never switches. */
  lemma ShippedListSingleAttempt(apiKey: string, net: nat -> Exchange)
    requires HasApiKey(apiKey)
    ensures MakeRequest(apiKey, 0, |Models|, net).attempts == 1
    ensures MakeRequest(apiKey, 0, |Models|, net).modelIndex == 0
    ensures MakeRequest(apiKey, 0, |Models|, net).outcome == AttemptResult(net(0))
  {
  }

  // ---------------------------------------------------------------------------
  // Text enhancement
  // ---------------------------------------------------------------------------

  datatype EnhanceError = TextRequired | EnhancementFailed

  /** The enhancement helpers return the reply text trimmed; `undefined` text makes `.trim()` throw. */
  function TrimmedAnswer(r: Reply): (t: Result<string, EnhanceError>)
    ensures t.Success? <==> r.outcome.Success? && r.outcome.value.Some?
    ensures t.Success? ==> t.value == Trim(r.outcome.value.value)
    ensures t.Failure? ==> t.error == EnhancementFailed
  {
    match r.outcome
    case Success(Some(s)) => Success(Trim(s))
    case _ => Failure(EnhancementFailed)
  }

  /** `enhanceText`: empty text is refused before any request is made. */
  function EnhanceText(text: string, apiKey: string, index: nat, n: nat, net: nat -> Exchange): (r: (Result<string, EnhanceError>, nat))
    ensures text == "" ==> r == (Failure(TextRequired), 0)
    ensures text != "" ==> r.1 == MakeRequest(apiKey, index, n, net).attempts
    ensures r.0.Success? ==>
              && text != ""
              && MakeRequest(apiKey, index, n, net).outcome.Success?
              && MakeRequest(apiKey, index, n, net).outcome.value.Some?
              && r.0.value == Trim(MakeRequest(apiKey, index, n, net).outcome.value.value)
    ensures text != "" && MakeRequest(apiKey, index, n, net).outcome.Success?
            && MakeRequest(apiKey, index, n, net).outcome.value.Some?
            ==> r.0 == Success(Trim(MakeRequest(apiKey, index, n, net).outcome.value.value))
    ensures text != "" && r.0.Failure? ==> r.0.error == EnhancementFailed
  {
    if text == "" then (Failure(TextRequired), 0)
    else
      var reply := MakeRequest(apiKey, index, n, net);
      (TrimmedAnswer(reply), reply.attempts)
  }

  /**
   * End to end with the shipped model list: when the one attempt delivers the documented
   * reply shape, `enhanceText` returns its text trimmed after exactly one attempt.
   */
  lemma EnhanceTextStandardReply(text: string, apiKey: string, t: string, net: nat -> Exchange)
    requires text != "" && HasApiKey(apiKey)
    requires net(0) == Delivered(Body(Some([Candidate(Some(Content(Some([Part(Some(t))]))))]), None, None))
    ensures EnhanceText(text, apiKey, 0, |Models|, net) == (Success(Trim(t)), 1)
  {
    StandardReplyExtracts(t, [], [], None, None);
    assert [Part(Some(t))] + [] == [Part(Some(t))];
    assert [Candidate(Some(Content(Some([Part(Some(t))]))))] + [] == [Candidate(Some(Content(Some([Part(Some(t))]))))];
    ShippedListSingleAttempt(apiKey, net);
  }

  /** A failed request, whatever its cause, surfaces as `EnhancementFailed` from non-empty text. */
  lemma EnhanceTextFailureIsUniform(text: string, apiKey: string, index: nat, n: nat, net: nat -> Exchange)
    requires text != ""
    ensures EnhanceText(text, apiKey, index, n, net).0.Failure?
            <==> !(MakeRequest(apiKey, index, n, net).outcome.Success? && MakeRequest(apiKey, index, n, net).outcome.value.Some?)
  {
  }

  // ---------------------------------------------------------------------------
  // JSON repair: closing what was left open
  // ---------------------------------------------------------------------------

  function Count(s: string, c: char): nat {
    if |s| == 0 then 0 else (if s[0] == c then 1 else 0) + Count(s[1..], c)
  }

  lemma {:induction false} CountAppend(a: string, b: string, c: char)
    ensures Count(a + b, c) == Count(a, c) + Count(b, c)
  {
    if |a| > 0 {
      assert (a + b)[1..] == a[1..] + b;
      CountAppend(a[1..], b, c);
    } else {
      assert a + b == b;
    }
  }

  function Repeat(c: char, k: nat): (r: string)
    ensures |r| == k
    ensures forall i :: 0 <= i < k ==> r[i] == c
  {
    if k == 0 then "" else [c] + Repeat(c, k - 1)
  }

  lemma {:induction false} CountRepeat(c: char, d: char, k: nat)
    ensures Count(Repeat(c, k), d) == if c == d then k else 0
  {
    if k > 0 {
      assert Repeat(c, k)[1..] == Repeat(c, k - 1);
      CountRepeat(c, d, k - 1);
    }
  }

  function Missing(opens: nat, closes: nat): nat {
    if closes < opens then opens - closes else 0
  }

  /** The two counting loops of `repairJsonString`: missing `}` first, then missing `]`, all at the end. */
  method BalanceBrackets(s: string) returns (r: string)
    ensures r == s + Closers(s)
    ensures Count(r, '}') >= Count(r, '{') && Count(r, ']') >= Count(r, '[')
  {
    var openBraces := Count(s, '{');
    var closeBraces := Count(s, '}');
    var openBrackets := Count(s, '[');
    var closeBrackets := Count(s, ']');
    r := s;
    while closeBraces < openBraces
      invariant closeBraces >= Count(s, '}')
      invariant closeBraces <= openBraces || closeBraces == Count(s, '}')
      invariant r == s + Repeat('}', closeBraces - Count(s, '}'))
      decreases openBraces - closeBraces
    {
      r := r + "}";
      closeBraces := closeBraces + 1;
      assert Repeat('}', closeBraces - Count(s, '}')) == Repeat('}', closeBraces - 1 - Count(s, '}')) + "}" by {
        RepeatSnoc('}', closeBraces - 1 - Count(s, '}'));
      }
    }
    var afterBraces := r;
    while closeBrackets < openBrackets
      invariant closeBrackets >= Count(s, ']')
      invariant closeBrackets <= openBrackets || closeBrackets == Count(s, ']')
      invariant r == afterBraces + Repeat(']', closeBrackets - Count(s, ']'))
      decreases openBrackets - closeBrackets
    {
      r := r + "]";
      closeBrackets := closeBrackets + 1;
      assert Repeat(']', closeBrackets - Count(s, ']')) == Repeat(']', closeBrackets - 1 - Count(s, ']')) + "]" by {
        RepeatSnoc(']', closeBrackets - 1 - Count(s, ']'));
      }
    }
    BalancedCounts(s);
  }

  /** What the two loops append: the missing `}` and then the missing `]`. */
  function Closers(s: string): string {
    Repeat('}', Missing(Count(s, '{'), Count(s, '}'))) + Repeat(']', Missing(Count(s, '['), Count(s, ']')))
  }

  lemma BalancedCounts(s: string)
    ensures Count(s + Closers(s), '}') >= Count(s + Closers(s), '{')
    ensures Count(s + Closers(s), ']') >= Count(s + Closers(s), '[')
  {
    CountWithClosers(s, '{');
    CountWithClosers(s, '}');
    CountWithClosers(s, '[');
    CountWithClosers(s, ']');
  }

  /** Appending the closers adds only `}` and `]`. */
  lemma CountWithClosers(s: string, c: char)
    ensures Count(s + Closers(s), c) == Count(s, c)
              + (if c == '}' then Missing(Count(s, '{'), Count(s, '}')) else 0)
              + (if c == ']' then Missing(Count(s, '['), Count(s, ']')) else 0)
  {
    var braces := Repeat('}', Missing(Count(s, '{'), Count(s, '}')));
    var brackets := Repeat(']', Missing(Count(s, '['), Count(s, ']')));
    assert s + Closers(s) == s + braces + brackets;
    CountAppend(s, braces, c);
    CountAppend(s + braces, brackets, c);
    CountRepeat('}', c, |braces|);
    CountRepeat(']', c, |brackets|);
  }

  lemma {:induction false} RepeatSnoc(c: char, k: nat)
    ensures Repeat(c, k + 1) == Repeat(c, k) + [c]
  {
    if k > 0 {
      RepeatSnoc(c, k - 1);
    }
  }

  /** `\s*[}\]]` at the start of `t`: whitespace and then a closer. */
  predicate ClosesAfterWhitespace(t: string) {
    |t| > 0 && (t[0] == '}' || t[0] == ']' || (IsJsWhitespace(t[0]) && ClosesAfterWhitespace(t[1..])))
  }

  /**
   * `replace(/,(\s*[}\]])/g, '$1')`: a comma is dropped when only whitespace separates it
   * from a closer. A match never contains a second comma, so the matches of the global
   * replacement are exactly these commas.
   */
  function StripTrailingCommas(s: string): (r: string)
    ensures |r| <= |s|
  {
    if |s| == 0 then ""
    else (if s[0] == ',' && ClosesAfterWhitespace(s[1..]) then "" else [s[0]]) + StripTrailingCommas(s[1..])
  }

  /** Only commas are removed, so every other character keeps its count. */
  lemma {:induction false} StripKeepsCounts(s: string, c: char)
    requires c != ','
    ensures Count(StripTrailingCommas(s), c) == Count(s, c)
  {
    if |s| > 0 {
      StripKeepsCounts(s[1..], c);
      var head: string := if s[0] == ',' && ClosesAfterWhitespace(s[1..]) then "" else [s[0]];
      CountAppend(head, StripTrailingCommas(s[1..]), c);
    }
  }

  /** The tail of `repairJsonString` after its heuristic key and value quoting. */
  method RepairJsonTail(s: string) returns (r: string)
    ensures Count(r, '}') >= Count(r, '{') && Count(r, ']') >= Count(r, '[')
    ensures Count(s, '}') >= Count(s, '{') && Count(s, ']') >= Count(s, '[') ==> r == StripTrailingCommas(s)
    ensures r == StripTrailingCommas(s + Closers(s))
  {
    var balanced := BalanceBrackets(s);
    r := StripTrailingCommas(balanced);
    StripKeepsCounts(balanced, '{');
    StripKeepsCounts(balanced, '}');
    StripKeepsCounts(balanced, '[');
    StripKeepsCounts(balanced, ']');
    if Count(s, '}') >= Count(s, '{') && Count(s, ']') >= Count(s, '[') {
      assert balanced == s;
    }
  }

  // ---------------------------------------------------------------------------
  // Sample data
  // ---------------------------------------------------------------------------

  /** Parsed sample data; every top-level property may be missing. */
  datatype SampleJson = SampleJson(
    personal: Option<Record>,
    education: Option<seq<Record>>,
    work: Option<seq<Record>>,
    projects: Option<seq<Record>>,
    research: Option<seq<Record>>,
    skills: Option<Skills>)

  /** `x || []`: an array, even an empty one, is truthy. */
  function OrEmpty(x: Option<seq<Record>>): seq<Record> {
    if x.Some? then x.value else []
  }

  /** The validation and defaulting `generateSampleData` applies to parsed data. */
  function NormalizeSampleData(j: SampleJson): (r: Result<Resume, string>)
    ensures r.Failure? <==> j.personal.None? || Field(j.personal.value, "name") == ""
    ensures r.Success? ==> r.value.personal == j.personal && r.value.Name() != ""
    ensures r.Success? ==> r.value.education == (if j.education.Some? then j.education.value else [])
                           && r.value.work == (if j.work.Some? then j.work.value else [])
                           && r.value.projects == (if j.projects.Some? then j.projects.value else [])
                           && r.value.research == (if j.research.Some? then j.research.value else [])
    ensures r.Success? ==> r.value.skills == (if j.skills.Some? && j.skills.value != Text("") then j.skills.value else Text(""))
  {
    if j.personal.None? || Field(j.personal.value, "name") == "" then
      Failure("Invalid sample data: missing personal information")
    else
      var skills := match j.skills case Some(sk) => sk case None => Text("");
      Success(Resume(j.personal, OrEmpty(j.education), OrEmpty(j.work), OrEmpty(j.projects), OrEmpty(j.research), skills))
  }

  /** Sample data written back in the parsed shape, every property present. */
  function AsSampleJson(d: Resume): SampleJson {
    SampleJson(d.personal, Some(d.education), Some(d.work), Some(d.projects), Some(d.research), Some(d.skills))
  }

  /** Complete data with a personal name passes unchanged; without one it is rejected. */
  lemma NormalizeKeepsComplete(d: Resume)
    ensures NormalizeSampleData(AsSampleJson(d)).Success? <==> d.Name() != ""
    ensures NormalizeSampleData(AsSampleJson(d)).Success? ==> NormalizeSampleData(AsSampleJson(d)).value == d
  {
  }

  /** Normalising data that was already normalised changes nothing. */
  lemma NormalizeIdempotent(j: SampleJson)
    ensures NormalizeSampleData(j).Success? ==>
              NormalizeSampleData(AsSampleJson(NormalizeSampleData(j).value)) == NormalizeSampleData(j)
  {
    if NormalizeSampleData(j).Success? {
      NormalizeKeepsComplete(NormalizeSampleData(j).value);
    }
  }
}

=== FILE: generator.dfy ===
/**
 * Decisions of the resume generator: the export validator, the PDF file name, the
 * filtering rules of the HTML fallback preview, which entries "enhance all" sends to the
 * language model and what it keeps when an enhancement fails, and the branch logic of
 * generating a preview and downloading the result.
 */
module Generator {
  import opened Wrappers
  import opened JsString
  import opened ResumeData
  import Typst

  // ---------------------------------------------------------------------------
  // Validation
  // ---------------------------------------------------------------------------

  /** Some entry has a non-blank value in field `f` or in field `g`. */
  predicate HasEntryWith(entries: seq<Record>, f: string, g: string) {
    exists i :: 0 <= i < |entries| && (NonBlank(Field(entries[i], f)) || NonBlank(Field(entries[i], g)))
  }

  /** `entries.some(e => (e.f && e.f.trim()) || (e.g && e.g.trim()))`. */
  function SomeEntryWith(entries: seq<Record>, f: string, g: string): (b: bool)
    ensures b <==> HasEntryWith(entries, f, g)
  {
    if |entries| == 0 then false
    else
      NonBlank(Field(entries[0], f)) || NonBlank(Field(entries[0], g))
      || (assert forall i :: 1 <= i < |entries| ==> entries[i] == entries[1..][i - 1]; SomeEntryWith(entries[1..], f, g))
  }

  /** `validateResumeData`: a non-blank name and one meaningful entry in some section. */
  function ValidateResumeData(data: Resume): (r: bool)
    ensures r <==>
      && data.personal.Some?
      && NonBlank(data.Name())
      && (|| HasEntryWith(data.education, "institution", "degree")
          || HasEntryWith(data.work, "company", "position")
          || HasEntryWith(data.projects, "name", "role")
          || HasEntryWith(data.research, "title", "journal"))
  {
    if data.personal.None? || Field(data.personal.value, "name") == "" || Trim(Field(data.personal.value, "name")) == "" then false
    else
      var hasEducation := |data.education| > 0 && SomeEntryWith(data.education, "institution", "degree");
      var hasWork := |data.work| > 0 && SomeEntryWith(data.work, "company", "position");
      var hasProjects := |data.projects| > 0 && SomeEntryWith(data.projects, "name", "role");
      var hasResearch := |data.research| > 0 && SomeEntryWith(data.research, "title", "journal");
      hasEducation || hasWork || hasProjects || hasResearch
  }

  /** The two fields of every entry the validator reads. */
  function KeyFields(entries: seq<Record>, f: string, g: string): (r: seq<(string, string)>)
    ensures |r| == |entries|
    ensures forall i :: 0 <= i < |entries| ==> r[i] == (Field(entries[i], f), Field(entries[i], g))
  {
    if |entries| == 0 then [] else [(Field(entries[0], f), Field(entries[0], g))] + KeyFields(entries[1..], f, g)
  }

  /** Everything the validator looks at; dates, descriptions, links and skills are not part of it. */
  function ValidationView(data: Resume): (Option<string>, seq<(string, string)>, seq<(string, string)>, seq<(string, string)>, seq<(string, string)>) {
    ( if data.personal.Some? then Some(Field(data.personal.value, "name")) else None,
      KeyFields(data.education, "institution", "degree"),
      KeyFields(data.work, "company", "position"),
      KeyFields(data.projects, "name", "role"),
      KeyFields(data.research, "title", "journal") )
  }

  lemma HasEntryWithView(a: seq<Record>, b: seq<Record>, f: string, g: string)
    requires KeyFields(a, f, g) == KeyFields(b, f, g)
    ensures HasEntryWith(a, f, g) <==> HasEntryWith(b, f, g)
  {
    assert |a| == |b|;
    forall i | 0 <= i < |a|
      ensures Field(a[i], f) == Field(b[i], f) && Field(a[i], g) == Field(b[i], g)
    {
      assert KeyFields(a, f, g)[i] == KeyFields(b, f, g)[i];
    }
  }

  /** Two records that agree on the name and the eight key fields validate alike. */
  lemma ValidationDependsOnlyOnView(a: Resume, b: Resume)
    requires ValidationView(a) == ValidationView(b)
    ensures ValidateResumeData(a) == ValidateResumeData(b)
  {
    HasEntryWithView(a.education, b.education, "institution", "degree");
    HasEntryWithView(a.work, b.work, "company", "position");
    HasEntryWithView(a.projects, b.projects, "name", "role");
    HasEntryWithView(a.research, b.research, "title", "journal");
  }

  /** A record that passes validation always yields a Typst document with at least one section. */
  lemma ValidResumeHasTypstSection(data: Resume)
    requires ValidateResumeData(data)
    ensures |Typst.TypstBlocks(data)| > 0
  {
    var blocks := Typst.TypstBlocks(data);
    if |data.education| > 0 {
      assert Typst.SectionBlock(Education) in blocks;
    } else if |data.work| > 0 {
      assert Typst.SectionBlock(Work) in blocks;
    } else if |data.projects| > 0 {
      assert Typst.SectionBlock(Projects) in blocks;
    } else {
      assert HasEntryWith(data.research, "title", "journal");
      var i :| 0 <= i < |data.research| && (NonBlank(Field(data.research[i], "title")) || NonBlank(Field(data.research[i], "journal")));
      assert Truthy(data.research[i], "title") || Truthy(data.research[i], "journal");
      assert Typst.HasTitledPaper(data.research);
      assert Typst.SectionBlock(Research) in blocks;
    }
  }

  // ---------------------------------------------------------------------------
  // File name
  // ---------------------------------------------------------------------------

  /** `[a-zA-Z0-9一-鿿]`: the characters a file name keeps. */
  predicate IsFilenameSafe(c: char) {
    ('a' <= c <= 'z') || ('A' <= c <= 'Z') || ('0' <= c <= '9') || ('\U{4E00}' <= c <= '\U{9FFF}')
  }

  /**
   * `name.replace(/[^a-zA-Z0-9一-鿿]/g, '_')`. Without the `u` flag the pattern
   * matches UTF-16 code units, so a character above U+FFFF (two units) becomes `__`.
   */
  function SanitizeName(s: string): (r: string)
    ensures Utf16Length(r) == Utf16Length(s)
    ensures forall i :: 0 <= i < |r| ==> IsFilenameSafe(r[i]) || r[i] == '_'
    ensures (forall i :: 0 <= i < |s| ==> s[i] as int <= 0xFFFF) ==>
              |r| == |s| && forall i :: 0 <= i < |s| ==> r[i] == (if IsFilenameSafe(s[i]) then s[i] else '_')
  {
    if |s| == 0 then ""
    else
      var head: string := if s[0] as int > 0xFFFF then "__" else if IsFilenameSafe(s[0]) then [s[0]] else "_";
      var rest := SanitizeName(s[1..]);
      Utf16LengthAppend(head, rest);
      head + rest
  }

  lemma {:induction false} Utf16LengthAppend(a: string, b: string)
    ensures Utf16Length(a + b) == Utf16Length(a) + Utf16Length(b)
  {
    if |a| > 0 {
      assert (a + b)[1..] == a[1..] + b;
      Utf16LengthAppend(a[1..], b);
    } else {
      assert a + b == b;
    }
  }

  /** A sanitised name is left as it is by a second sanitising pass. */
  lemma SanitizeIdempotent(s: string)
    ensures SanitizeName(SanitizeName(s)) == SanitizeName(s)
  {
    var r := SanitizeName(s);
    assert forall i :: 0 <= i < |r| ==> r[i] as int <= 0xFFFF;
    var rr := SanitizeName(r);
    assert |rr| == |r|;
    assert forall i :: 0 <= i < |r| ==> rr[i] == r[i];
  }

  /** What follows the name: `_`, the word for "resume" in the language, `.pdf`. */
  function FilenameSuffix(lang: string): string {
    if lang == ZhCN then "_简历.pdf" else "_Resume.pdf"
  }

  /** `generateFilename`: sanitised name, `_`, the word for "resume" in the language, `.pdf`. */
  function GenerateFilename(name: string, lang: string): (r: string)
    ensures lang == ZhCN ==> r == SanitizeName(name) + "_简历.pdf"
    ensures lang != ZhCN ==> r == SanitizeName(name) + "_Resume.pdf"
  {
    SanitizeName(name) + FilenameSuffix(lang)
  }

  /** The file name starts with the sanitised name, which has as many UTF-16 units as the name itself. */
  lemma FilenameKeepsName(name: string, lang: string)
    ensures var clean := SanitizeName(name);
            && |GenerateFilename(name, lang)| > |clean|
            && GenerateFilename(name, lang)[..|clean|] == clean
            && GenerateFilename(name, lang)[|clean|] == '_'
            && Utf16Length(clean) == Utf16Length(name)
  {
    var clean := SanitizeName(name);
    var r := GenerateFilename(name, lang);
    assert r == clean + FilenameSuffix(lang);
  }

  // ---------------------------------------------------------------------------
  // HTML fallback
  // ---------------------------------------------------------------------------

  /** The trimmed, non-blank pieces of `xs`, in order: `.map(x => x.trim()).filter(Boolean)`. */
  function TrimmedNonEmpty(xs: seq<string>): (r: seq<string>)
    ensures |r| <= |xs|
  {
    if |xs| == 0 then []
    else (if Trim(xs[0]) == "" then [] else [Trim(xs[0])]) + TrimmedNonEmpty(xs[1..])
  }

  /** Every kept piece is non-empty and already trimmed. */
  lemma {:induction false} TrimmedNonEmptyClean(xs: seq<string>)
    ensures forall i :: 0 <= i < |TrimmedNonEmpty(xs)| ==> TrimmedNonEmpty(xs)[i] != "" && Trim(TrimmedNonEmpty(xs)[i]) == TrimmedNonEmpty(xs)[i]
  {
    if |xs| > 0 {
      TrimmedNonEmptyClean(xs[1..]);
      TrimIdempotent(xs[0]);
    }
  }

  /** Keeping the non-blank pieces distributes over concatenation. */
  lemma TrimmedNonEmptyAppend(xs: seq<string>, ys: seq<string>)
    ensures TrimmedNonEmpty(xs + ys) == TrimmedNonEmpty(xs) + TrimmedNonEmpty(ys)
  {
    TrimmedNonEmptyIsFlatMap(xs + ys);
    TrimmedNonEmptyIsFlatMap(xs);
    TrimmedNonEmptyIsFlatMap(ys);
    FlatMapAppend(KeptPiece, xs, ys);
  }

  /** `TrimmedNonEmpty` concatenates what each piece contributes. */
  lemma {:induction false} TrimmedNonEmptyIsFlatMap(xs: seq<string>)
    ensures TrimmedNonEmpty(xs) == FlatMap(KeptPiece, xs)
  {
    if |xs| > 0 {
      TrimmedNonEmptyIsFlatMap(xs[1..]);
      TrimmedNonEmptyStep(xs);
    }
  }

  /** A single piece is kept, trimmed, exactly when it is not blank. */
  lemma TrimmedNonEmptySingle(x: string)
    ensures TrimmedNonEmpty([x]) == if NonBlank(x) then [Trim(x)] else []
  {
    assert [x][1..] == [];
  }

  /** Every non-blank piece is kept in its trimmed form. */
  lemma {:induction false} TrimmedNonEmptyKeeps(xs: seq<string>)
    ensures forall x :: x in xs && NonBlank(x) ==> Trim(x) in TrimmedNonEmpty(xs)
  {
    if |xs| > 0 {
      TrimmedNonEmptyKeeps(xs[1..]);
      assert forall x :: x in xs ==> x == xs[0] || x in xs[1..];
    }
  }

  /** The bullets of a description: one per non-blank line, trimmed, in order. */
  function DescriptionBullets(description: string): (r: seq<string>)
    ensures description == "" ==> r == []
    ensures forall i :: 0 <= i < |r| ==> r[i] != "" && Trim(r[i]) == r[i] && '\n' !in r[i]
    ensures forall line :: line in Split(description, '\n') && NonBlank(line) ==> Trim(line) in r
    ensures |r| <= |Split(description, '\n')|
  {
    if description == "" then []
    else
      var lines := Split(description, '\n');
      TrimmedNonEmptyNoNewline(lines);
      TrimmedNonEmptyKeeps(lines);
      TrimmedNonEmptyClean(lines);
      TrimmedNonEmpty(lines)
  }

  /** The bullets are the kept pieces of the split description, the empty description included. */
  lemma DescriptionBulletsOfLines(description: string)
    ensures DescriptionBullets(description) == TrimmedNonEmpty(Split(description, '\n'))
  {
    if description == "" {
      assert Split(description, '\n') == [""];
      TrimmedNonEmptySingle("");
    }
  }

  /** Two descriptions joined by a line break give the first one's bullets followed by the second one's. */
  lemma DescriptionBulletsJoin(a: string, b: string)
    ensures DescriptionBullets(a + "\n" + b) == DescriptionBullets(a) + DescriptionBullets(b)
  {
    SplitConcat(a, '\n', b);
    TrimmedNonEmptyAppend(Split(a, '\n'), Split(b, '\n'));
    DescriptionBulletsOfLines(a + "\n" + b);
    DescriptionBulletsOfLines(a);
    DescriptionBulletsOfLines(b);
  }

  /** A single line gives its trimmed text as the one bullet, or no bullet when it is blank. */
  lemma DescriptionBulletsLine(line: string)
    requires '\n' !in line
    ensures DescriptionBullets(line) == if NonBlank(line) then [Trim(line)] else []
  {
    SplitNoSeparator(line, '\n');
    DescriptionBulletsOfLines(line);
    TrimmedNonEmptySingle(line);
  }

  lemma {:induction false} TrimmedNonEmptyNoNewline(lines: seq<string>)
    requires forall i :: 0 <= i < |lines| ==> '\n' !in lines[i]
    ensures forall i :: 0 <= i < |TrimmedNonEmpty(lines)| ==> '\n' !in TrimmedNonEmpty(lines)[i]
  {
    if |lines| > 0 {
      TrimmedNonEmptyNoNewline(lines[1..]);
      TrimSubsequence(lines[0]);
    }
  }

  /** Trimming never introduces a character. */
  lemma TrimSubsequence(s: string)
    ensures forall c :: c in Trim(s) ==> c in s
  {
    var a := TrimStart(s);
    assert forall c :: c in a ==> c in s by {
      forall c | c in a ensures c in s {
        var i :| 0 <= i < |a| && a[i] == c;
        assert s[|s| - |a| + i] == c;
      }
    }
    assert forall c :: c in TrimEnd(a) ==> c in a by {
      forall c | c in TrimEnd(a) ensures c in a {
        var i :| 0 <= i < |TrimEnd(a)| && TrimEnd(a)[i] == c;
        assert a[i] == c;
      }
    }
  }

  lemma {:induction false} TrimmedNonEmptyIdentity(xs: seq<string>)
    requires forall i :: 0 <= i < |xs| ==> xs[i] != "" && Trim(xs[i]) == xs[i]
    ensures TrimmedNonEmpty(xs) == xs
  {
    if |xs| > 0 {
      var x, rest := xs[0], xs[1..];
      assert xs == [x] + rest;
      TrimmedNonEmptyIdentity(rest);
    }
  }

  /** Lines that are already bullets survive being joined with newlines and split again. */
  lemma BulletsRoundTrip(lines: seq<string>)
    requires forall i :: 0 <= i < |lines| ==> lines[i] != "" && Trim(lines[i]) == lines[i] && '\n' !in lines[i]
    ensures DescriptionBullets(Join(lines, "\n")) == lines
  {
    if |lines| > 0 {
      SplitJoin(lines, '\n');
      assert Join(lines, "\n") != "" by {
        JoinNonEmpty(lines, "\n");
      }
      TrimmedNonEmptyIdentity(lines);
    }
  }

  lemma {:induction false} JoinNonEmpty(parts: seq<string>, sep: string)
    requires |parts| > 0 && parts[0] != ""
    ensures Join(parts, sep) != ""
  {
    if |parts| > 1 {
      assert |Join(parts, sep)| >= |parts[0]|;
    }
  }

  /** A category's line in the HTML preview: the label is printed untrimmed when its trimmed form is non-empty. */
  function HtmlSkillLine(g: SkillGroup): (r: Option<Typst.SkillLine>)
    ensures r.Some? <==> Typst.HasNonBlankItem(g.items)
    ensures r.Some? ==> r.value.items == TrimmedNonEmpty(g.items)
    ensures r.Some? ==> r.value.heading == (if NonBlank(g.category) then Some(g.category) else None)
  {
    var valid := TrimmedNonEmpty(g.items);
    TrimmedNonEmptyIff(g.items);
    if |valid| > 0 then
      Some(Typst.SkillLine(if Trim(g.category) != "" then Some(g.category) else None, valid))
    else None
  }

  lemma {:induction false} TrimmedNonEmptyIff(items: seq<string>)
    ensures |TrimmedNonEmpty(items)| > 0 <==> Typst.HasNonBlankItem(items)
  {
    if |items| > 0 {
      TrimmedNonEmptyIff(items[1..]);
      if Typst.HasNonBlankItem(items) && !NonBlank(items[0]) {
        var i :| 0 <= i < |items| && NonBlank(items[i]);
        assert NonBlank(items[1..][i - 1]);
      }
      if Typst.HasNonBlankItem(items[1..]) {
        var i :| 0 <= i < |items[1..]| && NonBlank(items[1..][i]);
        assert NonBlank(items[i + 1]);
      }
    }
  }

  /** `xs.map(f)`. */
  function MapSeq<A, B>(f: A -> B, xs: seq<A>): (r: seq<B>)
    ensures |r| == |xs|
  {
    if |xs| == 0 then [] else [f(xs[0])] + MapSeq(f, xs[1..])
  }

  lemma {:induction false} MapSeqAt<A, B>(f: A -> B, xs: seq<A>, i: nat)
    requires i < |xs|
    ensures MapSeq(f, xs)[i] == f(xs[i])
  {
    if i > 0 {
      MapSeqAt(f, xs[1..], i - 1);
    }
  }

  lemma {:induction false} MapSeqAppend<A, B>(f: A -> B, a: seq<A>, b: seq<A>)
    ensures MapSeq(f, a + b) == MapSeq(f, a) + MapSeq(f, b)
  {
    if |a| == 0 {
      assert a + b == b;
    } else {
      MapSeqAppend(f, a[1..], b);
      assert (a + b)[0] == a[0] && (a + b)[1..] == a[1..] + b;
      var h, p, q := [f(a[0])], MapSeq(f, a[1..]), MapSeq(f, b);
      assert MapSeq(f, a + b) == h + (p + q);
      AppendAssoc(h, p, q);
    }
  }

  /** `items.map(escapeTypst)`: each string escaped, in place. */
  function EscapeAll(xs: seq<string>): (r: seq<string>)
    ensures |r| == |xs|
  {
    MapSeq(Typst.EscapeTypst, xs)
  }

  lemma EscapeAllAt(xs: seq<string>, i: nat)
    requires i < |xs|
    ensures EscapeAll(xs)[i] == Typst.EscapeTypst(xs[i])
  {
    MapSeqAt(Typst.EscapeTypst, xs, i);
  }

  lemma {:induction false} KeptIsEscapedTrimmed(items: seq<string>)
    ensures Typst.KeptItems(items) == EscapeAll(TrimmedNonEmpty(items))
  {
    if |items| > 0 {
      var rest := items[1..];
      KeptIsEscapedTrimmed(rest);
      var head := KeptPiece(items[0]);
      KeptItemsStep(items);
      TrimmedNonEmptyStep(items);
      EscapeAllAppend(head, TrimmedNonEmpty(rest));
    }
  }

  /** What one piece contributes to `TrimmedNonEmpty`. */
  function KeptPiece(x: string): seq<string> {
    if Trim(x) == "" then [] else [Trim(x)]
  }

  lemma TrimmedNonEmptyStep(items: seq<string>)
    requires |items| > 0
    ensures TrimmedNonEmpty(items) == KeptPiece(items[0]) + TrimmedNonEmpty(items[1..])
  {
  }

  lemma KeptItemsStep(items: seq<string>)
    requires |items| > 0
    ensures Typst.KeptItems(items) == EscapeAll(KeptPiece(items[0])) + Typst.KeptItems(items[1..])
  {
    var x := items[0];
    if NonBlank(x) {
      assert KeptPiece(x) == [Trim(x)];
      EscapeAllSingle(Trim(x));
    } else {
      assert KeptPiece(x) == [];
    }
  }

  lemma EscapeAllSingle(x: string)
    ensures EscapeAll([x]) == [Typst.EscapeTypst(x)]
  {
  }

  lemma EscapeAllAppend(a: seq<string>, b: seq<string>)
    ensures EscapeAll(a + b) == EscapeAll(a) + EscapeAll(b)
  {
    MapSeqAppend(Typst.EscapeTypst, a, b);
  }

  /** Both renderers keep the same categories and the same items; Typst escapes what HTML prints as is. */
  lemma RenderersAgreeOnSkills(g: SkillGroup)
    ensures Typst.TypstSkillLine(g).Some? <==> HtmlSkillLine(g).Some?
    ensures HtmlSkillLine(g).Some? ==>
              Typst.TypstSkillLine(g).value.items == EscapeAll(HtmlSkillLine(g).value.items)
  {
    KeptIsEscapedTrimmed(g.items);
  }

  /** The HTML skills lines of all categories that have one. */
  function HtmlSkillLines(groups: seq<SkillGroup>): (r: seq<Typst.SkillLine>)
    ensures |r| <= |groups|
    ensures r == [] <==> forall j :: 0 <= j < |groups| ==> !Typst.HasNonBlankItem(groups[j].items)
  {
    if |groups| == 0 then []
    else
      var rest := HtmlSkillLines(groups[1..]);
      assert forall j :: 1 <= j < |groups| ==> groups[j] == groups[1..][j - 1];
      (match HtmlSkillLine(groups[0]) case Some(l) => [l] case None => []) + rest
  }

  /** The test the HTML fallback applies before each block. */
  predicate InHtml(data: Resume, b: Typst.Block) {
    match b
    case SectionBlock(s) => |data.Entries(s)| > 0
    case SkillsBlock => data.skills.Groups? && |data.skills.groups| > 0 && HtmlSkillLines(data.skills.groups) != []
  }

  /**
   * The blocks of the HTML fallback. The Skills heading appears only when some category
   * produced a line; unlike the Typst document, Research needs no titled paper.
   */
  function HtmlBlocks(data: Resume): (r: seq<Typst.Block>)
    ensures forall s :: Typst.SectionBlock(s) in r <==> |data.Entries(s)| > 0
    ensures Typst.SkillsBlock in r <==>
              data.skills.Groups? && exists j :: 0 <= j < |data.skills.groups| && Typst.HasNonBlankItem(data.skills.groups[j].items)
  {
    AllBlocksComplete();
    HtmlKeep(Typst.AllBlocks, data)
  }

  lemma AllBlocksComplete()
    ensures forall s: Section :: Typst.SectionBlock(s) in Typst.AllBlocks
    ensures Typst.SkillsBlock in Typst.AllBlocks
  {
    forall s: Section ensures Typst.SectionBlock(s) in Typst.AllBlocks {
      match s
      case Education => assert Typst.AllBlocks[0] == Typst.SectionBlock(s);
      case Work => assert Typst.AllBlocks[1] == Typst.SectionBlock(s);
      case Projects => assert Typst.AllBlocks[2] == Typst.SectionBlock(s);
      case Research => assert Typst.AllBlocks[3] == Typst.SectionBlock(s);
    }
    assert Typst.AllBlocks[4] == Typst.SkillsBlock;
  }

  function HtmlKeep(bs: seq<Typst.Block>, data: Resume): (r: seq<Typst.Block>)
    ensures forall b :: b in r <==> b in bs && InHtml(data, b)
  {
    if |bs| == 0 then [] else (if InHtml(data, bs[0]) then [bs[0]] else []) + HtmlKeep(bs[1..], data)
  }

  /** Wherever the Typst document has a block the HTML preview has it too. */
  lemma HtmlCoversTypst(data: Resume, b: Typst.Block)
    requires b in Typst.TypstBlocks(data)
    requires b == Typst.SkillsBlock ==> exists j :: 0 <= j < |data.skills.groups| && Typst.HasNonBlankItem(data.skills.groups[j].items)
    ensures b in HtmlBlocks(data)
  {
    if b.SectionBlock? && b.section == Research {
      assert Typst.HasTitledPaper(data.research);
    }
  }

  // ---------------------------------------------------------------------------
  // Enhance all
  // ---------------------------------------------------------------------------

  /** The two fields whose truthiness sends an entry of `s` to the model; education is never sent. */
  predicate EligibleForEnhancement(s: Section, e: Record) {
    match s
    case Education => false
    case Work => Truthy(e, "description") && Truthy(e, "position")
    case Projects => Truthy(e, "description") && Truthy(e, "name")
    case Research => Truthy(e, "description") && Truthy(e, "title")
  }

  /**
   * What each enhancement request produced: `work(i)` is the new description of work
   * entry `i`, or `None` if its request failed; `skills` is the result of the skill generation.
   */
  datatype Enhancements = Enhancements(
    work: nat -> Option<string>,
    projects: nat -> Option<string>,
    research: nat -> Option<string>,
    skills: Option<string>)
  {
    function For(s: Section): nat -> Option<string> {
      match s
      case Education => (i: nat) => None
      case Work => work
      case Projects => projects
      case Research => research
    }
  }

  function EnhanceEntry(s: Section, e: Record, outcome: Option<string>): Record {
    if EligibleForEnhancement(s, e) && outcome.Some? then e["description" := outcome.value] else e
  }

  /** The entries of `s` after their enhancement requests settled. */
  function EnhanceSection(s: Section, entries: seq<Record>, out: Enhancements): (r: seq<Record>)
    ensures |r| == |entries|
    ensures forall i: nat :: i < |entries| && !(EligibleForEnhancement(s, entries[i]) && out.For(s)(i).Some?) ==> r[i] == entries[i]
    ensures forall i: nat :: i < |entries| && EligibleForEnhancement(s, entries[i]) && out.For(s)(i).Some? ==>
              r[i] == entries[i]["description" := out.For(s)(i).value]
  {
    var outcome := out.For(s);
    var r := seq(|entries|, i requires 0 <= i < |entries| => EnhanceEntry(s, entries[i], outcome(i)));
    assert forall i: nat :: i < |entries| ==> r[i] == EnhanceEntry(s, entries[i], outcome(i));
    r
  }

  function ApplyEnhancements(data: Resume, out: Enhancements): Resume {
    data.(work := EnhanceSection(Work, data.work, out),
          projects := EnhanceSection(Projects, data.projects, out),
          research := EnhanceSection(Research, data.research, out))
  }

  datatype EnhanceReport = NoApiKey | Aborted | Repopulated(data: Resume)

  /**
   * The skills test as written: `skills && skills.length > 0 && skills.some(...)`. On a
   * non-empty string `some` is not a function, so the call throws (`None`).
   */
  function HasSkillsAsWritten(skills: Skills): Option<bool> {
    match skills
    case Text(t) => if t == "" then Some(false) else None
    case Groups(gs) => Some(|gs| > 0 && exists j :: 0 <= j < |gs| && exists k :: 0 <= k < |gs[j].items| && Trim(gs[j].items[k]) != "")
  }

  function FillSkills(data: Resume, hasSkills: bool, out: Enhancements): Resume {
    if !hasSkills && out.skills.Some? then data.(skills := Text(out.skills.value)) else data
  }

  /** `enhanceAllContent` as written: a non-empty skills string aborts everything before the form is repopulated. */
  function EnhanceAllAsWritten(hasApiKey: bool, data: Resume, out: Enhancements): (r: EnhanceReport)
    ensures !hasApiKey <==> r == NoApiKey
    ensures r == Aborted <==> hasApiKey && data.skills.Text? && data.skills.text != ""
    ensures r.Repopulated? ==> r == EnhanceAll(hasApiKey, data, out)
  {
    if !hasApiKey then NoApiKey
    else
      var enhanced := ApplyEnhancements(data, out);
      match HasSkillsAsWritten(enhanced.skills)
      case None => Aborted
      case Some(has) =>
        SkillsTestsAgree(enhanced.skills);
        Repopulated(FillSkills(enhanced, has, out))
  }

  /** Where the written skills test does not throw, it answers as the intended one. */
  lemma SkillsTestsAgree(skills: Skills)
    ensures HasSkillsAsWritten(skills).Some? ==> HasSkillsAsWritten(skills).value == HasSkills(skills)
  {
    if skills.Groups? {
      var gs := skills.groups;
      assert (|gs| > 0 && exists j :: 0 <= j < |gs| && exists k :: 0 <= k < |gs[j].items| && Trim(gs[j].items[k]) != "")
             <==> HasSkills(skills);
    }
  }

  /** The skills test the operation evidently means: a string counts when it is non-blank. */
  predicate HasSkills(skills: Skills) {
    match skills
    case Text(t) => NonBlank(t)
    case Groups(gs) => exists j :: 0 <= j < |gs| && Typst.HasNonBlankItem(gs[j].items)
  }

  /** `enhanceAllContent` with the skills test corrected. */
  function EnhanceAll(hasApiKey: bool, data: Resume, out: Enhancements): (r: EnhanceReport)
    ensures !hasApiKey <==> r == NoApiKey
    ensures hasApiKey ==> r.Repopulated?
    ensures r.Repopulated? ==>
      && r.data.personal == data.personal
      && r.data.education == data.education
      && (forall s :: s != Education ==> r.data.Entries(s) == EnhanceSection(s, data.Entries(s), out))
    ensures r.Repopulated? && HasSkills(data.skills) ==> r.data.skills == data.skills
    ensures r.Repopulated? && !HasSkills(data.skills) ==>
              r.data.skills == (if out.skills.Some? then Text(out.skills.value) else data.skills)
  {
    if !hasApiKey then NoApiKey
    else
      var enhanced := ApplyEnhancements(data, out);
      Repopulated(FillSkills(enhanced, HasSkills(enhanced.skills), out))
  }

  /** A failed request leaves its entry exactly as it was; an ineligible entry is never touched. */
  lemma FailedEnhancementKeepsEntry(data: Resume, out: Enhancements, s: Section, i: nat)
    requires i < |data.Entries(s)|
    requires out.For(s)(i).None? || !EligibleForEnhancement(s, data.Entries(s)[i])
    ensures EnhanceAll(true, data, out).data.Entries(s)[i] == data.Entries(s)[i]
  {
  }

  /** Where the skills are empty or a list, the program behaves as the corrected operation. */
  lemma AsWrittenAgreesWithoutSkillsText(hasApiKey: bool, data: Resume, out: Enhancements)
    requires data.skills == Text("") || data.skills.Groups?
    ensures EnhanceAllAsWritten(hasApiKey, data, out) == EnhanceAll(hasApiKey, data, out)
  {
    SkillsTestsAgree(data.skills);
  }

  /** The form always supplies skills as a string: with one filled in, every enhancement is thrown away. */
  lemma AsWrittenDiscardsEnhancements()
    ensures var data := Resume(Some(map["name" := "Li Ming"]), [], [map["position" := "Engineer", "description" := "Built services"]], [], [], Text("Python"));
            var out := Enhancements((i: nat) => Some("Improved services"), (i: nat) => None, (i: nat) => None, None);
            && EnhanceAllAsWritten(true, data, out) == Aborted
            && EnhanceAll(true, data, out).data.work[0]["description"] == "Improved services"
  {
    var data := Resume(Some(map["name" := "Li Ming"]), [], [map["position" := "Engineer", "description" := "Built services"]], [], [], Text("Python"));
    var out := Enhancements((i: nat) => Some("Improved services"), (i: nat) => None, (i: nat) => None, None);
    assert EligibleForEnhancement(Work, data.work[0]);
  }

  // ---------------------------------------------------------------------------
  // Generating a preview and downloading
  // ---------------------------------------------------------------------------

  /** What the preview pane shows; before any generation it holds `children` placeholder nodes. */
  datatype Preview = Placeholder(children: nat) | SvgPreview(svg: string) | HtmlPreview | PdfPreview(pdf: seq<Typst.Byte>)

  predicate HasChildren(p: Preview) {
    !p.Placeholder? || p.children > 0
  }

  datatype GeneratorState = GeneratorState(generating: bool, pdfBytes: Option<seq<Typst.Byte>>, downloadEnabled: bool, preview: Preview)

  /**
   * `generateResume` on collected `data`, with whether the compiler loaded and the outcomes
   * of the SVG and PDF compile methods. Validation failure leaves the preview and the download button alone but
   * still forgets the stored PDF.
   */
  function GenerateResume(st: GeneratorState, data: Resume, loaded: bool, svg: Typst.CompileMethods<char>, pdf: Typst.CompileMethods<Typst.Byte>): (r: GeneratorState)
    ensures st.generating ==> r == st
    ensures !st.generating ==> !r.generating
    ensures !st.generating && !ValidateResumeData(data) ==>
              r == GeneratorState(false, None, st.downloadEnabled, st.preview)
    ensures !st.generating && ValidateResumeData(data) ==>
              && r.downloadEnabled
              && HasChildren(r.preview)
              && (r.pdfBytes.Some? <==> Typst.CompileTo(loaded, pdf).output.Some?)
              && (r.pdfBytes.Some? ==> |r.pdfBytes.value| > 0 && r.pdfBytes == Typst.CompileTo(loaded, pdf).output)
              && (r.pdfBytes.None? && Typst.CompileTo(loaded, svg).output.Some? ==> r.preview == SvgPreview(Typst.CompileTo(loaded, svg).output.value))
              && (r.pdfBytes.None? && Typst.CompileTo(loaded, svg).output.None? ==> r.preview == HtmlPreview)
  {
    if st.generating then st
    else if !ValidateResumeData(data) then GeneratorState(false, None, st.downloadEnabled, st.preview)
    else
      var shown := match Typst.CompileTo(loaded, svg).output case Some(s) => SvgPreview(s) case None => HtmlPreview;
      var compiled := Typst.CompileTo(loaded, pdf).output;
      if compiled.Some? && |compiled.value| > 0 then GeneratorState(false, compiled, true, PdfPreview(compiled.value))
      else GeneratorState(false, None, true, shown)
  }

  datatype DownloadAction = SavePdf(bytes: seq<Typst.Byte>, filename: string) | PrintPreview | ReportNoPdf

  /** `downloadPDF`: stored bytes first, else print a non-empty preview, else report that there is nothing. */
  function DownloadPdf(st: GeneratorState, name: string, lang: string): (r: DownloadAction)
    ensures st.pdfBytes.Some? ==> r == SavePdf(st.pdfBytes.value, GenerateFilename(name, lang))
    ensures st.pdfBytes.None? && HasChildren(st.preview) ==> r == PrintPreview
    ensures r == ReportNoPdf <==> st.pdfBytes.None? && !HasChildren(st.preview)
  {
    match st.pdfBytes
    case Some(b) => SavePdf(b, GenerateFilename(name, lang))
    case None => if HasChildren(st.preview) then PrintPreview else ReportNoPdf
  }

  /** After a successful generation the download button always has something to offer. */
  lemma DownloadAfterGenerate(st: GeneratorState, data: Resume, loaded: bool, svg: Typst.CompileMethods<char>, pdf: Typst.CompileMethods<Typst.Byte>, name: string, lang: string)
    requires !st.generating && ValidateResumeData(data)
    ensures DownloadPdf(GenerateResume(st, data, loaded, svg, pdf), name, lang) != ReportNoPdf
    ensures Typst.CompileTo(loaded, pdf).output.Some? ==> DownloadPdf(GenerateResume(st, data, loaded, svg, pdf), name, lang).SavePdf?
  {
  }

  /** Without a loaded compiler a valid record still gets a preview: the HTML fallback, and no PDF to save. */
  lemma NoCompilerShowsHtml(st: GeneratorState, data: Resume, svg: Typst.CompileMethods<char>, pdf: Typst.CompileMethods<Typst.Byte>, name: string, lang: string)
    requires !st.generating && ValidateResumeData(data)
    ensures GenerateResume(st, data, false, svg, pdf).preview == HtmlPreview
    ensures GenerateResume(st, data, false, svg, pdf).pdfBytes.None?
    ensures DownloadPdf(GenerateResume(st, data, false, svg, pdf), name, lang) == PrintPreview
  {
  }
}

=== FILE: html_input.dfy ===
/**
 * What a form control gives back from `value` after a script has written a string to it.
 * The item templates use four kinds of control. `<input type="text">` strips line breaks,
 * `<input type="url">` also strips ASCII whitespace at both ends, `<input type="month">`
 * keeps only a valid month string, and `<textarea>` normalises line breaks to LF. This is
 * the value sanitisation of section 4.10.5 and the API value of section 4.10.11 of the
 * HTML Living Standard.
 */
module HtmlInput {
  import opened JsString

  /** The kinds of control the item templates are built from. */
  datatype Control = TextInput | UrlInput | MonthInput | TextArea

  predicate IsLineBreak(c: char) {
    c == '\n' || c == '\r'
  }

  /** The characters of `v` that are not line breaks, in order. */
  function DropLineBreaks(v: string): (r: string)
    ensures |r| <= |v|
  {
    if |v| == 0 then ""
    else (if IsLineBreak(v[0]) then "" else [v[0]]) + DropLineBreaks(v[1..])
  }

  lemma {:induction false} DropLineBreaksMembers(v: string)
    ensures forall c :: c in DropLineBreaks(v) <==> c in v && !IsLineBreak(c)
  {
    if |v| > 0 {
      DropLineBreaksMembers(v[1..]);
      assert forall c :: c in v <==> c == v[0] || c in v[1..];
    }
  }

  /** "Strip newlines": every LF and CR is removed, everything else kept in order. */
  function StripNewlines(v: string): (r: string)
    ensures |r| <= |v|
    ensures forall c :: c in r <==> c in v && !IsLineBreak(c)
  {
    DropLineBreaksMembers(v);
    DropLineBreaks(v)
  }

  /** A string without line breaks passes unchanged. */
  lemma {:induction false} StripNewlinesKeeps(v: string)
    requires '\n' !in v && '\r' !in v
    ensures StripNewlines(v) == v
  {
    DropLineBreaksKeeps(v);
  }

  lemma {:induction false} DropLineBreaksKeeps(v: string)
    requires '\n' !in v && '\r' !in v
    ensures DropLineBreaks(v) == v
  {
    if |v| > 0 {
      DropLineBreaksKeeps(v[1..]);
      assert [v[0]] + v[1..] == v;
    }
  }

  /** A single character is kept exactly when it is not a line break. */
  lemma StripNewlinesSingle(c: char)
    ensures StripNewlines([c]) == if IsLineBreak(c) then "" else [c]
  {
    assert [c][1..] == "";
  }

  /** Stripping works character by character: it distributes over concatenation, keeping order and repeats. */
  lemma StripNewlinesAppend(a: string, b: string)
    ensures StripNewlines(a + b) == StripNewlines(a) + StripNewlines(b)
  {
    DropLineBreaksAppend(a, b);
  }

  lemma DropLineBreaksAppend(a: string, b: string)
    ensures DropLineBreaks(a + b) == DropLineBreaks(a) + DropLineBreaks(b)
  {
    DropLineBreaksIsFlatMap(a + b);
    DropLineBreaksIsFlatMap(a);
    DropLineBreaksIsFlatMap(b);
    FlatMapAppend(KeptIfNotLineBreak, a, b);
  }

  /** What one character contributes to the stripped value. */
  function KeptIfNotLineBreak(c: char): string {
    if IsLineBreak(c) then "" else [c]
  }

  lemma {:induction false} DropLineBreaksIsFlatMap(v: string)
    ensures DropLineBreaks(v) == FlatMap(KeptIfNotLineBreak, v)
  {
    if |v| > 0 {
      DropLineBreaksIsFlatMap(v[1..]);
    }
  }

  /** TAB, LF, FF, CR and SPACE. */
  predicate IsAsciiWhitespace(c: char) {
    c == '\t' || c == '\n' || c == '\U{C}' || c == '\r' || c == ' '
  }

  /** The number of ASCII whitespace characters `v` starts with. */
  function LeadingAscii(v: string): (k: nat)
    ensures k <= |v|
    ensures k == |v| || !IsAsciiWhitespace(v[k])
  {
    if |v| > 0 && IsAsciiWhitespace(v[0]) then LeadingAscii(v[1..]) + 1 else 0
  }

  /** The length of `v` without its trailing ASCII whitespace. */
  function TrailingAsciiEnd(v: string): (k: nat)
    ensures k <= |v|
    ensures k == 0 || !IsAsciiWhitespace(v[k - 1])
  {
    if |v| > 0 && IsAsciiWhitespace(v[|v| - 1]) then TrailingAsciiEnd(v[..|v| - 1]) else |v|
  }

  predicate AllAsciiWhitespace(s: string) {
    forall i :: 0 <= i < |s| ==> IsAsciiWhitespace(s[i])
  }

  /** Where the non-whitespace stretch of `v` starts and ends: only ASCII whitespace lies outside it. */
  function Stretch(v: string): (p: (nat, nat))
    ensures p.0 <= p.1 <= |v|
    ensures p.0 == |v| || !IsAsciiWhitespace(v[p.0])
    ensures p.1 == p.0 || !IsAsciiWhitespace(v[p.1 - 1])
    ensures forall n :: 0 <= n < p.0 ==> IsAsciiWhitespace(v[n])
    ensures forall n :: p.1 <= n < |v| ==> IsAsciiWhitespace(v[n])
  {
    var i := LeadingAscii(v);
    var k := TrailingAsciiEnd(v[i..]);
    LeadingAsciiAll(v);
    TrailingAfter(v, i);
    (i, i + k)
  }

  /** "Strip leading and trailing ASCII whitespace": the stretch of `v` between its whitespace ends. */
  function StripAsciiWhitespace(v: string): (r: string)
    ensures r == [] || (!IsAsciiWhitespace(r[0]) && !IsAsciiWhitespace(r[|r| - 1]))
    ensures (v == [] || (!IsAsciiWhitespace(v[0]) && !IsAsciiWhitespace(v[|v| - 1]))) ==> r == v
    ensures forall c :: c in r ==> c in v
    ensures exists i, j :: 0 <= i <= j <= |v| && r == v[i..j] && AllAsciiWhitespace(v[..i]) && AllAsciiWhitespace(v[j..])
  {
    var (i, j) := Stretch(v);
    StretchFacts(v, i, j);
    assert AllAsciiWhitespace(v[..i]) && AllAsciiWhitespace(v[j..]);
    v[i..j]
  }

  /**
   * What makes `v[i..j]` the stretch between the whitespace ends: only whitespace outside it,
   * and no whitespace at its first or last character.
   */
  lemma StretchFacts(v: string, i: nat, j: nat)
    requires i <= j <= |v|
    requires i == |v| || !IsAsciiWhitespace(v[i])
    requires j == i || !IsAsciiWhitespace(v[j - 1])
    requires forall n :: 0 <= n < i ==> IsAsciiWhitespace(v[n])
    requires forall n :: j <= n < |v| ==> IsAsciiWhitespace(v[n])
    ensures v[i..j] == [] || (!IsAsciiWhitespace(v[i..j][0]) && !IsAsciiWhitespace(v[i..j][j - i - 1]))
    ensures (v == [] || (!IsAsciiWhitespace(v[0]) && !IsAsciiWhitespace(v[|v| - 1]))) ==> v[i..j] == v
    ensures forall c :: c in v[i..j] ==> c in v
  {
    if i < j {
      assert v[i..j][0] == v[i];
      assert v[i..j][j - i - 1] == v[j - 1];
    }
    if v != [] && !IsAsciiWhitespace(v[0]) && !IsAsciiWhitespace(v[|v| - 1]) {
      assert v[0..|v|] == v;
    }
    forall c | c in v[i..j] ensures c in v {
      var n :| 0 <= n < j - i && v[i..j][n] == c;
      assert v[i + n] == c;
    }
  }

  lemma {:induction false} LeadingAsciiAll(v: string)
    ensures forall n :: 0 <= n < LeadingAscii(v) ==> IsAsciiWhitespace(v[n])
  {
    if |v| > 0 && IsAsciiWhitespace(v[0]) {
      LeadingAsciiAll(v[1..]);
      forall n | 1 <= n < LeadingAscii(v) ensures IsAsciiWhitespace(v[n]) {
        assert v[n] == v[1..][n - 1];
      }
    }
  }

  lemma {:induction false} TrailingAsciiAll(v: string)
    ensures forall n :: TrailingAsciiEnd(v) <= n < |v| ==> IsAsciiWhitespace(v[n])
  {
    if |v| > 0 && IsAsciiWhitespace(v[|v| - 1]) {
      var w := v[..|v| - 1];
      TrailingAsciiAll(w);
      forall n | TrailingAsciiEnd(w) <= n < |v| - 1 ensures IsAsciiWhitespace(v[n]) {
        assert v[n] == w[n];
      }
    }
  }

  /** The trailing-whitespace end of `v[i..]`, read as positions of `v`. */
  lemma TrailingAfter(v: string, i: nat)
    requires i <= |v|
    ensures var k := TrailingAsciiEnd(v[i..]);
            && i + k <= |v|
            && (forall n :: i + k <= n < |v| ==> IsAsciiWhitespace(v[n]))
            && (k > 0 ==> !IsAsciiWhitespace(v[i + k - 1]))
  {
    var a := v[i..];
    var k := TrailingAsciiEnd(a);
    TrailingAsciiAll(a);
    forall n | i + k <= n < |v| ensures IsAsciiWhitespace(v[n]) {
      assert v[n] == a[n - i];
    }
    if k > 0 {
      assert v[i + k - 1] == a[k - 1];
    }
  }

  predicate IsAsciiDigit(c: char) {
    '0' <= c <= '9'
  }

  predicate AllDigits(s: string) {
    forall i :: 0 <= i < |s| ==> IsAsciiDigit(s[i])
  }

  /** A valid month string: four or more digits for a year above 0, `-`, two digits for a month from 1 to 12. */
  predicate IsValidMonth(v: string) {
    && |v| >= 7
    && v[|v| - 3] == '-'
    && AllDigits(v[..|v| - 3])
    && AllDigits(v[|v| - 2..])
    && DecimalValue(v[..|v| - 3]) > 0
    && 1 <= DecimalValue(v[|v| - 2..]) <= 12
  }

  /** A month string holds digits and one `-`, so no line break. */
  lemma MonthHasNoLineBreak(v: string)
    requires IsValidMonth(v)
    ensures '\n' !in v && '\r' !in v
  {
    forall i | 0 <= i < |v| ensures !IsLineBreak(v[i]) {
      if i < |v| - 3 {
        assert IsAsciiDigit(v[..|v| - 3][i]);
      } else if i > |v| - 3 {
        assert IsAsciiDigit(v[|v| - 2..][i - (|v| - 2)]);
      }
    }
  }

  /** The `<textarea>` API value: each CR LF pair, then each remaining CR, becomes one LF. */
  function NormalizeNewlines(v: string): (r: string)
    ensures |r| <= |v|
    ensures '\r' !in r
    ensures '\r' !in v ==> r == v
    decreases |v|
  {
    if |v| == 0 then ""
    else if v[0] == '\r' then "\n" + NormalizeNewlines(if |v| >= 2 && v[1] == '\n' then v[2..] else v[1..])
    else
      var rest := NormalizeNewlines(v[1..]);
      assert '\r' !in v ==> [v[0]] + v[1..] == v;
      [v[0]] + rest
  }

  /** A CR LF pair becomes one LF. */
  lemma NormalizeCrLf(w: string)
    ensures NormalizeNewlines("\r\n" + w) == "\n" + NormalizeNewlines(w)
  {
    assert ("\r\n" + w)[2..] == w;
  }

  /** A CR not followed by LF becomes an LF. */
  lemma NormalizeLoneCr(w: string)
    requires w == "" || w[0] != '\n'
    ensures NormalizeNewlines("\r" + w) == "\n" + NormalizeNewlines(w)
  {
    assert ("\r" + w)[1..] == w;
  }

  /** Every other character passes through. */
  lemma NormalizeOther(c: char, w: string)
    requires c != '\r'
    ensures NormalizeNewlines([c] + w) == [c] + NormalizeNewlines(w)
  {
    assert ([c] + w)[1..] == w;
  }

  /** What reading `value` gives after a script wrote `v` to a control of this kind. */
  function ReadBack(control: Control, v: string): (r: string)
    ensures control != TextArea ==> '\n' !in r && '\r' !in r
    ensures '\r' !in r
    ensures v == "" ==> r == ""
  {
    match control
    case TextInput => StripNewlines(v)
    case UrlInput => StripAsciiWhitespace(StripNewlines(v))
    case MonthInput => if IsValidMonth(v) then (MonthHasNoLineBreak(v); v) else ""
    case TextArea => NormalizeNewlines(v)
  }

  /** A month input gives back either nothing or a valid month string. */
  lemma ReadBackMonth(v: string)
    ensures ReadBack(MonthInput, v) == "" || IsValidMonth(ReadBack(MonthInput, v))
  {
  }

  /** The values a control of this kind gives back exactly as they were written. */
  predicate Keeps(control: Control, v: string) {
    match control
    case TextInput => '\n' !in v && '\r' !in v
    case UrlInput => '\n' !in v && '\r' !in v && (v == [] || (!IsAsciiWhitespace(v[0]) && !IsAsciiWhitespace(v[|v| - 1])))
    case MonthInput => v == "" || IsValidMonth(v)
    case TextArea => '\r' !in v
  }

  /** A written value comes back unchanged exactly when the control keeps it. */
  lemma ReadBackKeeps(control: Control, v: string)
    ensures ReadBack(control, v) == v <==> Keeps(control, v)
  {
    match control
    case TextInput =>
      if Keeps(control, v) {
        StripNewlinesKeeps(v);
      }
    case UrlInput =>
      if Keeps(control, v) {
        StripNewlinesKeeps(v);
      }
    case MonthInput =>
    case TextArea =>
  }

  /** Whatever was written, what comes back is kept: writing it a second time changes nothing. */
  lemma ReadBackIdempotent(control: Control, v: string)
    ensures ReadBack(control, ReadBack(control, v)) == ReadBack(control, v)
  {
    var r := ReadBack(control, v);
    assert Keeps(control, r);
    ReadBackKeeps(control, r);
  }
}

=== FILE: i18n.dfy ===
/**
 * The interface's translation lookup: the current language, the key lookup that falls
 * back to the key itself, the `{name}` parameter substitution (with the replacement
 * patterns of `String.prototype.replace`), the language setter and the list of
 * available languages. Storage is modelled by the value read at start-up and the value
 * written on a change; the DOM refresh and the change event are not modelled.
 */
module I18n {
  import opened Wrappers
  import opened ResumeData
  import opened I18nTables

  // ---------------------------------------------------------------------------
  // Tables and languages
  // ---------------------------------------------------------------------------

  predicate HasKey<V>(t: seq<(string, V)>, key: string) {
    exists i :: 0 <= i < |t| && t[i].0 == key
  }

  /** `obj[key]` on an object literal: the value of the last entry with that key, if any. */
  function Lookup<V>(t: seq<(string, V)>, key: string): (r: Option<V>)
    ensures r.None? <==> !HasKey(t, key)
    ensures r.Some? ==> exists i :: 0 <= i < |t| && t[i] == (key, r.value) && forall j :: i < j < |t| ==> t[j].0 != key
  {
    if |t| == 0 then None
    else if t[|t| - 1].0 == key then Some(t[|t| - 1].1)
    else
      var r := Lookup(t[..|t| - 1], key);
      LookupStep(t, t[..|t| - 1], key, r);
      r
  }

  lemma LookupStep<V>(t: seq<(string, V)>, init: seq<(string, V)>, key: string, r: Option<V>)
    requires |t| > 0 && init == t[..|t| - 1] && t[|t| - 1].0 != key
    requires r.None? <==> !HasKey(init, key)
    requires r.Some? ==> exists i :: 0 <= i < |init| && init[i] == (key, r.value) && forall j :: i < j < |init| ==> init[j].0 != key
    ensures r.None? <==> !HasKey(t, key)
    ensures r.Some? ==> exists i :: 0 <= i < |t| && t[i] == (key, r.value) && forall j :: i < j < |t| ==> t[j].0 != key
  {
    if HasKey(t, key) {
      var i :| 0 <= i < |t| && t[i].0 == key;
      assert init[i] == t[i];
    }
    if r.Some? {
      var i :| 0 <= i < |init| && init[i] == (key, r.value) && forall j :: i < j < |init| ==> init[j].0 != key;
      assert t[i] == init[i];
      forall j | i < j < |t| ensures t[j].0 != key {
        if j < |init| {
          assert t[j] == init[j];
        }
      }
    }
  }

  /** The languages an instance knows, each with its table, in the order they are written. */
  type Translations = seq<(string, Table)>

  /** The program's `translations` object. */
  const ProgramTranslations: Translations := [(ZhCN, ZhTable), (EnUS, EnTable)]

  /** The keys of `translations`, in order: `Object.keys(this.translations)`. */
  function Languages(translations: Translations): (r: seq<string>)
    ensures |r| == |translations|
    ensures forall i :: 0 <= i < |r| ==> r[i] == translations[i].0
  {
    if |translations| == 0 then [] else [translations[0].0] + Languages(translations[1..])
  }

  /** Tables that list the same keys in the same order know the same keys. */
  lemma AlignedSameKeys(a: Table, b: Table, key: string)
    requires Aligned(a, b)
    ensures HasKey(a, key) <==> HasKey(b, key)
  {
    if HasKey(a, key) {
      var i :| 0 <= i < |a| && a[i].0 == key;
      assert b[i].0 == key;
    }
    if HasKey(b, key) {
      var i :| 0 <= i < |b| && b[i].0 == key;
      assert a[i].0 == key;
    }
  }

  /** A key has a text in one of the program's languages exactly when it has one in the other. */
  lemma TablesHaveSameKeys(a: string, b: string, key: string)
    requires HasKey(ProgramTranslations, a) && HasKey(ProgramTranslations, b)
    ensures HasKey(Lookup(ProgramTranslations, a).value, key) <==> HasKey(Lookup(ProgramTranslations, b).value, key)
  {
    TablesAligned();
    AlignedSameKeys(ZhTable, EnTable, key);
  }

  // ---------------------------------------------------------------------------
  // Current language
  // ---------------------------------------------------------------------------

  /** An instance: its current language and its `translations` object. */
  datatype I18nState = I18nState(currentLang: string, translations: Translations)

  predicate Known(st: I18nState, lang: string) {
    HasKey(st.translations, lang)
  }

  /**
   * The constructor: the language saved in storage, or `zh-CN` when nothing (or the empty
   * string) is saved. The saved value is not checked against the tables.
   */
  function Load(saved: Option<string>): (r: I18nState)
    ensures r.translations == ProgramTranslations
    ensures saved.Some? && saved.value != "" ==> r.currentLang == saved.value
    ensures saved.None? || saved.value == "" ==> r.currentLang == ZhCN
    ensures Known(r, r.currentLang) <==> saved.None? || saved.value in {"", ZhCN, EnUS}
  {
    ProgramLanguagesKnown();
    I18nState(if saved.Some? && saved.value != "" then saved.value else ZhCN, ProgramTranslations)
  }

  /** The program ships a table for `zh-CN` and one for `en-US`, and for nothing else. */
  lemma ProgramLanguagesKnown()
    ensures forall lang :: HasKey(ProgramTranslations, lang) <==> lang == ZhCN || lang == EnUS
  {
    var t := ProgramTranslations;
    assert |t| == 2 && t[0].0 == ZhCN && t[1].0 == EnUS;
    forall lang ensures HasKey(t, lang) <==> lang == ZhCN || lang == EnUS {
      if lang == ZhCN {
        assert t[0].0 == lang;
      } else if lang == EnUS {
        assert t[1].0 == lang;
      }
    }
  }

  /** `getAvailableLanguages`: the languages the tables are written for, `zh-CN` then `en-US`. */
  function AvailableLanguages(st: I18nState): (r: seq<string>)
    ensures forall lang :: lang in r <==> Known(st, lang)
  {
    Languages(st.translations)
  }

  /** A freshly loaded instance offers exactly `zh-CN` and `en-US`. */
  lemma LoadedLanguages(saved: Option<string>)
    ensures AvailableLanguages(Load(saved)) == [ZhCN, EnUS]
  {
  }

  /** `setLanguage`: the new state, and the value written to storage under `language` if any. */
  function SetLanguage(st: I18nState, lang: string): (r: (I18nState, Option<string>))
    ensures Known(st, lang) ==> r.0 == st.(currentLang := lang) && r.1 == Some(lang)
    ensures !Known(st, lang) ==> r.0 == st && r.1.None?
  {
    if Known(st, lang) then (st.(currentLang := lang), Some(lang)) else (st, None)
  }

  /** Only `setLanguage` keeps the current language one the tables know; it never leaves it. */
  lemma SetLanguageKeepsKnown(st: I18nState, lang: string)
    requires Known(st, st.currentLang)
    ensures var next := SetLanguage(st, lang).0;
            Known(next, next.currentLang)
  {
  }

  /** A language set by `setLanguage` is the one the next start-up loads. */
  lemma SetLanguageThenLoad(st: I18nState, lang: string)
    requires st.translations == ProgramTranslations && Known(st, lang)
    ensures var (next, saved) := SetLanguage(st, lang);
            Load(saved) == next
  {
    assert lang != "";
  }

  /** A start-up with nothing saved begins in a language the tables know. */
  lemma LoadDefaultKnown()
    ensures Known(Load(None), Load(None).currentLang)
  {
    assert ProgramTranslations[0].0 == ZhCN;
  }

  // ---------------------------------------------------------------------------
  // Parameter substitution
  // ---------------------------------------------------------------------------

  predicate OccursAt(s: string, pat: string, p: nat) {
    p + |pat| <= |s| && s[p..p + |pat|] == pat
  }

  /** `s.indexOf(pat)`: the first position at which `pat` occurs. */
  function FirstOccurrence(s: string, pat: string): (r: Option<nat>)
    ensures r.Some? ==> OccursAt(s, pat, r.value) && forall q :: 0 <= q < r.value ==> !OccursAt(s, pat, q)
    ensures r.None? ==> forall q: nat :: !OccursAt(s, pat, q)
  {
    OccurrenceFrom(s, pat, 0)
  }

  function OccurrenceFrom(s: string, pat: string, from: nat): (r: Option<nat>)
    requires from <= |s| + 1
    ensures r.Some? ==> from <= r.value && OccursAt(s, pat, r.value) && forall q :: from <= q < r.value ==> !OccursAt(s, pat, q)
    ensures r.None? ==> forall q: nat :: from <= q ==> !OccursAt(s, pat, q)
    decreases |s| + 1 - from
  {
    if from + |pat| > |s| then None
    else if s[from..from + |pat|] == pat then Some(from)
    else OccurrenceFrom(s, pat, from + 1)
  }

  /**
   * The replacement text `String.prototype.replace` builds from `template` for a match of
   * `matched` at `position` in `str`, with no capture groups: `$$` is `$`, `$&` the match,
   * `` $` `` the text before it, `$'` the text after it; any other `$` stands for itself.
   */
  function Substitution(matched: string, str: string, position: nat, template: string): string
    requires position + |matched| <= |str|
    decreases |template|
  {
    if |template| == 0 then ""
    else if template[0] == '$' && |template| >= 2 && template[1] == '$' then
      "$" + Substitution(matched, str, position, template[2..])
    else if template[0] == '$' && |template| >= 2 && template[1] == '&' then
      matched + Substitution(matched, str, position, template[2..])
    else if template[0] == '$' && |template| >= 2 && template[1] == '`' then
      str[..position] + Substitution(matched, str, position, template[2..])
    else if template[0] == '$' && |template| >= 2 && template[1] == '\'' then
      str[position + |matched|..] + Substitution(matched, str, position, template[2..])
    else
      [template[0]] + Substitution(matched, str, position, template[1..])
  }

  /** A replacement without `$` is inserted as it is. */
  lemma {:induction false} PlainSubstitution(matched: string, str: string, position: nat, template: string)
    requires position + |matched| <= |str|
    requires '$' !in template
    ensures Substitution(matched, str, position, template) == template
    decreases |template|
  {
    if |template| > 0 {
      PlainSubstitution(matched, str, position, template[1..]);
      assert [template[0]] + template[1..] == template;
    }
  }

  /** `$$` in a replacement stands for a single `$`. */
  lemma EscapedDollar(matched: string, str: string, position: nat)
    requires position + |matched| <= |str|
    ensures Substitution(matched, str, position, "$$") == "$"
  {
    assert "$$"[2..] == "";
  }

  /** `s.replace(pat, replacement)` with a string pattern: only the first occurrence is replaced. */
  function ReplaceFirst(s: string, pat: string, replacement: string): (r: string)
    ensures (forall q: nat :: !OccursAt(s, pat, q)) ==> r == s
    ensures FirstOccurrence(s, pat).Some? ==>
              var p := FirstOccurrence(s, pat).value;
              var after := s[p + |pat|..];
              && p + |after| <= |r|
              && r[..p] == s[..p]
              && r[|r| - |after|..] == after
  {
    match FirstOccurrence(s, pat)
    case None => s
    case Some(p) => s[..p] + Substitution(pat, s, p, replacement) + s[p + |pat|..]
  }

  /** Without an occurrence nothing changes. */
  lemma ReplaceAbsent(s: string, pat: string, replacement: string)
    requires forall q: nat :: !OccursAt(s, pat, q)
    ensures ReplaceFirst(s, pat, replacement) == s
  {
  }

  /** The first occurrence gives way to a `$`-free replacement; the text around it stays. */
  lemma ReplacePlain(s: string, pat: string, replacement: string, p: nat)
    requires OccursAt(s, pat, p) && forall q :: 0 <= q < p ==> !OccursAt(s, pat, q)
    requires '$' !in replacement
    ensures ReplaceFirst(s, pat, replacement) == s[..p] + replacement + s[p + |pat|..]
  {
    assert FirstOccurrence(s, pat) == Some(p);
    PlainSubstitution(pat, s, p, replacement);
  }

  /** An occurrence after the first one survives the replacement, shifted by the change in length. */
  lemma ReplaceOnlyFirst(s: string, pat: string, replacement: string, p: nat, q: nat)
    requires OccursAt(s, pat, p) && forall k :: 0 <= k < p ==> !OccursAt(s, pat, k)
    requires '$' !in replacement
    requires OccursAt(s, pat, q) && q >= p + |pat|
    ensures OccursAt(ReplaceFirst(s, pat, replacement), pat, q - |pat| + |replacement|)
  {
    ReplacePlain(s, pat, replacement, p);
    var r := ReplaceFirst(s, pat, replacement);
    var shift := q - |pat| + |replacement|;
    var prefix := s[..p] + replacement;
    assert r == prefix + s[p + |pat|..];
    assert r[shift..shift + |pat|] == s[p + |pat|..][q - p - |pat|..q - p];
    assert s[p + |pat|..][q - p - |pat|..q - p] == s[q..q + |pat|];
  }

  /** `{name}`, the placeholder a parameter fills. */
  function Placeholder(name: string): string {
    "{" + name + "}"
  }

  /** Each parameter in turn, in key order, replaces the first remaining occurrence of its placeholder. */
  function SubstituteParams(text: string, params: seq<(string, string)>): (r: string)
    ensures (forall i :: 0 <= i < |params| ==> forall q: nat :: !OccursAt(text, Placeholder(params[i].0), q)) ==> r == text
    decreases |params|
  {
    if |params| == 0 then text
    else SubstituteParams(ReplaceFirst(text, Placeholder(params[0].0), params[0].1), params[1..])
  }

  // ---------------------------------------------------------------------------
  // Translation
  // ---------------------------------------------------------------------------

  /** The current language's table; the current language must be one the instance knows. */
  function CurrentTable(st: I18nState): Table
    requires Known(st, st.currentLang)
  {
    Lookup(st.translations, st.currentLang).value
  }

  /**
   * `t(key, params)`: the current language's text for `key`, or the key itself when the
   * table has no text for it (or an empty one), with the parameters filled in. The
   * current language must be one the tables know; only `setLanguage` guarantees that.
   */
  function Translate(st: I18nState, key: string, params: seq<(string, string)>): (r: string)
    requires Known(st, st.currentLang)
    ensures HasKey(CurrentTable(st), key) && Lookup(CurrentTable(st), key).value != "" ==>
              r == SubstituteParams(Lookup(CurrentTable(st), key).value, params)
    ensures !HasKey(CurrentTable(st), key) || Lookup(CurrentTable(st), key) == Some("") ==>
              r == SubstituteParams(key, params)
  {
    var found := Lookup(CurrentTable(st), key);
    var text := if found.Some? && found.value != "" then found.value else key;
    SubstituteParams(text, params)
  }

  /** Without parameters a key translates to the last text written for it, when that text is not empty. */
  lemma TranslateFound(st: I18nState, key: string, text: string)
    requires Known(st, st.currentLang)
    requires text != ""
    requires exists i :: 0 <= i < |CurrentTable(st)| && CurrentTable(st)[i] == (key, text)
                         && forall j :: i < j < |CurrentTable(st)| ==> CurrentTable(st)[j].0 != key
    ensures Translate(st, key, []) == text
  {
    var t := CurrentTable(st);
    var i :| 0 <= i < |t| && t[i] == (key, text) && forall j :: i < j < |t| ==> t[j].0 != key;
    var found := Lookup(t, key);
    var k :| 0 <= k < |t| && t[k] == (key, found.value) && forall j :: k < j < |t| ==> t[j].0 != key;
    assert k == i;
  }

  /** A key the current table lacks, or gives an empty text, translates to itself. */
  lemma TranslateFallsBack(st: I18nState, key: string)
    requires Known(st, st.currentLang)
    requires !HasKey(CurrentTable(st), key) || Lookup(CurrentTable(st), key) == Some("")
    ensures Translate(st, key, []) == key
  {
  }

  /** One parameter fills the first occurrence of its placeholder in the looked-up text. */
  lemma TranslateOneParam(st: I18nState, key: string, name: string, value: string, text: string, p: nat)
    requires Known(st, st.currentLang)
    requires Lookup(CurrentTable(st), key) == Some(text) && text != ""
    requires OccursAt(text, Placeholder(name), p) && forall q :: 0 <= q < p ==> !OccursAt(text, Placeholder(name), q)
    requires '$' !in value
    ensures Translate(st, key, [(name, value)]) == text[..p] + value + text[p + |Placeholder(name)|..]
  {
    ReplacePlain(text, Placeholder(name), value, p);
    SubstituteOne(text, name, value);
  }

  lemma SubstituteOne(text: string, name: string, value: string)
    ensures SubstituteParams(text, [(name, value)]) == ReplaceFirst(text, Placeholder(name), value)
  {
    var params := [(name, value)];
    assert params[1..] == [];
    assert SubstituteParams(ReplaceFirst(text, Placeholder(name), value), []) == ReplaceFirst(text, Placeholder(name), value);
  }

  /** Switching between the program's languages never turns a translated key into a missing one. */
  lemma SwitchKeepsKeys(st: I18nState, lang: string, key: string)
    requires st.translations == ProgramTranslations && Known(st, st.currentLang)
    ensures var next := SetLanguage(st, lang).0;
            HasKey(CurrentTable(st), key) <==> HasKey(CurrentTable(next), key)
  {
    TablesHaveSameKeys(st.currentLang, SetLanguage(st, lang).0.currentLang, key);
  }
}

=== FILE: i18n_tables.dfy ===
/**
 * The two translation tables of the interface, one `(key, text)` pair per entry in the
 * order the entries are written, grouped as the tables group them: Simplified Chinese
 * and US English. Each pair of groups is shown to list the same keys in the same order.
 */
module I18nTables {
  type Table = seq<(string, string)>

  /** Two tables list the same keys in the same order. */
  predicate Aligned(a: Table, b: Table) {
    |a| == |b| && forall i :: 0 <= i < |a| ==> a[i].0 == b[i].0
  }

  /** The `zh-CN` table. */
  const ZhTable: Table := Concat(ZhGroups)

  const ZhGroups: seq<Table> := [ZhApp, ZhLanguageDialog, ZhAssistant, ZhPersonal, ZhEducation, ZhWork, ZhProjects, ZhResearch, ZhSkills, ZhActions, ZhPreview, ZhStatus, ZhDates, ZhCommon]

  /** The `en-US` table. */
  const EnTable: Table := Concat(EnGroups)

  const EnGroups: seq<Table> := [EnApp, EnLanguageDialog, EnAssistant, EnPersonal, EnEducation, EnWork, EnProjects, EnResearch, EnSkills, EnActions, EnPreview, EnStatus, EnDates, EnCommon]

  /** The tables of `groups`, one after another. */
  function Concat(groups: seq<Table>): Table {
    if |groups| == 0 then [] else groups[0] + Concat(groups[1..])
  }

  /** Joining groups that are aligned pairwise gives aligned tables. */
  lemma {:induction false} AlignedConcat(zs: seq<Table>, es: seq<Table>)
    requires |zs| == |es| && forall i :: 0 <= i < |zs| ==> Aligned(zs[i], es[i])
    ensures Aligned(Concat(zs), Concat(es))
  {
    if |zs| > 0 {
      AlignedConcat(zs[1..], es[1..]);
      var a, b, c, d := zs[0], es[0], Concat(zs[1..]), Concat(es[1..]);
      assert forall i :: 0 <= i < |a + c| ==> (a + c)[i] == if i < |a| then a[i] else c[i - |a|];
      assert forall i :: 0 <= i < |b + d| ==> (b + d)[i] == if i < |b| then b[i] else d[i - |b|];
    }
  }

  /** The two tables list the same keys in the same order. */
  lemma TablesAligned()
    ensures Aligned(ZhTable, EnTable)
  {
    AppAligned();
    LanguageDialogAligned();
    AssistantAligned();
    PersonalAligned();
    EducationAligned();
    WorkAligned();
    ProjectsAligned();
    ResearchAligned();
    SkillsAligned();
    ActionsAligned();
    PreviewAligned();
    StatusAligned();
    DatesAligned();
    CommonAligned();
    AlignedConcat(ZhGroups, EnGroups);
  }

  // App title and navigation

  const ZhApp: Table := [
    ("app.title", "简历生成器"),
    ("nav.language", "切换语言"),
    ("nav.theme", "切换主题"),
    ("nav.help", "帮助")
  ]

  const EnApp: Table := [
    ("app.title", "Resume Generator"),
    ("nav.language", "Switch Language"),
    ("nav.theme", "Switch Theme"),
    ("nav.help", "Help")
  ]

  lemma AppAligned()
    ensures Aligned(ZhApp, EnApp)
  {
  }

  // Language dialog

  const ZhLanguageDialog: Table := [
    ("dialog.language.title", "选择语言"),
    ("dialog.language.chinese", "简体中文"),
    ("dialog.language.english", "English")
  ]

  const EnLanguageDialog: Table := [
    ("dialog.language.title", "Select Language"),
    ("dialog.language.chinese", "简体中文"),
    ("dialog.language.english", "English")
  ]

  lemma LanguageDialogAligned()
    ensures Aligned(ZhLanguageDialog, EnLanguageDialog)
  {
  }

  // AI assistant

  const ZhAssistant: Table := [
    ("ai.title", "AI 助手"),
    ("ai.apikey", "Gemini API Key"),
    ("ai.apikey.placeholder", "输入您的 Gemini API Key"),
    ("ai.generate.sample", "生成示例数据"),
    ("ai.enhance.all", "润色所有内容"),
    ("ai.enhance.item", "润色此项")
  ]

  const EnAssistant: Table := [
    ("ai.title", "AI Assistant"),
    ("ai.apikey", "Gemini API Key"),
    ("ai.apikey.placeholder", "Enter your Gemini API Key"),
    ("ai.generate.sample", "Generate Sample Data"),
    ("ai.enhance.all", "Enhance All Content"),
    ("ai.enhance.item", "Enhance This Item")
  ]

  lemma AssistantAligned()
    ensures Aligned(ZhAssistant, EnAssistant)
  {
  }

  // Personal information

  const ZhPersonal: Table := [
    ("personal.title", "个人信息"),
    ("personal.name", "姓名"),
    ("personal.name.required", "姓名 *"),
    ("personal.pronouns", "代词"),
    ("personal.pronouns.placeholder", "他/她/他们"),
    ("personal.location", "位置"),
    ("personal.location.placeholder", "城市, 国家"),
    ("personal.email", "邮箱"),
    ("personal.phone", "电话"),
    ("personal.github", "GitHub"),
    ("personal.github.placeholder", "github.com/username"),
    ("personal.linkedin", "LinkedIn"),
    ("personal.linkedin.placeholder", "linkedin.com/in/username"),
    ("personal.website", "个人网站"),
    ("personal.orcid", "ORCID"),
    ("personal.orcid.placeholder", "0000-0000-0000-0000")
  ]

  const EnPersonal: Table := [
    ("personal.title", "Personal Information"),
    ("personal.name", "Name"),
    ("personal.name.required", "Name *"),
    ("personal.pronouns", "Pronouns"),
    ("personal.pronouns.placeholder", "he/she/they"),
    ("personal.location", "Location"),
    ("personal.location.placeholder", "City, Country"),
    ("personal.email", "Email"),
    ("personal.phone", "Phone"),
    ("personal.github", "GitHub"),
    ("personal.github.placeholder", "github.com/username"),
    ("personal.linkedin", "LinkedIn"),
    ("personal.linkedin.placeholder", "linkedin.com/in/username"),
    ("personal.website", "Website"),
    ("personal.orcid", "ORCID"),
    ("personal.orcid.placeholder", "0000-0000-0000-0000")
  ]

  lemma PersonalAligned()
    ensures Aligned(ZhPersonal, EnPersonal)
  {
  }

  // Education

  const ZhEducation: Table := [
    ("education.title", "教育背景"),
    ("education.institution", "学校/机构"),
    ("education.institution.placeholder", "大学名称"),
    ("education.degree", "学位/专业"),
    ("education.degree.placeholder", "学士/硕士/博士 专业名称"),
    ("education.location", "位置"),
    ("education.location.placeholder", "城市, 国家"),
    ("education.start.date", "开始日期"),
    ("education.end.date", "结束日期"),
    ("education.gpa", "GPA"),
    ("education.gpa.placeholder", "3.8/4.0"),
    ("education.description", "描述"),
    ("education.description.placeholder", "相关课程、荣誉、活动等")
  ]

  const EnEducation: Table := [
    ("education.title", "Education"),
    ("education.institution", "Institution"),
    ("education.institution.placeholder", "University Name"),
    ("education.degree", "Degree/Major"),
    ("education.degree.placeholder", "Bachelor's/Master's/PhD in Major"),
    ("education.location", "Location"),
    ("education.location.placeholder", "City, Country"),
    ("education.start.date", "Start Date"),
    ("education.end.date", "End Date"),
    ("education.gpa", "GPA"),
    ("education.gpa.placeholder", "3.8/4.0"),
    ("education.description", "Description"),
    ("education.description.placeholder", "Relevant coursework, honors, activities, etc.")
  ]

  lemma EducationAligned()
    ensures Aligned(ZhEducation, EnEducation)
  {
  }

  // Work experience

  const ZhWork: Table := [
    ("work.title", "工作经历"),
    ("work.company", "公司"),
    ("work.company.placeholder", "公司名称"),
    ("work.position", "职位"),
    ("work.position.placeholder", "职位名称"),
    ("work.location", "位置"),
    ("work.location.placeholder", "城市, 国家"),
    ("work.start.date", "开始日期"),
    ("work.end.date", "结束日期"),
    ("work.description", "工作描述"),
    ("work.description.placeholder", "详细描述您的工作职责和成就")
  ]

  const EnWork: Table := [
    ("work.title", "Work Experience"),
    ("work.company", "Company"),
    ("work.company.placeholder", "Company Name"),
    ("work.position", "Position"),
    ("work.position.placeholder", "Job Title"),
    ("work.location", "Location"),
    ("work.location.placeholder", "City, Country"),
    ("work.start.date", "Start Date"),
    ("work.end.date", "End Date"),
    ("work.description", "Job Description"),
    ("work.description.placeholder", "Describe your responsibilities and achievements")
  ]

  lemma WorkAligned()
    ensures Aligned(ZhWork, EnWork)
  {
  }

  // Projects

  const ZhProjects: Table := [
    ("projects.title", "项目经历"),
    ("projects.name", "项目名称"),
    ("projects.name.placeholder", "项目名称"),
    ("projects.role", "角色"),
    ("projects.role.placeholder", "您在项目中的角色"),
    ("projects.url", "项目链接"),
    ("projects.url.placeholder", "github.com/username/project"),
    ("projects.start.date", "开始日期"),
    ("projects.end.date", "结束日期"),
    ("projects.description", "项目描述"),
    ("projects.description.placeholder", "项目详情、使用的技术、您的贡献等")
  ]

  const EnProjects: Table := [
    ("projects.title", "Projects"),
    ("projects.name", "Project Name"),
    ("projects.name.placeholder", "Project Name"),
    ("projects.role", "Role"),
    ("projects.role.placeholder", "Your role in the project"),
    ("projects.url", "Project URL"),
    ("projects.url.placeholder", "github.com/username/project"),
    ("projects.start.date", "Start Date"),
    ("projects.end.date", "End Date"),
    ("projects.description", "Project Description"),
    ("projects.description.placeholder", "Project details, technologies used, your contributions, etc.")
  ]

  lemma ProjectsAligned()
    ensures Aligned(ZhProjects, EnProjects)
  {
  }

  // Research and publications

  const ZhResearch: Table := [
    ("research.title", "科研经历"),
    ("research.title.alt", "发表论文"),
    ("research.paper.title", "论文标题"),
    ("research.paper.title.placeholder", "论文或研究项目标题"),
    ("research.journal", "期刊/会议"),
    ("research.journal.placeholder", "发表期刊或会议名称"),
    ("research.authors", "作者"),
    ("research.authors.placeholder", "作者列表，用逗号分隔"),
    ("research.date", "发表日期"),
    ("research.doi", "DOI/链接"),
    ("research.doi.placeholder", "DOI或论文链接"),
    ("research.description", "研究描述"),
    ("research.description.placeholder", "研究内容、方法、贡献等")
  ]

  const EnResearch: Table := [
    ("research.title", "Research & Publications"),
    ("research.title.alt", "Publications"),
    ("research.paper.title", "Paper Title"),
    ("research.paper.title.placeholder", "Paper or research project title"),
    ("research.journal", "Journal/Conference"),
    ("research.journal.placeholder", "Published journal or conference name"),
    ("research.authors", "Authors"),
    ("research.authors.placeholder", "Author list, separated by commas"),
    ("research.date", "Publication Date"),
    ("research.doi", "DOI/Link"),
    ("research.doi.placeholder", "DOI or paper link"),
    ("research.description", "Research Description"),
    ("research.description.placeholder", "Research content, methods, contributions, etc.")
  ]

  lemma ResearchAligned()
    ensures Aligned(ZhResearch, EnResearch)
  {
  }

  // Skills

  const ZhSkills: Table := [
    ("skills.title", "技能特长"),
    ("skills.list", "技能列表"),
    ("skills.placeholder", "请用逗号分隔各项技能，或每行一个技能")
  ]

  const EnSkills: Table := [
    ("skills.title", "Skills"),
    ("skills.list", "Skills List"),
    ("skills.placeholder", "Separate skills with commas, or one skill per line")
  ]

  lemma SkillsAligned()
    ensures Aligned(ZhSkills, EnSkills)
  {
  }

  // Actions

  const ZhActions: Table := [
    ("action.add", "添加"),
    ("action.remove", "删除"),
    ("action.edit", "编辑"),
    ("action.enhance", "润色"),
    ("action.generate", "生成简历"),
    ("action.download", "下载 PDF"),
    ("action.close", "关闭")
  ]

  const EnActions: Table := [
    ("action.add", "Add"),
    ("action.remove", "Remove"),
    ("action.edit", "Edit"),
    ("action.enhance", "Enhance"),
    ("action.generate", "Generate Resume"),
    ("action.download", "Download PDF"),
    ("action.close", "Close")
  ]

  lemma ActionsAligned()
    ensures Aligned(ZhActions, EnActions)
  {
  }

  // Preview

  const ZhPreview: Table := [
    ("preview.title", "预览"),
    ("preview.placeholder", "点击\"生成简历\"查看预览")
  ]

  const EnPreview: Table := [
    ("preview.title", "Preview"),
    ("preview.placeholder", "Click \"Generate Resume\" to see preview")
  ]

  lemma PreviewAligned()
    ensures Aligned(ZhPreview, EnPreview)
  {
  }

  // Status messages

  const ZhStatus: Table := [
    ("status.generating", "正在生成简历..."),
    ("status.enhancing", "正在润色内容..."),
    ("status.loading", "加载中..."),
    ("status.success.generated", "简历生成成功！"),
    ("status.success.enhanced", "内容润色完成！"),
    ("status.success.downloaded", "PDF 下载成功！"),
    ("status.error.api", "API 调用失败，请检查您的 API Key"),
    ("status.error.generation", "简历生成失败"),
    ("status.error.network", "网络连接错误"),
    ("status.error.required", "请填写必填字段"),
    ("status.error.validation", "请填写姓名并至少完成一个教育、工作或项目经历部分"),
    ("status.error.typst.init", "Typst 编译器初始化失败"),
    ("status.error.display", "预览显示失败"),
    ("status.error.no.pdf", "没有 PDF 可供下载"),
    ("status.error.download", "PDF 下载失败"),
    ("status.error.sample", "示例数据生成失败"),
    ("status.generating.sample", "正在生成示例数据..."),
    ("status.enhancing.all", "正在润色所有内容..."),
    ("status.success.sample", "示例数据生成成功！"),
    ("status.success.enhanced.all", "所有内容润色完成！"),
    ("status.error.enhance.all", "内容润色失败")
  ]

  const EnStatus: Table := [
    ("status.generating", "Generating resume..."),
    ("status.enhancing", "Enhancing content..."),
    ("status.loading", "Loading..."),
    ("status.success.generated", "Resume generated successfully!"),
    ("status.success.enhanced", "Content enhanced successfully!"),
    ("status.success.downloaded", "PDF downloaded successfully!"),
    ("status.error.api", "API call failed, please check your API Key"),
    ("status.error.generation", "Resume generation failed"),
    ("status.error.network", "Network connection error"),
    ("status.error.required", "Please fill in required fields"),
    ("status.error.validation", "Please fill in your name and complete at least one education, work, or project section"),
    ("status.error.typst.init", "Typst compiler initialization failed"),
    ("status.error.display", "Preview display failed"),
    ("status.error.no.pdf", "No PDF available for download"),
    ("status.error.download", "PDF download failed"),
    ("status.error.sample", "Sample data generation failed"),
    ("status.generating.sample", "Generating sample data..."),
    ("status.enhancing.all", "Enhancing all content..."),
    ("status.success.sample", "Sample data generated successfully!"),
    ("status.success.enhanced.all", "All content enhanced successfully!"),
    ("status.error.enhance.all", "Content enhancement failed")
  ]

  lemma StatusAligned()
    ensures Aligned(ZhStatus, EnStatus)
  {
  }

  // Dates

  const ZhDates: Table := [
    ("date.present", "至今"),
    ("date.format", "YYYY年MM月")
  ]

  const EnDates: Table := [
    ("date.present", "Present"),
    ("date.format", "MM/YYYY")
  ]

  lemma DatesAligned()
    ensures Aligned(ZhDates, EnDates)
  {
  }

  // Common words

  const ZhCommon: Table := [
    ("common.required", "必填"),
    ("common.optional", "可选"),
    ("common.cancel", "取消"),
    ("common.confirm", "确认"),
    ("common.save", "保存"),
    ("common.loading", "加载中..."),
    ("common.error", "错误"),
    ("common.success", "成功"),
    ("common.warning", "警告"),
    ("common.info", "信息")
  ]

  const EnCommon: Table := [
    ("common.required", "Required"),
    ("common.optional", "Optional"),
    ("common.cancel", "Cancel"),
    ("common.confirm", "Confirm"),
    ("common.save", "Save"),
    ("common.loading", "Loading..."),
    ("common.error", "Error"),
    ("common.success", "Success"),
    ("common.warning", "Warning"),
    ("common.info", "Info")
  ]

  lemma CommonAligned()
    ensures Aligned(ZhCommon, EnCommon)
  {
  }
}

=== FILE: jsstring.dfy ===
/**
 * The handful of JavaScript built-ins the resume builder relies on: `String.prototype.trim`,
 * `split` on a one-character separator, `Array.prototype.join` and `flatMap`, the decimal
 * rendering of a non-negative integer inside a template literal, and the UTF-16 length of
 * a string. Strings are sequences of Unicode scalar values.
 */
module JsString {

  /** WhiteSpace and LineTerminator code points as ECMAScript defines them (also the set `\s` matches). */
  predicate IsJsWhitespace(c: char) {
    || c == '\U{9}' || c == '\U{B}' || c == '\U{C}' || c == ' ' || c == '\U{A0}' || c == '\U{FEFF}'
    || c == '\U{1680}' || ('\U{2000}' <= c <= '\U{200A}') || c == '\U{202F}' || c == '\U{205F}' || c == '\U{3000}'
    || c == '\n' || c == '\r' || c == '\U{2028}' || c == '\U{2029}'
  }

  predicate AllWhitespace(s: string) {
    forall i :: 0 <= i < |s| ==> IsJsWhitespace(s[i])
  }

  /** `s.trim() !== ''`, the truthiness test `x && x.trim()` applied to a string. */
  predicate NonBlank(s: string) {
    !AllWhitespace(s)
  }

  /** The number of whitespace characters `s` starts with. */
  function LeadingWhitespace(s: string): (k: nat)
    ensures k <= |s| && AllWhitespace(s[..k])
    ensures k == |s| || !IsJsWhitespace(s[k])
  {
    if |s| > 0 && IsJsWhitespace(s[0]) then
      var k := LeadingWhitespace(s[1..]);
      WhitespacePrefixStep(s, k + 1);
      k + 1
    else 0
  }

  lemma WhitespacePrefixStep(s: string, k: nat)
    requires 1 <= k <= |s| && IsJsWhitespace(s[0]) && AllWhitespace(s[1..][..k - 1])
    ensures AllWhitespace(s[..k])
    ensures k < |s| ==> s[1..][k - 1] == s[k]
  {
    forall i | 0 <= i < k ensures IsJsWhitespace(s[..k][i]) {
      if i > 0 {
        assert s[..k][i] == s[1..][..k - 1][i - 1];
      }
    }
  }

  /** Drops leading whitespace; what is dropped is a whitespace prefix. */
  function TrimStart(s: string): (r: string)
    ensures |r| <= |s| && r == s[|s| - |r|..]
    ensures AllWhitespace(s[..|s| - |r|])
    ensures r == [] || !IsJsWhitespace(r[0])
  {
    s[LeadingWhitespace(s)..]
  }

  /** Drops trailing whitespace; what is dropped is a whitespace suffix. */
  function TrimEnd(s: string): (r: string)
    ensures |r| <= |s| && r == s[..|r|]
    ensures AllWhitespace(s[|r|..])
    ensures r == [] || !IsJsWhitespace(r[|r| - 1])
  {
    if |s| > 0 && IsJsWhitespace(s[|s| - 1]) then
      var r := TrimEnd(s[..|s| - 1]);
      WhitespaceSuffixStep(s, |r|);
      r
    else s
  }

  lemma WhitespaceSuffixStep(s: string, k: nat)
    requires k < |s| && IsJsWhitespace(s[|s| - 1]) && AllWhitespace(s[..|s| - 1][k..])
    ensures AllWhitespace(s[k..])
  {
    forall i | 0 <= i < |s| - k ensures IsJsWhitespace(s[k..][i]) {
      if i < |s| - k - 1 {
        assert s[k..][i] == s[..|s| - 1][k..][i];
      }
    }
  }

  /** `String.prototype.trim`: empty exactly when the string is all whitespace. */
  function Trim(s: string): (r: string)
    ensures |r| <= |s|
    ensures r == [] <==> AllWhitespace(s)
  {
    var a := TrimStart(s);
    var r := TrimEnd(a);
    TrimPieces(s, a, r);
    r
  }

  lemma TrimPieces(s: string, a: string, r: string)
    requires |a| <= |s| && a == s[|s| - |a|..] && AllWhitespace(s[..|s| - |a|])
    requires |r| <= |a| && r == a[..|r|] && AllWhitespace(a[|r|..])
    ensures r == [] ==> AllWhitespace(s)
  {
    if r == [] {
      forall i | 0 <= i < |s| ensures IsJsWhitespace(s[i]) {
        if i >= |s| - |a| {
          assert s[i] == a[i - (|s| - |a|)];
        } else {
          assert s[i] == s[..|s| - |a|][i];
        }
      }
    }
  }

  /** A trimmed string neither starts nor ends with whitespace. */
  lemma TrimEnds(s: string)
    ensures Trim(s) != [] ==> !IsJsWhitespace(Trim(s)[0]) && !IsJsWhitespace(Trim(s)[|Trim(s)| - 1])
  {
    var a := TrimStart(s);
    var r := TrimEnd(a);
    if r != [] {
      assert r[0] == a[0];
    }
  }

  /** Trimming changes nothing when the string has no whitespace at either end. */
  lemma TrimTrimmed(s: string)
    requires s == [] || (!IsJsWhitespace(s[0]) && !IsJsWhitespace(s[|s| - 1]))
    ensures Trim(s) == s
  {
  }

  /** Trimming twice is trimming once. */
  lemma TrimIdempotent(s: string)
    ensures Trim(Trim(s)) == Trim(s)
  {
    TrimEnds(s);
    TrimTrimmed(Trim(s));
  }

  /** `parts.join(sep)`: the empty array joins to the empty string. */
  function Join(parts: seq<string>, sep: string): string {
    if |parts| == 0 then ""
    else if |parts| == 1 then parts[0]
    else parts[0] + sep + Join(parts[1..], sep)
  }

  /** `s.split(d)` for a one-character separator `d`; never empty, and joining the pieces back gives `s`. */
  function Split(s: string, d: char): (parts: seq<string>)
    ensures |parts| >= 1
    ensures forall i :: 0 <= i < |parts| ==> d !in parts[i]
    ensures Join(parts, [d]) == s
  {
    if |s| == 0 then [""]
    else if s[0] == d then [""] + Split(s[1..], d)
    else
      var rest := Split(s[1..], d);
      [[s[0]] + rest[0]] + rest[1..]
  }

  /** A prefix free of the separator becomes the first piece. */
  lemma {:induction false} SplitAfterPrefix(a: string, d: char, b: string)
    requires d !in a
    ensures Split(a + [d] + b, d) == [a] + Split(b, d)
  {
    if |a| == 0 {
      assert a + [d] + b == [d] + b;
      assert ([d] + b)[1..] == b;
    } else {
      assert (a + [d] + b)[1..] == a[1..] + [d] + b;
      SplitAfterPrefix(a[1..], d, b);
      assert [a[0]] + a[1..] == a;
    }
  }

  /** Splitting undoes joining when no piece contains the separator. */
  lemma {:induction false} SplitJoin(parts: seq<string>, d: char)
    requires |parts| >= 1
    requires forall i :: 0 <= i < |parts| ==> d !in parts[i]
    ensures Split(Join(parts, [d]), d) == parts
  {
    if |parts| == 1 {
      SplitNoSeparator(parts[0], d);
    } else {
      SplitJoin(parts[1..], d);
      SplitAfterPrefix(parts[0], d, Join(parts[1..], [d]));
      assert [parts[0]] + parts[1..] == parts;
    }
  }

  lemma {:induction false} SplitNoSeparator(s: string, d: char)
    requires d !in s
    ensures Split(s, d) == [s]
  {
    if |s| > 0 {
      SplitNoSeparator(s[1..], d);
      assert [s[0]] + s[1..] == s;
    }
  }

  /** Splitting at one occurrence of the separator splits the two sides independently. */
  lemma {:induction false} SplitConcat(a: string, d: char, b: string)
    ensures Split(a + [d] + b, d) == Split(a, d) + Split(b, d)
  {
    var s := a + [d] + b;
    if |a| == 0 {
      assert s == [d] + b && s[1..] == b;
    } else {
      assert s[0] == a[0] && s[1..] == a[1..] + [d] + b;
      SplitConcat(a[1..], d, b);
      var pa, pb := Split(a[1..], d), Split(b, d);
      assert Split(s[1..], d) == pa + pb;
      if a[0] == d {
        SplitSeparatorFirst(s, d);
        SplitSeparatorFirst(a, d);
      } else {
        SplitOtherFirst(s, d);
        SplitOtherFirst(a, d);
        ConsOntoFirst([a[0]], pa, pb);
      }
    }
  }

  /** Prefixing the first piece of a concatenation prefixes the first piece of its left part. */
  lemma ConsOntoFirst(x: string, pa: seq<string>, pb: seq<string>)
    requires |pa| >= 1
    ensures [x + (pa + pb)[0]] + (pa + pb)[1..] == ([x + pa[0]] + pa[1..]) + pb
  {
    assert (pa + pb)[0] == pa[0];
    assert (pa + pb)[1..] == pa[1..] + pb;
  }

  lemma SplitSeparatorFirst(s: string, d: char)
    requires |s| > 0 && s[0] == d
    ensures Split(s, d) == [""] + Split(s[1..], d)
  {
  }

  lemma SplitOtherFirst(s: string, d: char)
    requires |s| > 0 && s[0] != d
    ensures Split(s, d) == [[s[0]] + Split(s[1..], d)[0]] + Split(s[1..], d)[1..]
  {
  }

  function DigitChar(d: nat): (c: char)
    requires d < 10
    ensures '0' <= c <= '9'
    ensures c as int - '0' as int == d
  {
    ('0' as int + d) as char
  }

  /** The decimal rendering of `n` that a template literal `${n}` produces. */
  function NatToString(n: nat): (s: string)
    ensures |s| >= 1
    ensures forall i :: 0 <= i < |s| ==> '0' <= s[i] <= '9'
    ensures n < 10 <==> |s| == 1
  {
    if n < 10 then [DigitChar(n)] else NatToString(n / 10) + [DigitChar(n % 10)]
  }

  /** The value of a string of decimal digits; the reading partner of `NatToString`. */
  function DecimalValue(s: string): nat
    requires forall i :: 0 <= i < |s| ==> '0' <= s[i] <= '9'
  {
    if |s| == 0 then 0 else 10 * DecimalValue(s[..|s| - 1]) + (s[|s| - 1] as int - '0' as int)
  }

  lemma {:induction false} DecimalRoundTrip(n: nat)
    ensures DecimalValue(NatToString(n)) == n
  {
    var s := NatToString(n);
    if n >= 10 {
      assert s[..|s| - 1] == NatToString(n / 10);
      assert s[|s| - 1] == DigitChar(n % 10);
      DecimalRoundTrip(n / 10);
    } else {
      assert s == [DigitChar(n)];
    }
  }

  lemma NatToStringInjective(m: nat, n: nat)
    requires NatToString(m) == NatToString(n)
    ensures m == n
  {
    DecimalRoundTrip(m);
    DecimalRoundTrip(n);
  }

  /** `s.length` in JavaScript: code points above U+FFFF take two UTF-16 code units. */
  function Utf16Length(s: string): nat {
    if |s| == 0 then 0 else (if s[0] as int > 0xFFFF then 2 else 1) + Utf16Length(s[1..])
  }

  /** `xs.flatMap(f)`. */
  function FlatMap<A, B>(f: A -> seq<B>, xs: seq<A>): seq<B> {
    if |xs| == 0 then [] else f(xs[0]) + FlatMap(f, xs[1..])
  }

  lemma {:induction false} FlatMapAppend<A, B>(f: A -> seq<B>, a: seq<A>, b: seq<A>)
    ensures FlatMap(f, a + b) == FlatMap(f, a) + FlatMap(f, b)
  {
    if |a| == 0 {
      assert a + b == b;
    } else {
      FlatMapAppend(f, a[1..], b);
      assert (a + b)[0] == a[0] && (a + b)[1..] == a[1..] + b;
      var h, p, q := f(a[0]), FlatMap(f, a[1..]), FlatMap(f, b);
      assert FlatMap(f, a + b) == h + (p + q);
      AppendAssoc(h, p, q);
    }
  }

  lemma AppendAssoc<T>(x: seq<T>, y: seq<T>, z: seq<T>)
    ensures x + (y + z) == (x + y) + z
  {
  }
}

=== FILE: resumedata.dfy ===
/**
 * The resume record the builder passes between its form, its renderers and the
 * language-model client. Every entry of a section is a flat object of string fields,
 * modelled as a map from field name to value; a missing property reads as the
 * empty string, which is how every consumer in the program treats it (`x || ''`
 * or a truthiness test).
 */
module ResumeData {
  import opened Wrappers
  import opened JsString

  type Record = map<string, string>

  /** `obj.f || ''`. */
  function Field(r: Record, f: string): string {
    if f in r then r[f] else ""
  }

  /** The truthiness of `obj.f`: present and not the empty string. */
  predicate Truthy(r: Record, f: string) {
    Field(r, f) != ""
  }

  /** One group of the list-shaped skills: `{category, items}`. */
  datatype SkillGroup = SkillGroup(category: string, items: seq<string>)

  /**
   * `skills` has two shapes in the program: a free-text string in the form and in
   * generated sample data, and a list of groups in the two renderers.
   */
  datatype Skills = Text(text: string) | Groups(groups: seq<SkillGroup>)

  /** The four repeatable sections of the form, in the order the program visits them. */
  datatype Section = Education | Work | Projects | Research

  const Sections: seq<Section> := [Education, Work, Projects, Research]

  /** The section's key in the record, in container ids and in item ids. */
  function SectionName(s: Section): (name: string)
    ensures '_' !in name && name != ""
  {
    match s
    case Education => "education"
    case Work => "work"
    case Projects => "projects"
    case Research => "research"
  }

  /** Looks a section up by its key; any other string names no section. */
  function ParseSection(name: string): (r: Option<Section>)
    ensures r.Some? ==> SectionName(r.value) == name
    ensures r.None? ==> forall s: Section :: SectionName(s) != name
  {
    if name == "education" then Some(Education)
    else if name == "work" then Some(Work)
    else if name == "projects" then Some(Projects)
    else if name == "research" then Some(Research)
    else None
  }

  /** Every section is found again under its own key. */
  lemma SectionNameRoundTrip(s: Section)
    ensures ParseSection(SectionName(s)) == Some(s)
  {
  }

  /** A whole resume; `personal` is `None` when the record has no personal object. */
  datatype Resume = Resume(
    personal: Option<Record>,
    education: seq<Record>,
    work: seq<Record>,
    projects: seq<Record>,
    research: seq<Record>,
    skills: Skills)
  {
    function Entries(s: Section): seq<Record> {
      match s
      case Education => education
      case Work => work
      case Projects => projects
      case Research => research
    }

    function WithEntries(s: Section, es: seq<Record>): (r: Resume)
      ensures r.Entries(s) == es
      ensures forall t :: t != s ==> r.Entries(t) == Entries(t)
      ensures r.personal == personal && r.skills == skills
    {
      match s
      case Education => this.(education := es)
      case Work => this.(work := es)
      case Projects => this.(projects := es)
      case Research => this.(research := es)
    }

    /** `data.personal.name`, or the empty string when either is missing. */
    function Name(): string {
      if personal.Some? then Field(personal.value, "name") else ""
    }
  }

  /** A value kept once per section, such as the item counters or the item containers. */
  datatype PerSection<T> = PerSection(education: T, work: T, projects: T, research: T) {
    function Get(s: Section): T {
      match s
      case Education => education
      case Work => work
      case Projects => projects
      case Research => research
    }

    function Set(s: Section, v: T): (r: PerSection<T>)
      ensures r.Get(s) == v
      ensures forall t :: t != s ==> r.Get(t) == Get(t)
    {
      match s
      case Education => this.(education := v)
      case Work => this.(work := v)
      case Projects => this.(projects := v)
      case Research => this.(research := v)
    }
  }

  /** The per-section value `f(s)` for every section. */
  function Tabulate<T>(f: Section -> T): (r: PerSection<T>)
    ensures forall s :: r.Get(s) == f(s)
  {
    PerSection(f(Education), f(Work), f(Projects), f(Research))
  }

  /** The interface language: `'zh-CN'` and `'en-US'` are the two the program knows. */
  const ZhCN: string := "zh-CN"
  const EnUS: string := "en-US"
}

=== FILE: typst.dfy ===
/**
 * The decisions of the Typst integration: the escaper for text spliced into Typst
 * markup, the filtering behind the skills section, which sections a generated
 * document contains, and the ordered fallback chains that turn markup into SVG or PDF.
 * The compile methods themselves are foreign calls, so each is given as the outcome
 * it produced.
 */
module Typst {
  import opened Wrappers
  import opened JsString
  import opened ResumeData

  // ---------------------------------------------------------------------------
  // Escaping
  // ---------------------------------------------------------------------------

  /** The five characters Typst markup gives a meaning to inside the generated strings. */
  predicate IsTypstSpecial(c: char) {
    c == '\\' || c == '"' || c == '[' || c == ']' || c == '#'
  }

  /** `s.replace(/c/g, rep)` for a single character `c` and a replacement without `$`. */
  function ReplaceAll(s: string, c: char, rep: string): string {
    if |s| == 0 then "" else (if s[0] == c then rep else [s[0]]) + ReplaceAll(s[1..], c, rep)
  }

  /** The escaper as the program writes it: five global replacements, backslashes first. */
  function EscapeTypst(s: string): (r: string)
    ensures r == PerCharEscape(s)
  {
    EscapeIsPerChar(s);
    var a := ReplaceAll(s, '\\', "\\\\");
    var b := ReplaceAll(a, '"', "\\\"");
    var c := ReplaceAll(b, '[', "\\[");
    var d := ReplaceAll(c, ']', "\\]");
    ReplaceAll(d, '#', "\\#")
  }

  /** Reference definition: each special character gets one backslash in front, all else is kept. */
  function EscapeChar(c: char): string {
    if IsTypstSpecial(c) then ['\\', c] else [c]
  }

  function PerCharEscape(s: string): string {
    if |s| == 0 then "" else EscapeChar(s[0]) + PerCharEscape(s[1..])
  }

  /** Removes the backslash in front of each escaped special character. */
  function Unescape(t: string): string {
    if |t| == 0 then ""
    else if |t| >= 2 && t[0] == '\\' && IsTypstSpecial(t[1]) then [t[1]] + Unescape(t[2..])
    else [t[0]] + Unescape(t[1..])
  }

  function CountSpecial(s: string): nat {
    if |s| == 0 then 0 else (if IsTypstSpecial(s[0]) then 1 else 0) + CountSpecial(s[1..])
  }

  lemma {:induction false} ReplaceAllAppend(a: string, b: string, c: char, rep: string)
    ensures ReplaceAll(a + b, c, rep) == ReplaceAll(a, c, rep) + ReplaceAll(b, c, rep)
  {
    if |a| > 0 {
      assert (a + b)[1..] == a[1..] + b;
      ReplaceAllAppend(a[1..], b, c, rep);
    } else {
      assert a + b == b;
    }
  }

  function Chain(s: string): string {
    ReplaceAll(ReplaceAll(ReplaceAll(ReplaceAll(ReplaceAll(s, '\\', "\\\\"), '"', "\\\""), '[', "\\["), ']', "\\]"), '#', "\\#")
  }

  lemma ChainAppend(a: string, b: string)
    ensures Chain(a + b) == Chain(a) + Chain(b)
  {
    var a1, b1 := ReplaceAll(a, '\\', "\\\\"), ReplaceAll(b, '\\', "\\\\");
    ReplaceAllAppend(a, b, '\\', "\\\\");
    var a2, b2 := ReplaceAll(a1, '"', "\\\""), ReplaceAll(b1, '"', "\\\"");
    ReplaceAllAppend(a1, b1, '"', "\\\"");
    var a3, b3 := ReplaceAll(a2, '[', "\\["), ReplaceAll(b2, '[', "\\[");
    ReplaceAllAppend(a2, b2, '[', "\\[");
    var a4, b4 := ReplaceAll(a3, ']', "\\]"), ReplaceAll(b3, ']', "\\]");
    ReplaceAllAppend(a3, b3, ']', "\\]");
    ReplaceAllAppend(a4, b4, '#', "\\#");
  }

  lemma ReplaceAllAbsent(s: string, c: char, rep: string)
    requires c !in s
    ensures ReplaceAll(s, c, rep) == s
  {
    if |s| > 0 {
      ReplaceAllAbsent(s[1..], c, rep);
      assert [s[0]] + s[1..] == s;
    }
  }

  lemma ReplaceSingle(c: char, d: char, rep: string)
    ensures ReplaceAll([c], d, rep) == if c == d then rep else [c]
  {
    assert [c][1..] == [];
  }

  /** A later pass never touches a character it does not target, so a one-character chain is `EscapeChar`. */
  lemma ChainOneChar(c: char)
    ensures Chain([c]) == EscapeChar(c)
  {
    var x1 := ReplaceAll([c], '\\', "\\\\");
    var x2 := ReplaceAll(x1, '"', "\\\"");
    var x3 := ReplaceAll(x2, '[', "\\[");
    var x4 := ReplaceAll(x3, ']', "\\]");
    var x5 := ReplaceAll(x4, '#', "\\#");
    ReplaceSingle(c, '\\', "\\\\");
    ReplaceSingle(c, '"', "\\\"");
    ReplaceSingle(c, '[', "\\[");
    ReplaceSingle(c, ']', "\\]");
    ReplaceSingle(c, '#', "\\#");
    if c == '\\' {
      ReplaceAllAbsent(x1, '"', "\\\"");
      ReplaceAllAbsent(x2, '[', "\\[");
      ReplaceAllAbsent(x3, ']', "\\]");
      ReplaceAllAbsent(x4, '#', "\\#");
    } else if c == '"' {
      assert x2 == "\\\"";
      ReplaceAllAbsent(x2, '[', "\\[");
      ReplaceAllAbsent(x3, ']', "\\]");
      ReplaceAllAbsent(x4, '#', "\\#");
    } else if c == '[' {
      assert x2 == [c];
      assert x3 == "\\[";
      ReplaceAllAbsent(x3, ']', "\\]");
      ReplaceAllAbsent(x4, '#', "\\#");
    } else if c == ']' {
      assert x2 == [c] && x3 == [c];
      assert x4 == "\\]";
      ReplaceAllAbsent(x4, '#', "\\#");
    } else if c == '#' {
      assert x2 == [c] && x3 == [c] && x4 == [c];
      assert x5 == "\\#";
    } else {
      assert x2 == [c] && x3 == [c] && x4 == [c] && x5 == [c];
    }
  }

  lemma {:induction false} EscapeIsPerChar(s: string)
    ensures Chain(s) == PerCharEscape(s)
  {
    if |s| > 0 {
      assert s == [s[0]] + s[1..];
      ChainAppend([s[0]], s[1..]);
      ChainOneChar(s[0]);
      EscapeIsPerChar(s[1..]);
    }
  }

  /** `escapeTypst('')` is `''`; no non-empty input escapes to the empty string. */
  lemma EscapeEmpty(s: string)
    ensures EscapeTypst(s) == "" <==> s == ""
  {
    if s != "" {
      assert |EscapeChar(s[0])| >= 1;
    }
  }

  /** Each special character costs exactly one extra character. */
  lemma {:induction false} EscapeLength(s: string)
    ensures |EscapeTypst(s)| == |s| + CountSpecial(s)
  {
    if |s| > 0 {
      EscapeLength(s[1..]);
    }
  }

  /** Removing the inserted backslashes recovers the input exactly. */
  lemma {:induction false} EscapeRoundTrip(s: string)
    ensures Unescape(EscapeTypst(s)) == s
  {
    if |s| > 0 {
      var t := PerCharEscape(s[1..]);
      EscapeRoundTrip(s[1..]);
      if IsTypstSpecial(s[0]) {
        assert (['\\', s[0]] + t)[2..] == t;
      } else {
        assert ([s[0]] + t)[1..] == t;
      }
      assert [s[0]] + s[1..] == s;
    }
  }

  /** Distinct inputs escape to distinct outputs. */
  lemma EscapeInjective(a: string, b: string)
    requires EscapeTypst(a) == EscapeTypst(b)
    ensures a == b
  {
    EscapeRoundTrip(a);
    EscapeRoundTrip(b);
  }

  // ---------------------------------------------------------------------------
  // Skills section
  // ---------------------------------------------------------------------------

  /** What a skill category contributes: an optional bold heading and its non-empty items. */
  datatype SkillLine = SkillLine(heading: Option<string>, items: seq<string>)

  /** `items.some(i => i && i.trim())`. */
  predicate HasNonBlankItem(items: seq<string>) {
    exists i :: 0 <= i < |items| && NonBlank(items[i])
  }

  function AnyNonBlank(items: seq<string>): (b: bool)
    ensures b <==> HasNonBlankItem(items)
  {
    if |items| == 0 then false
    else NonBlank(items[0]) || (assert forall i :: 0 < i < |items| ==> items[i] == items[1..][i - 1]; AnyNonBlank(items[1..]))
  }

  /** `items.map(item => escapeTypst(item.trim()))`. */
  function EscapeTrimmed(items: seq<string>): (r: seq<string>)
    ensures |r| == |items|
    ensures forall i :: 0 <= i < |items| ==> r[i] == EscapeTypst(Trim(items[i]))
  {
    if |items| == 0 then [] else [EscapeTypst(Trim(items[0]))] + EscapeTrimmed(items[1..])
  }

  /** `.filter(Boolean)` on strings. */
  function DropEmpty(xs: seq<string>): (r: seq<string>)
    ensures |r| <= |xs|
    ensures forall i :: 0 <= i < |r| ==> r[i] != ""
  {
    if |xs| == 0 then [] else (if xs[0] == "" then [] else [xs[0]]) + DropEmpty(xs[1..])
  }

  /** A single string is kept exactly when it is not empty. */
  lemma DropEmptySingle(x: string)
    ensures DropEmpty([x]) == if x == "" then [] else [x]
  {
    assert [x][1..] == [];
  }

  /** Dropping empties distributes over concatenation, so the survivors keep their order. */
  lemma DropEmptyAppend(a: seq<string>, b: seq<string>)
    ensures DropEmpty(a + b) == DropEmpty(a) + DropEmpty(b)
  {
    DropEmptyIsFlatMap(a + b);
    DropEmptyIsFlatMap(a);
    DropEmptyIsFlatMap(b);
    FlatMapAppend(KeptIfNonEmpty, a, b);
  }

  /** What one string contributes to `.filter(Boolean)`. */
  function KeptIfNonEmpty(x: string): seq<string> {
    if x == "" then [] else [x]
  }

  lemma {:induction false} DropEmptyIsFlatMap(xs: seq<string>)
    ensures DropEmpty(xs) == FlatMap(KeptIfNonEmpty, xs)
  {
    if |xs| > 0 {
      DropEmptyIsFlatMap(xs[1..]);
    }
  }

  /** Reference definition: the non-blank items, trimmed and escaped, in input order. */
  function KeptItems(items: seq<string>): seq<string> {
    if |items| == 0 then []
    else (if NonBlank(items[0]) then [EscapeTypst(Trim(items[0]))] else []) + KeptItems(items[1..])
  }

  /** Escaping first and dropping empties afterwards keeps exactly the non-blank items. */
  lemma {:induction false} EscapeThenDropIsKept(items: seq<string>)
    ensures DropEmpty(EscapeTrimmed(items)) == KeptItems(items)
  {
    if |items| > 0 {
      EscapeThenDropIsKept(items[1..]);
      EscapeEmpty(Trim(items[0]));
      assert EscapeTrimmed(items)[1..] == EscapeTrimmed(items[1..]);
    }
  }

  /** Some item survives exactly when some item is non-blank. */
  lemma {:induction false} KeptItemsNonEmpty(items: seq<string>)
    ensures |KeptItems(items)| > 0 <==> HasNonBlankItem(items)
  {
    if |items| > 0 {
      KeptItemsNonEmpty(items[1..]);
      if HasNonBlankItem(items) && !NonBlank(items[0]) {
        var i :| 0 <= i < |items| && NonBlank(items[i]);
        assert NonBlank(items[1..][i - 1]);
      }
      if HasNonBlankItem(items[1..]) {
        var i :| 0 <= i < |items[1..]| && NonBlank(items[1..][i]);
        assert NonBlank(items[i + 1]);
      }
    }
  }

  /** The line a category contributes to the Typst skills section, if any. */
  function TypstSkillLine(g: SkillGroup): (r: Option<SkillLine>)
    ensures r.Some? <==> HasNonBlankItem(g.items)
    ensures r.Some? ==> r.value.items == KeptItems(g.items) && |r.value.items| > 0
    ensures r.Some? ==> (r.value.heading.Some? <==> NonBlank(g.category))
    ensures r.Some? && r.value.heading.Some? ==> r.value.heading.value == EscapeTypst(Trim(g.category))
  {
    EscapeThenDropIsKept(g.items);
    KeptItemsNonEmpty(g.items);
    if !AnyNonBlank(g.items) then None
    else
      var filtered := DropEmpty(EscapeTrimmed(g.items));
      if |filtered| == 0 then None
      else if NonBlank(g.category) then Some(SkillLine(Some(EscapeTypst(Trim(g.category))), filtered))
      else Some(SkillLine(None, filtered))
  }

  /** The markup of one line; it is never empty, so the program's `.filter(Boolean)` drops only absent lines. */
  function RenderSkillLine(l: SkillLine): (r: string)
    ensures r != ""
  {
    match l.heading
    case Some(c) => "#text(size: 9pt)[#tag-icon *" + c + ":* " + Join(l.items, ", ") + "]"
    case None => "#text(size: 9pt)[" + Join(l.items, ", ") + "]"
  }

  /** The lines of all categories that have one, in input order. */
  function TypstSkillLines(groups: seq<SkillGroup>): (r: seq<SkillLine>)
    ensures |r| <= |groups|
  {
    if |groups| == 0 then [] else LineOf(groups[0]) + TypstSkillLines(groups[1..])
  }

  /** Every line is the line of one of the categories. */
  lemma {:induction false} TypstSkillLinesFromGroups(groups: seq<SkillGroup>)
    ensures forall l :: l in TypstSkillLines(groups) ==> exists g :: g in groups && TypstSkillLine(g) == Some(l)
  {
    if |groups| > 0 {
      TypstSkillLinesFromGroups(groups[1..]);
      assert forall g :: g in groups[1..] ==> g in groups;
    }
  }

  /** The line one category contributes, if any. */
  function LineOf(g: SkillGroup): (r: seq<SkillLine>)
    ensures |r| <= 1
  {
    match TypstSkillLine(g) case Some(l) => [l] case None => []
  }

  /** Lines keep the order of their categories: the lines of a concatenation are the concatenated lines. */
  lemma TypstSkillLinesAppend(a: seq<SkillGroup>, b: seq<SkillGroup>)
    ensures TypstSkillLines(a + b) == TypstSkillLines(a) + TypstSkillLines(b)
  {
    TypstSkillLinesIsFlatMap(a + b);
    TypstSkillLinesIsFlatMap(a);
    TypstSkillLinesIsFlatMap(b);
    FlatMapAppend(LineOf, a, b);
  }

  lemma {:induction false} TypstSkillLinesIsFlatMap(groups: seq<SkillGroup>)
    ensures TypstSkillLines(groups) == FlatMap(LineOf, groups)
  {
    if |groups| > 0 {
      TypstSkillLinesIsFlatMap(groups[1..]);
    }
  }

  /** A category contributes exactly when one of its items is non-blank. */
  lemma {:induction false} TypstSkillLinesEmpty(groups: seq<SkillGroup>)
    ensures TypstSkillLines(groups) == [] <==> forall j :: 0 <= j < |groups| ==> !HasNonBlankItem(groups[j].items)
  {
    if |groups| > 0 {
      TypstSkillLinesEmpty(groups[1..]);
      assert forall j :: 1 <= j < |groups| ==> groups[j] == groups[1..][j - 1];
    }
  }

  /** Joins surviving lines: a backslash, `n`, `#v(2pt)`, a backslash, `n` — not newline characters. */
  const SkillLineSeparator: string := "\\n#v(2pt)\\n"

  function SkillsTitle(lang: string): string {
    if lang == EnUS then "Skills" else "技能特长"
  }

  function SkillsHeader(lang: string): string {
    "\n// Skills\n#text(16pt, weight: \"bold\")[#skills-icon " + SkillsTitle(lang) + "]\n#line(length: 100%)\n"
  }

  function RenderAll(lines: seq<SkillLine>): (r: seq<string>)
    ensures |r| == |lines|
    ensures forall i :: 0 <= i < |lines| ==> r[i] == RenderSkillLine(lines[i])
  {
    if |lines| == 0 then [] else [RenderSkillLine(lines[0])] + RenderAll(lines[1..])
  }

  /** `generateSkillsSection`: nothing for no categories, else the header and the joined lines. */
  function SkillsSection(groups: seq<SkillGroup>, lang: string): (r: string)
    ensures |groups| == 0 ==> r == ""
    ensures |groups| > 0 ==> r == SkillsHeader(lang) + Join(RenderAll(TypstSkillLines(groups)), SkillLineSeparator)
  {
    if |groups| == 0 then ""
    else
      var lines := RenderAll(TypstSkillLines(groups));
      if |lines| > 0 then SkillsHeader(lang) + Join(lines, SkillLineSeparator) else SkillsHeader(lang)
  }

  // ---------------------------------------------------------------------------
  // Which sections a document contains
  // ---------------------------------------------------------------------------

  /** A block of the generated document after its fixed header. */
  datatype Block = SectionBlock(section: Section) | SkillsBlock

  function Rank(b: Block): nat {
    match b
    case SectionBlock(Education) => 0
    case SectionBlock(Work) => 1
    case SectionBlock(Projects) => 2
    case SectionBlock(Research) => 3
    case SkillsBlock => 4
  }

  /** `data.research.some(p => p.title || p.journal)`: untrimmed, so a blank title counts. */
  predicate HasTitledPaper(research: seq<Record>) {
    exists i :: 0 <= i < |research| && (Truthy(research[i], "title") || Truthy(research[i], "journal"))
  }

  function AnyTitledPaper(research: seq<Record>): (b: bool)
    ensures b <==> HasTitledPaper(research)
  {
    if |research| == 0 then false
    else
      Truthy(research[0], "title") || Truthy(research[0], "journal")
      || (assert forall i :: 0 < i < |research| ==> research[i] == research[1..][i - 1]; AnyTitledPaper(research[1..]))
  }

  /** Every block in the order `generateTypstCode` considers them. */
  const AllBlocks: seq<Block> := [SectionBlock(Education), SectionBlock(Work), SectionBlock(Projects), SectionBlock(Research), SkillsBlock]

  /** The test `generateTypstCode` applies before appending a block. */
  predicate InTypst(data: Resume, b: Block) {
    match b
    case SectionBlock(s) =>
      if s == Research then |data.research| > 0 && AnyTitledPaper(data.research)
      else |data.Entries(s)| > 0
    case SkillsBlock => data.skills.Groups? && |data.skills.groups| > 0
  }

  function KeepBlocks(bs: seq<Block>, data: Resume): (r: seq<Block>)
    ensures forall b :: b in r <==> b in bs && InTypst(data, b)
  {
    if |bs| == 0 then [] else (if InTypst(data, bs[0]) then [bs[0]] else []) + KeepBlocks(bs[1..], data)
  }

  /** Keeping some blocks of a list ordered by rank leaves an ordered list. */
  lemma {:induction false} KeepBlocksOrdered(bs: seq<Block>, data: Resume)
    requires forall i, j :: 0 <= i < j < |bs| ==> Rank(bs[i]) < Rank(bs[j])
    ensures forall i, j :: 0 <= i < j < |KeepBlocks(bs, data)| ==> Rank(KeepBlocks(bs, data)[i]) < Rank(KeepBlocks(bs, data)[j])
  {
    if |bs| > 0 {
      var rest := KeepBlocks(bs[1..], data);
      KeepBlocksOrdered(bs[1..], data);
      forall k | 0 <= k < |rest| ensures Rank(bs[0]) < Rank(rest[k]) {
        assert rest[k] in bs[1..];
        var m :| 0 <= m < |bs[1..]| && bs[1..][m] == rest[k];
        assert bs[m + 1] == rest[k];
      }
    }
  }

  /** The blocks `generateTypstCode` appends, in the order it appends them. */
  function TypstBlocks(data: Resume): (r: seq<Block>)
    ensures SectionBlock(Education) in r <==> |data.education| > 0
    ensures SectionBlock(Work) in r <==> |data.work| > 0
    ensures SectionBlock(Projects) in r <==> |data.projects| > 0
    ensures SectionBlock(Research) in r <==> HasTitledPaper(data.research)
    ensures SkillsBlock in r <==> data.skills.Groups? && |data.skills.groups| > 0
    ensures forall i, j :: 0 <= i < j < |r| ==> Rank(r[i]) < Rank(r[j])
  {
    KeepBlocksOrdered(AllBlocks, data);
    KeepBlocks(AllBlocks, data)
  }

  // ---------------------------------------------------------------------------
  // Compilation fallback chains
  // ---------------------------------------------------------------------------

  /** What one compile method did: threw, returned something falsy, or returned a value with a length. */
  datatype Attempt<E> = Threw | ReturnedNothing | Returned(output: seq<E>)

  /** `result && result.length > 0`. */
  predicate Succeeded<E>(a: Attempt<E>) {
    a.Returned? && |a.output| > 0
  }

  /** The value a chain returned, if any, and how many methods it invoked. */
  datatype ChainResult<E> = ChainResult(output: Option<seq<E>>, tried: nat)

  /** Tries the methods in order and stops at the first that returns a non-empty result. */
  function FirstSuccess<E>(attempts: seq<Attempt<E>>): (r: ChainResult<E>)
    ensures r.tried <= |attempts|
    ensures r.output.Some? <==> exists i :: 0 <= i < |attempts| && Succeeded(attempts[i])
    ensures r.output.Some? ==> 0 < r.tried && Succeeded(attempts[r.tried - 1])
                               && r.output.value == attempts[r.tried - 1].output
    ensures forall j :: 0 <= j < r.tried - 1 ==> !Succeeded(attempts[j])
    ensures r.output.None? ==> r.tried == |attempts|
  {
    if |attempts| == 0 then ChainResult(None, 0)
    else if Succeeded(attempts[0]) then ChainResult(Some(attempts[0].output), 1)
    else
      var rest := FirstSuccess(attempts[1..]);
      assert forall i :: 1 <= i < |attempts| ==> attempts[i] == attempts[1..][i - 1];
      ChainResult(rest.output, rest.tried + 1)
  }

  /** The outcomes of the four compile methods of one output format. */
  datatype CompileMethods<E> = CompileMethods(first: Attempt<E>, second: Attempt<E>, third: Attempt<E>, fourth: Attempt<E>) {
    function InOrder(): seq<Attempt<E>> {
      [first, second, third, fourth]
    }
  }

  newtype Byte = x: int | 0 <= x < 256

  /**
   * `compileToSVG` and `compileToPDF` share one loop: the first of methods 1..4 to return a
   * non-empty result wins, and the chain throws only if all four fail.
   */
  function Compile<E>(m: CompileMethods<E>): (r: ChainResult<E>)
    ensures Succeeded(m.first) ==> r == ChainResult(Some(m.first.output), 1)
    ensures !Succeeded(m.first) && Succeeded(m.second) ==> r == ChainResult(Some(m.second.output), 2)
    ensures !Succeeded(m.first) && !Succeeded(m.second) && Succeeded(m.third) ==> r == ChainResult(Some(m.third.output), 3)
    ensures !Succeeded(m.first) && !Succeeded(m.second) && !Succeeded(m.third) && Succeeded(m.fourth)
            ==> r == ChainResult(Some(m.fourth.output), 4)
    ensures !Succeeded(m.first) && !Succeeded(m.second) && !Succeeded(m.third)
            ==> r.tried == 4 && (r.output.Some? <==> Succeeded(m.fourth))
    ensures r.output.None? <==> !Succeeded(m.first) && !Succeeded(m.second) && !Succeeded(m.third) && !Succeeded(m.fourth)
  {
    assert m.InOrder()[0] == m.first && m.InOrder()[1] == m.second;
    assert m.InOrder()[2] == m.third && m.InOrder()[3] == m.fourth;
    FirstSuccess(m.InOrder())
  }

  datatype VectorDocument = SvgDocument(svg: string) | PdfDocument(pdf: seq<Byte>)

  /** What `compileToVectorFormat` produced and how many methods of each chain it invoked. */
  datatype VectorResult = VectorResult(document: Option<VectorDocument>, svgTried: nat, pdfTried: nat)

  /**
   * `compileToSVG` or `compileToPDF` as a whole. When loading the compiler failed, `init`
   * returned false and `this.api` is still `null`; logging its property names then throws
   * before the first method runs.
   */
  function CompileTo<E>(loaded: bool, m: CompileMethods<E>): (r: ChainResult<E>)
    ensures r.output.Some? <==> loaded && AnySucceeds(m)
    ensures r.tried == 0 <==> !loaded
    ensures loaded ==> r == Compile(m)
  {
    if loaded then
      assert |m.InOrder()| == 4;
      Compile(m)
    else ChainResult(None, 0)
  }

  /** SVG first; PDF only once the SVG chain has failed; it throws only if both chains fail. */
  function CompileToVectorFormat(loaded: bool, svg: CompileMethods<char>, pdf: CompileMethods<Byte>): (r: VectorResult)
    ensures !loaded ==> r == VectorResult(None, 0, 0)
    ensures CompileTo(loaded, svg).output.Some?
            ==> r.document == Some(SvgDocument(CompileTo(loaded, svg).output.value)) && r.pdfTried == 0
    ensures loaded && CompileTo(loaded, svg).output.None? ==> r.svgTried == 4 && 0 < r.pdfTried
    ensures r.document.Some? && r.document.value.PdfDocument?
            ==> CompileTo(loaded, svg).output.None? && CompileTo(loaded, pdf).output.Some?
    ensures CompileTo(loaded, svg).output.None? && CompileTo(loaded, pdf).output.Some?
            ==> r.document == Some(PdfDocument(CompileTo(loaded, pdf).output.value))
    ensures r.document.None? <==> CompileTo(loaded, svg).output.None? && CompileTo(loaded, pdf).output.None?
    ensures r.svgTried == CompileTo(loaded, svg).tried
    ensures CompileTo(loaded, svg).output.None? ==> r.pdfTried == CompileTo(loaded, pdf).tried
  {
    var s := CompileTo(loaded, svg);
    match s.output
    case Some(v) => VectorResult(Some(SvgDocument(v)), s.tried, 0)
    case None =>
      var p := CompileTo(loaded, pdf);
      match p.output
      case Some(b) => VectorResult(Some(PdfDocument(b)), s.tried, p.tried)
      case None => VectorResult(None, s.tried, p.tried)
  }

  /** Some method of the chain returns a non-empty result. */
  predicate AnySucceeds<E>(m: CompileMethods<E>) {
    Succeeded(m.first) || Succeeded(m.second) || Succeeded(m.third) || Succeeded(m.fourth)
  }

  /**
   * Read against the eight methods directly: with a loaded compiler, an SVG exactly when some
   * SVG method succeeds, a PDF exactly when none does and some PDF method does; without one,
   * nothing and no method run.
   */
  lemma CompileToVectorFormatByMethods(loaded: bool, svg: CompileMethods<char>, pdf: CompileMethods<Byte>)
    ensures var r := CompileToVectorFormat(loaded, svg, pdf);
            && (r.document.Some? && r.document.value.SvgDocument? <==> loaded && AnySucceeds(svg))
            && (r.document.Some? && r.document.value.PdfDocument? <==> loaded && !AnySucceeds(svg) && AnySucceeds(pdf))
            && (loaded && AnySucceeds(svg) ==> 1 <= r.svgTried <= 4 && r.pdfTried == 0)
            && (loaded && !AnySucceeds(svg) ==> r.svgTried == 4 && 1 <= r.pdfTried <= 4)
            && (!loaded ==> r.document.None? && r.svgTried == 0 && r.pdfTried == 0)
  {
    var s := CompileTo(loaded, svg);
    assert s.tried <= 4 by {
      assert |svg.InOrder()| == 4;
    }
    assert !AnySucceeds(svg) ==> CompileTo(loaded, pdf).tried <= 4 by {
      assert |pdf.InOrder()| == 4;
    }
  }
}

=== FILE: wrappers.dfy ===
/** Failure-compatible wrappers shared by every module of the model. */
module Wrappers {

  /** A value that may be absent: JavaScript's `undefined` (or a missing property). */
  datatype Option<+T> = None | Some(value: T) {
    function GetOr(default: T): T {
      match this
      case Some(v) => v
      case None => default
    }
  }

  /** The outcome of an operation that can throw: `Failure` carries what was thrown. */
  datatype Result<+R, +E> = Success(value: R) | Failure(error: E) {
    predicate IsFailure() {
      Failure?
    }

    function PropagateFailure<U>(): Result<U, E>
      requires Failure?
    {
      Failure(error)
    }

    function Extract(): R
      requires Success?
    {
      value
    }
  }
}
